=== FILE: README.md ===
# Biblioteca digital: a verified model of the library backend

This project is a Dafny model of the FastAPI/MySQL backend of *biblioteca digital*, a
digital lending library. Registered users borrow books (at most three `activo` loans,
fourteen days each), return them, and review books they have returned. Administrators
manage the catalogue, list every loan, and import books in bulk from a spreadsheet.
The review routes are modelled, but `main.py` mounts only the `auth`, `books`, `loans`
and `bulk_upload` routers, so as shipped the application does not serve them.

The four MySQL tables (`users`, `books`, `loans`, `reviews`) live in one `Store.Library`
object. It holds a map per table, an auto-increment counter per table, and an integer
clock `now` in seconds, which stands for both `datetime.now()` and `NOW()`. Each route is
a method or function that takes the database and the decoded caller. It runs its checks
in the order of the source and answers with an `Outcome`, an HTTP status plus a tag
naming the message.

A route that refuses leaves the database unchanged, apart from the overdue refresh that
`get_my_loans` writes before it looks the caller up: its 404 comes after that refresh.
The two writes of a borrow or a
return form one transaction. Its second statement is a guarded UPDATE
(`available_copies > 0`, `available_copies < total_copies`), and when the guard matches
no row the transaction is rolled back.

The column defaults that the INSERTs rely on do not appear in the source, so the model
states them as assumptions:

- a new loan is `activo`, has no review and is dated `now`;
- a new user is active;
- a new review is dated `now`;
- a book column the INSERT leaves out is NULL: `total_pages` in both `create_book` and the
  bulk import, and `google_books_id` in the bulk import;
- no foreign key ties `loans.book_id` or `reviews.book_id` to `books`, so deleting a book
  never fails because of the loans or reviews it leaves behind.

A route that returns a plain value, rather than a `JSONResponse` built by
`create_response`, has that value checked against its `response_model`, and a value that
fails the check is answered with a 500. Two such checks are modelled:
- the catalogue reads serve each row through `BookResponse`, which re-runs the `BookBase`
  bounds and returns the cleaned ISBN;
- the preview and the reader require an integer `total_pages`. Neither `create_book` nor the
  bulk import writes that column. So, under the NULL default assumed above, a book created
  through the API can be neither previewed nor read.

Modules follow the source files:

- `Store`: the tables, the loan counts, the invariant `Library.Valid` and the overdue refresh.
- `Loans`: `routes/loans.py`.
- `Reviews`: `routes/reviews.py`.
- `Books`: `routes/books.py`.
- `Auth`: `routes/auth.py`.
- `BulkUpload`: `routes/bulk_upload.py`.
- `Models`: the request models of `models.py`.
- `Utils`: `utils.py`.
- Helpers:
  - `Text`: the ASCII string operations the code calls.
  - `Listing`: `ORDER BY` as a sorted rearrangement and `LIMIT … OFFSET …` as a window.
  - `Wrappers`: `Option` and `Result`.

Two discrepancies between the code and its documentation, resolved in favour of the code:

- `MAX_FILE_SIZE` is `1024 * 10` bytes (10 KiB), although its comment and the error
  message say 1 KB.
- The default `search_field` value `all` is not special: any value other than `title`,
  `description` or `category` searches all three fields.

## Model

| member | source | states |
|---|---|---|
| Store.RefreshOverdue | backend/app/routes/loans.py:129-137 | The overdue UPDATE changes only the status of loans that are `activo`, past due and unreturned, turning them `vencido`. It keeps every other loan and column, and leaves no loan past due. |
| Store.RefreshOverdueIdempotent | backend/app/routes/loans.py:129-137 | Refreshing twice at the same instant is the same as refreshing once. |
| Store.RefreshKeepsOutstanding | backend/app/routes/loans.py:129-137 | An overdue loan still holds its copy, so no book's set of outstanding loans (activo or vencido) changes. |
| Store.RefreshKeepsInvariants | backend/app/routes/loans.py:129-137 | The refresh keeps the three-loan limit, the one-activo-loan-per-book rule and well-formed loans. |
| Store.LimitsKeptWhenActiveShrinks | backend/app/routes/loans.py:194-218 | Loans that only leave `activo` status, or disappear, keep the per-user limit and the duplicate rule that `create_loan` guards. |
| Store.LimitsKeptByNewLoan | backend/app/routes/loans.py:194-233 | A new `activo` loan for a user under the limit, who holds no `activo` loan of that book, keeps both loan rules. |
| Store.ActiveLoansAfterInsert | backend/app/routes/loans.py:67 | The activo count of the borrower grows by the new loan, and nobody else's count changes. |
| Store.Library.UserIdOf | backend/app/routes/loans.py:32-42 | The username lookup finds an id exactly when the username is registered, and it is that user's id. |
| Loans.CheckBookAvailability | backend/app/routes/loans.py:45-60 | True only for an existing book, and for it exactly when a copy is on the shelf. |
| Loans.CountIgnoresInactiveLoans | backend/app/routes/loans.py:63-74 | Adding or changing a loan that is not `activo`, and was not before, changes no user's active-loan count. |
| Loans.DuplicateCheckIgnoresInactiveLoans | backend/app/routes/loans.py:205-218 | Such a loan never changes whether a user is found holding the book. |
| Loans.BorrowVerdict | backend/app/routes/loans.py:163-218 | The checks of `create_loan` in source order: unknown user 404, unknown book 404, no copy 400, three activo loans 400, already borrowed 400. Each outcome holds if and only if the earlier checks pass and its own fails, and success yields the caller's id. |
| Loans.NewLoan | backend/app/routes/loans.py:220-233 | The inserted loan is `activo`, unreturned, not reviewed, and due exactly fourteen days after it starts. |
| Loans.StockAfterBorrow | backend/app/routes/loans.py:228-246 | A borrow moves one copy from the shelf to an outstanding loan, so shelf copies plus outstanding loans stay the same for every book. |
| Loans.BorrowKeepsLoansValid | backend/app/routes/loans.py:194-233 | A well-formed activo loan inserted under the next id, after the limit and duplicate checks, keeps the loan table valid. |
| Loans.CommitLoan | backend/app/routes/loans.py:224-257 | The borrow transaction commits exactly when the book has a copy on the shelf. On commit there is one new loan under the next id, one copy fewer (never negative), nothing else changed, and every book's stock preserved. Otherwise the rollback leaves the database unchanged. |
| Loans.CreateLoan | backend/app/routes/loans.py:153-257 | A 422 for a non-positive `book_id`. Any refusal from `BorrowVerdict` leaves the database unchanged. On success, 201 with exactly one new loan due in fourteen days and that book's `available_copies` lowered by one and still non-negative. The loan counter advances by one; the other counters, users, reviews and clock are unchanged. |
| Loans.LastCopyRace | backend/app/routes/loans.py:239-254 | Two borrowers who both passed the checks for the last copy commit one after the other. The first gets it; the second's guarded UPDATE fails and its insert is rolled back, leaving one loan and no copy. |
| Loans.DuplicateAfterInsert | backend/app/routes/loans.py:205-210 | Another user's new loan does not change whether a user holds an activo loan of the book. |
| Loans.UpdateBookAvailability | backend/app/routes/loans.py:77-123 | The guarded increment or decrement succeeds exactly when its guard holds, moves `available_copies` by one, and never goes below zero or above the total. On failure nothing changes. |
| Loans.UpdateOverdueLoans | backend/app/routes/loans.py:126-146 | The loans become the overdue refresh of the old loans. No book changes, every book's stock is preserved, and the result is always 0. |
| Loans.ReturnVerdict | backend/app/routes/loans.py:394-438 | The checks of `return_book` in source order: unknown user 404, unknown loan (or book gone) 404, neither owner nor admin 403, already `devuelto` 400. Each holds if and only if its conditions do, and success yields the loan's book. |
| Loans.OverdueLoanCanBeReturned | backend/app/routes/loans.py:432-438 | A `vencido` loan passes the return checks like an `activo` one. |
| Loans.ReturnKeepsLoansValid | backend/app/routes/loans.py:445-453 | Marking a loan `devuelto` now keeps the loan table valid. |
| Loans.StockAfterReturn | backend/app/routes/loans.py:445-462 | A return moves one copy from an outstanding loan back to the shelf, so every book's stock is preserved. |
| Loans.CommitReturn | backend/app/routes/loans.py:441-473 | The return transaction commits exactly when `available_copies < total_copies`. On commit, exactly that loan becomes `devuelto` with `return_date = now`, one copy comes back (never above the total), and stock is preserved. Otherwise both writes are rolled back. |
| Loans.ReturnBook | backend/app/routes/loans.py:383-480 | Any refusal from `ReturnVerdict` leaves the database unchanged. A full shelf gives 500 with nothing changed. Otherwise 200, the loan marked returned now, one copy back, and nothing else changed. |
| Loans.ListLoans | backend/app/routes/loans.py:326-353 | The joined listing holds each selected loan exactly once, each row is its loan joined with its book and borrower, and rows are ordered by `loan_date` descending. |
| Loans.GetMyLoans | backend/app/routes/loans.py:307-363 | The refresh always runs first. An unresolved caller gets 404. Otherwise 200 with exactly the caller's joinable loans matching the status filter, latest first. |
| Loans.GetAllLoans | backend/app/routes/loans.py:512-560 | Non-admins get 403 and bad `skip`/`limit` get 422, both with nothing changed. Otherwise the refresh runs and the result is the `LIMIT`/`OFFSET` window, of at most `limit` rows, of all joinable loans matching the filter, latest first. |
| Loans.GetLoanById | backend/app/routes/loans.py:581-625 | No joined row gives 404. A non-admin whose username is not the borrower's gets 403. Otherwise 200 with the joined row. |
| Reviews.GetUserId | backend/app/routes/reviews.py:9-29 | An id is found exactly when the username is non-empty and registered, and it is that user's id. |
| Reviews.GetUserIdIsUnique | backend/app/routes/reviews.py:20-25 | Under the store invariant, equal resolved ids mean the same username. |
| Reviews.GetUserRole | backend/app/routes/reviews.py:31-33 | The role is `role` if truthy, else `user_role` if truthy, else `usuario`. It is never empty, and it is `admin` exactly when the first truthy of those entries is `admin`. |
| Reviews.CallerRole | backend/app/routes/reviews.py:31-33 | For a decoded token the resolved role is `admin` exactly when the token's role claim is. |
| Reviews.LatestReturnedLoan | backend/app/routes/reviews.py:50-55 | The loan query returns nothing exactly when the user has no `devuelto` loan of the book. Otherwise it returns one whose `return_date` is not earlier than any other such loan's. |
| Reviews.ReviewVerdict | backend/app/routes/reviews.py:37-68 | The checks of `create_review` in source order: unresolved user 400, review of this book already exists 400 (per book, not per loan), no returned loan 400, picked loan already flagged 400. Each holds if and only if its conditions do. |
| Reviews.CreateReview | backend/app/routes/reviews.py:35-90 | An invalid body gives 422, and the loan consulted is the latest returned one. Any refusal leaves the database unchanged. On success exactly one review (stamped now) is added and exactly the picked loan's `has_review` is set; no book, user or other loan changes. The review counter advances by one and the other counters are unchanged. |
| Reviews.InsertReview | backend/app/routes/reviews.py:71-75 | The review is stored under the next review id, and the counter advances. |
| Reviews.ReviewFlagKeepsLoansValid | backend/app/routes/reviews.py:84-88 | Setting `has_review` keeps the loan table valid. |
| Reviews.FlagReviewed | backend/app/routes/reviews.py:84-88 | Exactly the given loan gets `has_review` set. |
| Reviews.DeleteReview | backend/app/routes/reviews.py:114-127 | An unknown id gives 404. A caller who is neither the author nor admin gets 403. Otherwise 204 and exactly that review is removed; loans (and their flags) are never touched. |
| Reviews.ReviewDeleteReview | backend/app/routes/reviews.py:63-68 | A user with one returned loan of a book reviews it, deletes the review, and is refused a second review with 400, because the loan's flag was never cleared. |
| Reviews.GetUserReviews | backend/app/routes/reviews.py:100-112 | 403 exactly when the caller's id differs from the one asked for and the caller is not admin. Otherwise the user's reviews of existing books, each once, joined with the title, newest first. |
| Books.CatalogueSelection | backend/app/routes/books.py:37-58 | A book is selected exactly when no truthy category is given or its category equals it. |
| Books.AsBookResponse | backend/app/models.py:94-174 | A row passes `BookResponse` exactly when its title, author, stored ISBN length, ISBN validator, category and year meet the `BookBase` bounds. It is then served with the cleaned ISBN and without `google_books_id` and `total_pages`, which the SELECT leaves out. |
| Books.AsBookResponseIdempotent | backend/app/models.py:104-135 | A served row passes the check again and comes back unchanged. |
| Books.ServedRows | backend/app/routes/books.py:29 | `List[BookResponse]` serves a window exactly when every row in it passes, each row as `AsBookResponse` serves it. |
| Books.SortedSelection | backend/app/routes/books.py:40-58 | The selected books, each exactly once, as stored, ordered by title. |
| Books.GetAllBooks | backend/app/routes/books.py:29-66 | Bad `skip`/`limit` give 422. Otherwise the `OFFSET skip` window, of at most `limit` rows, of the selected books ordered by title is checked through `ServedRows`. If every row passes, the answer is 200 with the served rows; otherwise it is 500 with no rows. |
| Books.GetBookById | backend/app/routes/books.py:83-105 | An unknown id gives 404. A row failing `BookResponse` gives 500. Otherwise the row as served, with its id. |
| Books.GetBookPreview | backend/app/routes/books.py:474-510 | An unknown book gives 404. A NULL `total_pages` fails `BookPagesResponse` and gives 500. Otherwise the viewer data with the page count, `is_preview` true, `has_loan` false and no pages. |
| Books.ReadBook | backend/app/routes/books.py:556-612 | An unknown book gives 404, and a caller without an `activo` loan of it gets 403. A NULL `total_pages` then gives 500. Success comes exactly when all three checks pass: the preview data with `is_preview` false and `has_loan` true. |
| Books.BorrowedBookCanBeRead | backend/app/routes/books.py:585-612 | The borrower of a freshly created loan may read a book that has a page count. |
| Books.OverdueBorrowerCannotRead | backend/app/routes/books.py:585-602 | Once the borrower's only activo loan of the book turns `vencido`, reading is refused with 403. |
| Books.NewBook | backend/app/routes/books.py:194-205 | The inserted row carries the validated ISBN and copy counts, and no page count, which is NULL by the assumed default. |
| Books.CreatedBookIsServed | backend/app/routes/books.py:194-205 | A book `create_book` stores passes `BookResponse` and is served as stored, without its external id. |
| Books.CreatedBookCannotBeViewed | backend/app/models.py:181-186 | Under the NULL default, a book `create_book` stores has no page count, so its preview is a 500 and reading it fails. |
| Books.CreateBook | backend/app/routes/books.py:174-222 | Non-admins 403, invalid body 422, normalised ISBN already stored 400, each with nothing written. Otherwise exactly one book under the next id, with copies in bounds and a valid ISBN-10 or ISBN-13. Distinct ISBNs stay distinct. |
| Books.FieldCount | backend/app/routes/books.py:266-289 | The number of SET clauses is zero exactly when all seven optional fields are absent. |
| Books.Patch | backend/app/routes/books.py:266-299 | The patched row takes every present field and keeps every other column, including ISBN, external id, cover and page count. It counts the fields given. |
| Books.PatchIsIdempotent | backend/app/routes/books.py:266-299 | Applying the same update twice changes nothing more. |
| Books.PatchIsFunctional | backend/app/routes/books.py:266-299 | An update determines the patched row uniquely. |
| Books.PatchKeepsServed | backend/app/models.py:154-162 | An update that passes `BookUpdate` keeps a row that passes `BookResponse` passing it. |
| Books.UpdateBook | backend/app/routes/books.py:244-318 | Order: 403, 422, unknown id 404, no field 400, each with nothing changed. Otherwise 200 and exactly that book changes, in exactly the given fields. |
| Books.LoansWithoutBook | backend/app/routes/books.py:375-378 | Exactly the loans of other books remain, unchanged. |
| Books.DeleteBook | backend/app/routes/books.py:339-396 | Order: 403, then unknown id 404. Without `force`, an `activo` loan gives 400 (`vencido` loans do not block and stay). With `force`, every loan of the book goes first. Then exactly the book is removed. Refusals change nothing. |
| Books.OrphanedLoanCannotBeReturned | backend/app/routes/books.py:361-371 | Under the no-foreign-key schema assumed above, a `vencido` loan left behind by a non-forced deletion can no longer be returned: `return_book` answers 404. |
| Books.FilterResults | backend/app/routes/books.py:429-454 | The filter keeps, in order, the entries whose chosen field contains the lower-cased query. Each kept entry appears exactly as many times as in the input; every other entry is dropped. |
| Books.SearchGoogleBooks | backend/app/routes/books.py:416-463 | Empty `q` or `max_results` outside 1..40 gives 422. Otherwise the answer echoes the query and field, its books are an order-preserving sub-list of the service results, holding every kept entry as many times as the service returned it and nothing else, and `total` is their number. |
| Books.AnyFieldKeepsMore | backend/app/routes/books.py:447-454 | Any unnamed field value, such as the default `all`, keeps whatever a single named field keeps. |
| Auth.GetCurrentUser | backend/app/routes/auth.py:28-82 | Every refusal is 401: a missing or empty header, a header that does not split into two words, or a bad scheme, token or subject. Success holds exactly for two words, `bearer` in any case, a decodable token and a subject. The result is `{sub, role}`. |
| Auth.BearerHeaderRoundTrip | backend/app/routes/auth.py:40-67 | `Bearer <token>` for a token without whitespace authenticates exactly as the token decodes. |
| Auth.BearerSchemeAccepted | backend/app/routes/auth.py:40-67 | Any capitalisation of `bearer` followed by one token is accepted the same way. |
| Auth.SchemeOnlyRefused | backend/app/routes/auth.py:40-74 | A one-word header is refused as malformed with 401. |
| Auth.ThreePartsRefused | backend/app/routes/auth.py:40-74 | A three-word header is refused as malformed with 401. |
| Auth.OtherSchemeRefused | backend/app/routes/auth.py:42-46 | Two words whose first is not `bearer` are refused for the scheme with 401. |
| Auth.BasicSchemeRefused | backend/app/routes/auth.py:42-46 | `Basic <token>` is refused for the scheme. |
| Auth.RequireAdmin | backend/app/routes/auth.py:85-94 | The caller passes through unchanged exactly when the role is `admin`, otherwise 403. |
| Auth.RegisterUser | backend/app/routes/auth.py:110-150 | Invalid body 422; username or e-mail taken 400 with nothing written. Otherwise exactly one active user is added, with the hashed password, under the next id. |
| Auth.Login | backend/app/routes/auth.py:174-208 | Unknown user 401. 403 exactly for an inactive user, whatever the password. An active user with a wrong password gets 401. Success is exactly an active user with a matching password, and yields a bearer token over `{sub, role}` valid 30 minutes. |
| Auth.LoginThenAuthenticate | backend/app/routes/auth.py:204-208 | When decoding undoes signing and tokens contain no whitespace, the token from a login authenticates as that user with the stored role. |
| Models.ValidUsername | backend/app/models.py:19-29 | A username is accepted exactly when it has 3..100 characters, all word characters except that the last may be a newline (Python's `$`). |
| Models.UsernameExamples | backend/app/models.py:19-29 | `ana_01` and `ana\n` are accepted; `ab` and `ana lu` are refused. |
| Models.FindLetter | backend/app/models.py:43 | `re.search(r'[A-Za-z]')` finds a match exactly when the string has an ASCII letter. |
| Models.FindDigit | backend/app/models.py:43 | `re.search(r'[0-9]')` finds a match exactly when the string has a digit. |
| Models.ValidPassword | backend/app/models.py:36-45 | A password is accepted exactly when it has at least 6 characters, a letter and a digit. |
| Models.ValidUserCreate | backend/app/models.py:17-45 | A registration is accepted exactly when it has a valid username and password, a valid e-mail, a full name of at most 150 characters if any, and role `usuario` or `admin`. |
| Models.NormalizeIsbn | backend/app/models.py:109 | The cleaned ISBN has no hyphen, no space and no lower-case letter. |
| Models.NormalizeIsbnIdempotent | backend/app/models.py:109 | Cleaning a cleaned ISBN changes nothing. |
| Models.NormalizeIsbnOfNormal | backend/app/models.py:109 | A string with no hyphen, space or lower-case letter is already clean. |
| Models.CheckDigitMeansFullSum | backend/app/models.py:127-129 | The computed check digit matches exactly when the full weighted sum is a multiple of 10. |
| Models.ValidateIsbn | backend/app/models.py:107-135 | Acceptance is exactly a valid ISBN-10 (mod 11, X = 10) or ISBN-13 (weights 1,3, mod 10) after cleaning, and returns the cleaned string. Each error case holds if and only if its condition does: length, ISBN-10 shape, ISBN-10 checksum, ISBN-13 digits, ISBN-13 checksum. |
| Models.ValidateIsbnIdempotent | backend/app/models.py:109-135 | Validating an accepted output again returns it unchanged. |
| Models.Isbn10Accepted | backend/app/models.py:117-120 | `0306406152` is accepted as itself. |
| Models.Isbn10ChecksumRejected | backend/app/models.py:117-120 | `0306406153` fails the ISBN-10 checksum. |
| Models.Isbn13Accepted | backend/app/models.py:126-130 | `9780306406157` is accepted as itself. |
| Models.Isbn13Example | backend/app/models.py:126-130 | The weighted sum of `9780306406157` is a multiple of 10. |
| Models.Isbn13ChecksumRejected | backend/app/models.py:126-130 | `9780306406150` fails the ISBN-13 checksum. |
| Models.Isbn13WrongCheckExample | backend/app/models.py:126-130 | `9780306406150` is all digits but not a valid ISBN-13. |
| Models.IsbnIgnoresSeparators | backend/app/models.py:109 | Inserting a hyphen or a space anywhere never changes the verdict or the cleaned result. |
| Models.Isbn13DetectsSingleDigitErrors | backend/app/models.py:126-130 | Changing any one digit of a valid ISBN-13 to another digit makes it invalid. |
| Models.Isbn10DetectsSingleCharErrors | backend/app/models.py:117-120 | Changing any one character of a valid ISBN-10 to another digit or X makes it invalid. |
| Models.ValidateBookCreate | backend/app/models.py:94-150 | An accepted book has at least one copy, `0 <= available <= total`, a valid ISBN-10 or ISBN-13, the field bounds, and the cleaned ISBN in place of the raw one. A request is refused exactly when one of those constraints (or the optional fields' bounds) fails. |
| Models.ValidBookUpdate | backend/app/models.py:154-162 | Accepted exactly when each present field obeys its own bound: title 1..255, author 1..150, category at most 100, year 1000..2100, total copies at least 1, available at least 0. |
| Models.BookUpdateAllowsMoreAvailableThanTotal | backend/app/models.py:161-162 | An update asking for 5 available of 1 total passes validation, because nothing relates the two. |
| Models.ValidLoanCreate | backend/app/models.py:195-197 | A loan request is valid exactly when `book_id > 0`. |
| Models.ValidReviewCreate | backend/app/models.py:225-228 | A review is valid exactly when `book_id > 0`, the rating is in 1..5 and any comment has at most 1000 characters. |
| Utils.CreateResponse | backend/app/utils.py:16-37 | The body always has `message`. It has `data` exactly when data is not None and `detail` exactly when detail is not None, and no other key. The status is passed through. |
| Utils.Digits | backend/app/utils.py:43-44 | The digits of a string, in order, never longer than it. |
| Utils.CleanedIsbn | backend/app/utils.py:43-44 | Removing hyphens and spaces leaves exactly the digits when nothing else is present. Otherwise the result is not all digits. |
| Utils.ValidateIsbnFormat | backend/app/utils.py:42-46 | Accepted exactly when the string has only digits, hyphens and spaces, with 10 or 13 digits. There is no checksum and no X. |
| Utils.FormatDate | backend/app/utils.py:49-52 | None in, None out; a date always gives a string. |
| Utils.SliceTo | backend/app/utils.py:58 | Python's `s[:stop]` is the prefix of length `stop`, the whole string when `stop >= |s|`, or the prefix of length `|s| + stop` (at least 0) for a negative stop. |
| Utils.SanitizeString | backend/app/utils.py:55-59 | The result is a prefix of the whitespace-collapsed text, with single spaces only between words and no space at either end. It is at most `max_length` long (for a non-negative bound), and equals the collapsed text when that fits. When it does not, the result is the collapsed text sliced at `max_length` and stripped again. For a non-negative bound that is the first `max_length` characters, minus the one space they may end on. |
| Utils.CutOfCollapsed | backend/app/utils.py:58-59 | Cutting a collapsed text after `k` characters and stripping it removes at most the single space the cut may end on. |
| Utils.SanitizeIsIdempotent | backend/app/utils.py:55-59 | With a non-negative bound, sanitising twice is sanitising once. |
| Utils.SanitizeWordNegativeBound | backend/app/utils.py:57-59 | A negative bound cuts that many characters from the end of a word. |
| Utils.SanitizeNegativeBoundNotIdempotent | backend/app/utils.py:57-59 | With bound -1, a second pass on a word of three or more characters cuts one more character. |
| Utils.EmailShapeIsMatch | backend/app/utils.py:63-64 | The hand-written scan (first `@`, last `.` after it) accepts exactly the strings the pattern matches in full. |
| Utils.ValidateEmail | backend/app/utils.py:62-64 | Accepted exactly when the pattern matches the whole string, or the string minus one final newline. |
| Utils.EmailAcceptedExamples | backend/app/utils.py:62-64 | `ana@mail.com` is accepted, with and without a trailing newline. |
| Utils.EmailRejectedExamples | backend/app/utils.py:62-64 | `ana@mail.c` (one-letter domain) and `@mail.com` (empty local part) are refused. |
| Utils.DaysDifference | backend/app/utils.py:67-69 | The result is the floor of the difference in whole days, negative when the second instant is earlier. |
| BulkUpload.IsValidIsbn13 | backend/app/routes/bulk_upload.py:22-29 | Accepted exactly when, with hyphens removed and whitespace stripped, the string is a valid ISBN-13. |
| BulkUpload.Isbn10Rejected | backend/app/routes/bulk_upload.py:22-26 | An ISBN-10, however written, is always rejected. |
| BulkUpload.HyphenatedIsbnIsAnotherString | backend/app/routes/bulk_upload.py:24-29 | A hyphen inserted anywhere into a valid ISBN-13 still passes and is a different string, so the exact-match duplicate check admits both spellings. |
| BulkUpload.ValidateExcelFile | backend/app/routes/bulk_upload.py:33-49 | The extension check (400) comes before the size check. Past it, 413 exactly when the size exceeds 10240 bytes. |
| BulkUpload.Missing | backend/app/routes/bulk_upload.py:69 | The missing columns are the wanted ones absent from the sheet, in the wanted order. |
| BulkUpload.ValidateRequiredColumns | backend/app/routes/bulk_upload.py:65-74 | 400 exactly when one of `title`, `author`, `isbn` is missing, listing the missing ones in that order. |
| BulkUpload.ExtractBookData | backend/app/routes/bulk_upload.py:78-93 | Extraction fails exactly when a conversion raises. A missing copy count means 1, missing available copies means the total, and a blank title becomes the text `nan`. |
| BulkUpload.ExtractionAcceptsAnyCopyCounts | backend/app/routes/bulk_upload.py:87-88 | Any pair of integer copy counts passes extraction unchanged, including zero, negative, or more available than total. |
| BulkUpload.Enriched | backend/app/routes/bulk_upload.py:100-104 | Only description, category, year and cover can change. Each takes the lookup's value exactly when its own value is falsy and the lookup's is truthy; otherwise it keeps its own. |
| BulkUpload.EnrichedIsIdempotent | backend/app/routes/bulk_upload.py:101-103 | Enriching twice from the same lookup changes nothing more. |
| BulkUpload.EnrichBookWithGoogleData | backend/app/routes/bulk_upload.py:96-107 | Reports true exactly when the lookup found the book. The in-place key-by-key update yields exactly the fill rule of `Enriched`. |
| BulkUpload.StoredBook | backend/app/routes/bulk_upload.py:111-125 | The inserted row carries the row's ISBN and title, with no external id and no page count, both NULL by the assumed default. |
| BulkUpload.LateYearIsStoredButNotServed | backend/app/routes/bulk_upload.py:81-125 | A year past 2100 passes extraction and enrichment and is stored, and the stored book then fails `BookResponse`. |
| BulkUpload.HyphenatedIsbnServedCleaned | backend/app/models.py:104-135 | A hyphenated ISBN-13 row is stored with its hyphen, but it is served cleaned: the hyphen is gone. |
| BulkUpload.Classify | backend/app/routes/bulk_upload.py:134-162 | A failed extraction is an error. Then, in order: incomplete row, invalid ISBN-13, ISBN already stored (exact string) are skipped; anything else is accepted. Each verdict holds if and only if its conditions do. |
| Store.IsbnStored | backend/app/routes/bulk_upload.py:155 | The lookup finds a row exactly when the ISBN string is among the stored ones. `create_book` (books.py:182-184) and the bulk import share it. |
| BulkUpload.ProcessRow | backend/app/routes/bulk_upload.py:133-178 | One loop iteration moves the lists, the `isbn` local and the catalogue exactly as one step of the specification. |
| BulkUpload.InsertAccepted | backend/app/routes/bulk_upload.py:164-170 | An accepted row is enriched when asked, inserted under the next id, and recorded in `success` (and in `enriched` when the lookup found it). |
| BulkUpload.InsertionExtends | backend/app/routes/bulk_upload.py:169 | Each insert adds its ISBN to those stored, and keeps the catalogue equal to the old one plus the inserted books under consecutive ids. |
| BulkUpload.ProcessDataframe | backend/app/routes/bulk_upload.py:129-180 | The returned lists are those of processing every row in order. The catalogue is the old one, untouched, plus the inserted books under consecutive ids. |
| BulkUpload.RowNumbers | backend/app/routes/bulk_upload.py:141 | The first `n` rows are numbered 2 to `n + 1`. |
| BulkUpload.StepAddsOneRow | backend/app/routes/bulk_upload.py:132-178 | Each row adds exactly one entry, numbered `index + 2`, to exactly one of success, skipped and errors. |
| BulkUpload.EveryRowOnce | backend/app/routes/bulk_upload.py:132-178 | After `n` rows the three lists' row numbers are pairwise disjoint and together exactly 2..n+1, and their lengths add up to `n`. |
| BulkUpload.BatchIsbnsAreFresh | backend/app/routes/bulk_upload.py:155-170 | Within one batch no two success entries share an ISBN and none was stored before. Each success entry names the book inserted at the same position. |
| BulkUpload.EnrichedAtMostSuccess | backend/app/routes/bulk_upload.py:164-170 | Every enriched entry is also a success entry, there are no more of them, and there are none unless enrichment was asked for. |
| BulkUpload.CreateSummaryResponse | backend/app/routes/bulk_upload.py:184-201 | The summary reports the sheet's row count and the lengths of the four lists. |
| BulkUpload.SummaryAddsUp | backend/app/routes/bulk_upload.py:186-192 | For a processed sheet, successful + skipped + errors = total rows, and enriched ≤ successful. |
| BulkUpload.ErrorNamesPreviousIsbn | backend/app/routes/bulk_upload.py:172-178 | An error row after an incomplete row is reported under the earlier row's ISBN rather than `N/A`, because the `isbn` local survives. |
| Listing.Sort | backend/app/routes/loans.py:339 | `ORDER BY`: a sorted rearrangement of the rows, as a permutation. |
| Listing.Insert | backend/app/routes/loans.py:339 | Inserting into a sorted list keeps it sorted and adds exactly the one element. |
| Listing.Enumerate | backend/app/routes/loans.py:330-339 | A result set comes back with each row exactly once. |
| Listing.ListByKeyDesc | backend/app/routes/loans.py:339 | `ORDER BY key DESC` over a set of ids: each id once, largest key first. |
| Listing.ListByStringKey | backend/app/routes/books.py:46 | `ORDER BY title` over a set of ids: each id once, titles in code-point order. |
| Listing.ListingOfSet | backend/app/routes/books.py:46 | A listing of a set holds exactly its elements, each once. |
| Listing.Page | backend/app/routes/books.py:47 | `LIMIT limit OFFSET skip` is the window that starts at `skip` and has at most `limit` rows. |
| Listing.PageSorted | backend/app/routes/books.py:46-47 | A window of a sorted listing is sorted. |
| Listing.StrLeTotal | backend/app/routes/books.py:46 | Any two titles compare one way or the other. |
| Listing.StrLeTransitive | backend/app/routes/books.py:46 | Title order chains. |
| Text.Split | backend/app/routes/auth.py:40 | `str.split()` yields only non-empty words without whitespace. |
| Text.SplitTwoWords | backend/app/routes/auth.py:40 | Two words joined by a space split back into exactly those two. |
| Text.SplitOfWord | backend/app/routes/auth.py:40 | A single word splits into itself alone. |
| Text.ToLower | backend/app/routes/auth.py:42 | `lower()` maps every ASCII capital to a small letter and keeps every other character. |
| Text.ToUpper | backend/app/models.py:109 | `upper()` maps every ASCII small letter to a capital and keeps every other character. |
| Text.Remove | backend/app/models.py:109 | `replace(c, '')` never makes a string longer. |
| Text.RemoveMembers | backend/app/models.py:109 | `replace(c, '')` keeps exactly the characters other than `c`. |
| Text.Strip | backend/app/utils.py:59 | `strip()` is the text between the leading and the trailing whitespace runs, or empty when the text is all whitespace. |
| Text.TrailingSpaceIs | backend/app/utils.py:59 | A whitespace run of length `n` at the end, not preceded by whitespace, is exactly what `rstrip()` removes. |
| Text.JoinOfWordsIsCollapsed | backend/app/utils.py:56 | `' '.join(words)` has single spaces only between words. |
| Text.SplitOfCollapsed | backend/app/utils.py:56 | Splitting and rejoining an already collapsed string gives it back. |

## Left out

- Store failures. The `except Error` / `except Exception` branches that answer 500 after a database or unexpected error are not modelled. Neither are the fail-open helpers (`get_user_id_by_username`, `check_book_availability`, `count_active_loans`, `get_user_id` returning None, False or 0 on an exception).
- `database.py` is not part of this model. Connections, cursors, commit and rollback become all-or-nothing method bodies over the in-memory `Library`.
- Concurrency. Interleaved requests are not modelled. Only the write-time guard of the borrow transaction is, with `Loans.LastCopyRace` replaying two committed borrows one after the other.
- Auto-increment ids. A rolled-back insert leaves the loan counter where it was, whereas InnoDB may burn the id. No route observes the difference.
- `security.py` is not part of this model. Password hashing and checking, token signing and token decoding are the parameters `hash`, `verify`, `sign` and `decode`. JWT expiry is part of `decode`.
- `services/google_books_service.py` is not part of this model. The lookup by ISBN and the search results are inputs.
- Spreadsheet parsing. The pandas/openpyxl reading (including `read_excel_file`'s 400), dtype coercion, and `int()` truncating a non-integral float are not modelled; rows enter as records of text and integer cells. Also left out: the double `file.read()`, the ten-second `asyncio.wait_for` limit with its 408, and the admin dependency of the bulk route.
- `main.py` (CORS, logging middleware, OpenAPI patch, startup), `config.py` and `routes/__init__.py` are not part of this model.
- Floating point. `average_rating`, `total_reviews` and `get_recommended_books`, ordered by a float average, are not modelled.
- `search_books` (SQL `LIKE`, whose case sensitivity depends on the collation), `get_book_reviews` and `/auth/me` are not modelled; they are outside the core routes.
- Response bodies are reduced to an `Outcome` (status plus reason tag) and the rows or ids the route returns. Of `BookResponse`, the columns `created_at`, `average_rating` and `total_reviews` are not modelled; the model takes them to pass the check. Message texts, logging and the JSON serialisation of datetimes are not modelled.
- `EmailStr` validation is a library check, modelled as the parameter `isEmail`. `strftime` rendering is the parameter `render` of `Utils.FormatDate`.
- Text is ASCII. Digits, letters and case mapping are ASCII. Whitespace is the set `str.isspace` accepts below U+0080. Unicode digits, letters and case folding are not modelled.
- MySQL string comparison for `ORDER BY title` is modelled as code-point order, not the collation's order. Rows with equal keys may come back in any order.
- SQL `=` on strings is modelled as exact, binary comparison, although the connection's `utf8mb4_unicode_ci` collation compares case- and accent-insensitively. This affects:
  - `username = %s` in registration, login, and the username lookups of the loans, reviews and read routes;
  - `email = %s` in registration;
  - `isbn = %s` in book creation and in the bulk duplicate check;
  - `category = %s` in the catalogue listing;
  - `l.status = %s` in the loan listings.

  Under that collation `ANA` logs in as `ana`, and `Ana` cannot register next to `ana`; in the model both are distinct users.
- Request validation runs after authentication (401/403) and before the route body (422), in the order in which FastAPI resolves dependencies before validating parameters.
- Loans.UpdateBookAvailability: no route calls it, since the borrow and return transactions inline the same guarded UPDATEs. It is modelled for completeness.

=== FILE: auth.dfy ===
/**
 * `routes/auth.py`: the bearer-token dependency every protected route uses,
 * the admin gate, registration and login. Hashing, password checking, token
 * signing and token decoding belong to `security.py` and are parameters here:
 * `hash`, `verify`, `sign` and `decode`.
 */
module Auth {
  import opened Wrappers
  import opened Text
  import opened Store
  import Models

  /** The caller as `get_current_user` hands it on: the token's `sub`, and its `role` claim if any. */
  datatype Principal = Principal(username: string, role: Option<string>)

  /** The claims of a decoded token that the routes read. */
  datatype Claims = Claims(sub: Option<string>, role: Option<string>)

  /** What `login` returns. */
  datatype Token = Token(accessToken: string, tokenType: string)

  /** `timedelta(minutes=30)`, in seconds. */
  const TokenLifetime: int := 30 * 60

  /** The header splits into exactly a scheme and a token, and the scheme is `bearer` in any case. */
  predicate BearerShaped(header: string) {
    var parts := Split(header);
    |parts| == 2 && ToLower(parts[0]) == "bearer"
  }

  /**
   * `get_current_user`: the `Authorization` header must be present and
   * non-empty, split on whitespace into exactly two parts (otherwise the tuple
   * unpacking raises and the answer is 401 too), name the `bearer` scheme in
   * any case, decode, and carry a subject. Every refusal is a 401.
   */
  function GetCurrentUser(authorization: Option<string>, decode: string -> Option<Claims>): (r: Result<Principal, Outcome>)
    ensures r.Failure? ==> r.error.status == 401
    ensures r == Failure(Outcome(401, MissingToken)) <==> authorization.None? || authorization.value == ""
    ensures r == Failure(Outcome(401, BadTokenFormat)) <==>
      authorization.Some? && authorization.value != "" && |Split(authorization.value)| != 2
    ensures r.Success? <==>
      authorization.Some? && BearerShaped(authorization.value)
      && decode(Split(authorization.value)[1]).Some? && decode(Split(authorization.value)[1]).value.sub.Some?
    ensures r.Success? ==>
      var claims := decode(Split(authorization.value)[1]).value;
      r.value == Principal(claims.sub.value, claims.role)
  {
    if authorization.None? || authorization.value == "" then Failure(Outcome(401, MissingToken))
    else
      var parts := Split(authorization.value);
      if |parts| != 2 then Failure(Outcome(401, BadTokenFormat))
      else if ToLower(parts[0]) != "bearer" then Failure(Outcome(401, BadScheme))
      else
        match decode(parts[1])
        case None => Failure(Outcome(401, InvalidToken))
        case Some(claims) =>
          if claims.sub.None? then Failure(Outcome(401, TokenWithoutSubject))
          else Success(Principal(claims.sub.value, claims.role))
  }

  lemma BearerIsWord()
    ensures IsWord("Bearer") && ToLower("Bearer") == "bearer"
  {
  }

  /** A `Bearer <token>` header for a token without whitespace gives back exactly what the token decodes to. */
  lemma BearerHeaderRoundTrip(token: string, decode: string -> Option<Claims>)
    requires IsWord(token)
    ensures Split("Bearer " + token) == ["Bearer", token]
    ensures GetCurrentUser(Some("Bearer " + token), decode) ==
      match decode(token)
      case None => Failure(Outcome(401, InvalidToken))
      case Some(c) => if c.sub.None? then Failure(Outcome(401, TokenWithoutSubject)) else Success(Principal(c.sub.value, c.role))
  {
    BearerIsWord();
    assert "Bearer " + token == "Bearer" + " " + token;
    BearerSchemeAccepted("Bearer", token, decode);
  }

  /** Any spelling of the `bearer` scheme followed by one token: the outcome is the token's decoding. */
  lemma BearerSchemeAccepted(scheme: string, token: string, decode: string -> Option<Claims>)
    requires IsWord(scheme) && IsWord(token) && ToLower(scheme) == "bearer"
    ensures Split(scheme + " " + token) == [scheme, token]
    ensures GetCurrentUser(Some(scheme + " " + token), decode) ==
      match decode(token)
      case None => Failure(Outcome(401, InvalidToken))
      case Some(c) => if c.sub.None? then Failure(Outcome(401, TokenWithoutSubject)) else Success(Principal(c.sub.value, c.role))
  {
    SplitTwoWords(scheme, token);
  }

  /** A header that is a single word, such as the scheme alone, is refused as malformed. */
  lemma SchemeOnlyRefused(w: string, decode: string -> Option<Claims>)
    requires IsWord(w)
    ensures GetCurrentUser(Some(w), decode) == Failure(Outcome(401, BadTokenFormat))
  {
    SplitOfWord(w);
  }

  /** A header of three words is refused as malformed. */
  lemma ThreePartsRefused(a: string, b: string, c: string, decode: string -> Option<Claims>)
    requires IsWord(a) && IsWord(b) && IsWord(c)
    ensures GetCurrentUser(Some(a + " " + b + " " + c), decode) == Failure(Outcome(401, BadTokenFormat))
  {
    var bc := b + " " + c;
    assert a + " " + b + " " + c == a + ([' '] + bc);
    SplitWordThen(a, [' '] + bc);
    SplitLeadingSpace(' ', bc);
    SplitTwoWords(b, c);
  }

  /** Two words whose first is not `bearer` in any case: refused for the scheme. */
  lemma OtherSchemeRefused(scheme: string, token: string, decode: string -> Option<Claims>)
    requires IsWord(scheme) && IsWord(token) && ToLower(scheme) != "bearer"
    ensures GetCurrentUser(Some(scheme + " " + token), decode) == Failure(Outcome(401, BadScheme))
  {
    SplitTwoWords(scheme, token);
  }

  /** `Basic` is such a scheme. */
  lemma BasicSchemeRefused(token: string, decode: string -> Option<Claims>)
    requires IsWord(token)
    ensures GetCurrentUser(Some("Basic " + token), decode) == Failure(Outcome(401, BadScheme))
  {
    assert IsWord("Basic") && ToLower("Basic")[1] == 'a';
    assert "Basic " + token == "Basic" + " " + token;
    OtherSchemeRefused("Basic", token, decode);
  }

  /** `require_admin`: the caller passes through unchanged exactly when the role claim is `admin`. */
  function RequireAdmin(p: Principal): (r: Result<Principal, Outcome>)
    ensures r.Success? <==> p.role == Some("admin")
    ensures r.Success? ==> r.value == p
    ensures r.Failure? ==> r.error == Outcome(403, NotAdmin)
  {
    if p.role != Some("admin") then Failure(Outcome(403, NotAdmin)) else Success(p)
  }

  /** `SELECT id FROM users WHERE username = %s OR email = %s` finds a row. */
  predicate Taken(users: map<string, User>, username: string, email: string) {
    username in users || exists n :: n in users && users[n].email == email
  }

  /**
   * `register_user`: a request that fails `UserCreate` is a 422; a username or
   * e-mail already registered is a 400 and nothing is written; otherwise one
   * active user with the hashed password and the requested role is added.
   */
  method RegisterUser(db: Library, req: Models.UserCreate, isEmail: string -> bool, hash: string -> string)
    returns (out: Outcome, created: Option<User>)
    requires db.Valid()
    modifies db
    ensures db.Valid()
    ensures !Models.ValidUserCreate(req, isEmail) ==> out == Outcome(422, InvalidRequest) && unchanged(db)
    ensures Models.ValidUserCreate(req, isEmail) && Taken(old(db.users), req.username, req.email) ==>
      out == Outcome(400, UsernameOrEmailTaken) && created.None? && unchanged(db)
    ensures Models.ValidUserCreate(req, isEmail) && !Taken(old(db.users), req.username, req.email) ==>
      var u := User(old(db.nextUserId), req.email, hash(req.password), req.fullName, req.role, true);
      && out == Outcome(201, UserRegistered) && created == Some(u)
      && db.users == old(db.users)[req.username := u] && db.nextUserId == old(db.nextUserId) + 1
      && unchanged(db`books, db`loans, db`reviews, db`nextBookId, db`nextLoanId, db`nextReviewId, db`now)
  {
    created := None;
    if !Models.ValidUserCreate(req, isEmail) {
      out := Outcome(422, InvalidRequest);
      return;
    }
    if Taken(db.users, req.username, req.email) {
      out := Outcome(400, UsernameOrEmailTaken);
      return;
    }
    var u := User(db.nextUserId, req.email, hash(req.password), req.fullName, req.role, true);
    db.users := db.users[req.username := u];
    db.nextUserId := db.nextUserId + 1;
    created := Some(u);
    out := Outcome(201, UserRegistered);
  }

  /**
   * `login`: an unknown username is a 401, an inactive account a 403 whatever
   * the password, a wrong password a 401; otherwise a bearer token signed over
   * the stored username and role, valid for thirty minutes.
   */
  function Login(users: map<string, User>, username: string, password: string,
                 verify: (string, string) -> bool, sign: (Claims, int) -> string): (r: Result<Token, Outcome>)
    ensures username !in users ==> r == Failure(Outcome(401, BadCredentials))
    ensures r == Failure(Outcome(403, InactiveUser)) <==> username in users && !users[username].isActive
    ensures username in users && users[username].isActive && !verify(password, users[username].passwordHash) ==>
      r == Failure(Outcome(401, BadCredentials))
    ensures r.Success? <==>
      username in users && users[username].isActive && verify(password, users[username].passwordHash)
    ensures r.Failure? ==> r.error.status in {401, 403}
    ensures r.Success? ==>
      r.value == Token(sign(Claims(Some(username), Some(users[username].role)), TokenLifetime), "bearer")
  {
    if username !in users then Failure(Outcome(401, BadCredentials))
    else
      var user := users[username];
      if !user.isActive then Failure(Outcome(403, InactiveUser))
      else if !verify(password, user.passwordHash) then Failure(Outcome(401, BadCredentials))
      else Success(Token(sign(Claims(Some(username), Some(user.role)), TokenLifetime), "bearer"))
  }

  /**
   * Logging in and sending the token back as `Bearer <token>` authenticates
   * the same user with the stored role, when decoding undoes signing and
   * tokens contain no whitespace (as JWTs do not).
   */
  lemma LoginThenAuthenticate(users: map<string, User>, username: string, password: string,
                              verify: (string, string) -> bool, sign: (Claims, int) -> string,
                              decode: string -> Option<Claims>)
    requires forall c, e :: decode(sign(c, e)) == Some(c)
    requires forall c, e :: IsWord(sign(c, e))
    requires Login(users, username, password, verify, sign).Success?
    ensures GetCurrentUser(Some("Bearer " + Login(users, username, password, verify, sign).value.accessToken), decode)
            == Success(Principal(username, Some(users[username].role)))
  {
    var token := Login(users, username, password, verify, sign).value.accessToken;
    BearerHeaderRoundTrip(token, decode);
  }
}

=== FILE: books.dfy ===
/**
 * `routes/books.py`: the catalogue. Public reads (listing, lookup, preview),
 * the admin writes (create, update, delete), reading a borrowed book, and the
 * filter applied to the external search results.
 */
module Books {
  import opened Wrappers
  import opened Text
  import opened Store
  import opened Auth
  import Listing
  import Models
  import Loans

  /** A `books` row with its id. */
  datatype BookRow = BookRow(id: nat, book: Book)

  /** `BookPagesResponse`: what the preview and the reader report; its `total_pages` is a required integer. */
  datatype BookPages = BookPages(
    bookId: nat, bookTitle: string, googleBooksId: Option<string>, totalPages: int,
    pages: seq<string>, isPreview: bool, hasLoan: bool)

  // ---------------------------------------------------------------- public reads

  /** The books `get_all_books` selects: all of them, or those whose category is the one given when it is truthy. */
  function CatalogueSelection(books: map<nat, Book>, category: Option<string>): (ids: set<nat>)
    ensures forall id :: id in ids <==> id in books && (!Truthy(category) || books[id].category == category)
  {
    set id | id in books && (!Truthy(category) || books[id].category == category)
  }

  function TitleOf(books: map<nat, Book>, id: nat): string {
    if id in books then books[id].title else ""
  }

  function BookRowId(r: BookRow): nat { r.id }

  /**
   * `BookResponse` applied to a row of `get_all_books` or `get_book_by_id`.
   * Their SELECT leaves out `google_books_id` and `total_pages`, which the
   * response fills with null; the other columns are checked again against
   * `BookBase` (title, author, category and year bounds, and the ISBN validator
   * on a stored value of 10 to 20 characters), and the ISBN comes back cleaned.
   * A row that fails is answered with a 500.
   */
  function AsBookResponse(b: Book): (r: Option<Book>)
    ensures r.Some? <==>
      && 1 <= |b.title| <= 255 && 1 <= |b.author| <= 150 && 10 <= |b.isbn| <= 20
      && Models.ValidateIsbn(b.isbn).Success?
      && (b.category.Some? ==> |b.category.value| <= 100)
      && (b.publicationYear.Some? ==> 1000 <= b.publicationYear.value <= 2100)
    ensures r.Some? ==> r.value == b.(isbn := Models.NormalizeIsbn(b.isbn), googleBooksId := None, totalPages := None)
  {
    var isbn := Models.ValidateIsbn(b.isbn);
    if Models.LengthWithin(b.title, 1, 255) && Models.LengthWithin(b.author, 1, 150)
       && Models.LengthWithin(b.isbn, 10, 20) && isbn.Success?
       && Models.OptionalLengthAtMost(b.category, 100) && Models.OptionalYear(b.publicationYear)
    then Some(b.(isbn := isbn.value, googleBooksId := None, totalPages := None))
    else None
  }

  /** A served row passes the check again unchanged: the cleaned ISBN is its own cleaning. */
  lemma {:induction false} AsBookResponseIdempotent(b: Book)
    requires AsBookResponse(b).Some?
    ensures AsBookResponse(AsBookResponse(b).value) == AsBookResponse(b)
  {
    Models.ValidateIsbnIdempotent(b.isbn);
    Models.NormalizeIsbnIdempotent(b.isbn);
  }

  /** `List[BookResponse]` applied to a window: every row passes `AsBookResponse`, or the whole answer is a 500. */
  function ServedRows(rows: seq<BookRow>): (r: Option<seq<BookRow>>)
    ensures r.Some? <==> forall i :: 0 <= i < |rows| ==> AsBookResponse(rows[i].book).Some?
    ensures r.Some? ==> |r.value| == |rows|
    ensures r.Some? ==> forall i :: 0 <= i < |rows| ==>
      r.value[i].id == rows[i].id && Some(r.value[i].book) == AsBookResponse(rows[i].book)
  {
    if forall i :: 0 <= i < |rows| ==> AsBookResponse(rows[i].book).Some? then
      Some(seq(|rows|, i requires 0 <= i < |rows| => BookRow(rows[i].id, AsBookResponse(rows[i].book).value)))
    else None
  }

  /**
   * `get_all_books`: `skip >= 0` and `1 <= limit <= 100` (422), then the
   * window `LIMIT limit OFFSET skip` of the selected books ordered by title,
   * each row as `BookResponse` serves it; one row in the window that fails
   * that check turns the whole answer into a 500.
   */
  method GetAllBooks(db: Library, skip: int, limit: int, category: Option<string>) returns (out: Outcome, rows: seq<BookRow>)
    ensures !(skip >= 0 && 1 <= limit <= 100) ==> out == Outcome(422, InvalidRequest) && rows == []
    ensures skip >= 0 && 1 <= limit <= 100 ==>
      exists all: seq<BookRow> ::
        && multiset(Listing.Keys(all, BookRowId)) == multiset(CatalogueSelection(db.books, category))
        && (forall i :: 0 <= i < |all| ==> all[i].id in db.books && all[i].book == db.books[all[i].id])
        && (forall i, j :: 0 <= i < j < |all| ==> Listing.StrLe(all[i].book.title, all[j].book.title))
        && var served := ServedRows(Listing.Page(all, skip, limit));
           && (served.Some? ==> out == Outcome(200, BooksListed) && rows == served.value)
           && (served.None? ==> out == Outcome(500, ResponseInvalid) && rows == [])
    ensures out.status == 200 ==>
      && |rows| <= limit
      && (forall i :: 0 <= i < |rows| ==> rows[i].id in db.books && Some(rows[i].book) == AsBookResponse(db.books[rows[i].id]))
  {
    rows := [];
    if !(skip >= 0 && 1 <= limit <= 100) {
      out := Outcome(422, InvalidRequest);
      return;
    }
    var all := SortedSelection(db.books, category);
    var window := Listing.Page(all, skip, limit);
    var served := ServedRows(window);
    if served.None? {
      out := Outcome(500, ResponseInvalid);
      return;
    }
    rows := served.value;
    forall i | 0 <= i < |rows|
      ensures rows[i].id in db.books && Some(rows[i].book) == AsBookResponse(db.books[rows[i].id])
    {
      assert window[i] == all[skip + i];
    }
    out := Outcome(200, BooksListed);
  }

  /** The selected books as rows ordered by title: the listing before `LIMIT` and `OFFSET` apply. */
  method SortedSelection(books: map<nat, Book>, category: Option<string>) returns (all: seq<BookRow>)
    ensures multiset(Listing.Keys(all, BookRowId)) == multiset(CatalogueSelection(books, category))
    ensures forall i :: 0 <= i < |all| ==> all[i].id in books && all[i].book == books[all[i].id]
    ensures forall i, j :: 0 <= i < j < |all| ==> Listing.StrLe(all[i].book.title, all[j].book.title)
  {
    var ids := Listing.ListByStringKey(CatalogueSelection(books, category), (id: nat) => TitleOf(books, id));
    all := [];
    var i := 0;
    while i < |ids|
      invariant 0 <= i <= |ids|
      invariant |all| == i
      invariant forall k :: 0 <= k < i ==> all[k].id == ids[k] && all[k].id in books && all[k].book == books[all[k].id]
    {
      assert ids[i] in multiset(ids);
      all := all + [BookRow(ids[i], books[ids[i]])];
      i := i + 1;
    }
    assert Listing.Keys(all, BookRowId) == ids;
    forall a, b | 0 <= a < b < |all| ensures Listing.StrLe(all[a].book.title, all[b].book.title) {
      assert TitleOf(books, ids[a]) == all[a].book.title && TitleOf(books, ids[b]) == all[b].book.title;
    }
  }

  /** `get_book_by_id`: a 404 for an unknown id; otherwise the row as `BookResponse` serves it, or a 500 when it fails that check. */
  function GetBookById(books: map<nat, Book>, bookId: int): (r: Result<BookRow, Outcome>)
    ensures r.Success? <==> bookId >= 0 && bookId in books && AsBookResponse(books[bookId as nat]).Some?
    ensures r.Success? ==> r.value.id == bookId && Some(r.value.book) == AsBookResponse(books[bookId as nat])
    ensures bookId < 0 || bookId !in books ==> r == Failure(Outcome(404, BookNotFound))
    ensures bookId >= 0 && bookId in books && AsBookResponse(books[bookId as nat]).None? ==>
      r == Failure(Outcome(500, ResponseInvalid))
  {
    if bookId < 0 || bookId as nat !in books then Failure(Outcome(404, BookNotFound))
    else match AsBookResponse(books[bookId as nat])
      case None => Failure(Outcome(500, ResponseInvalid))
      case Some(b) => Success(BookRow(bookId as nat, b))
  }

  /**
   * `get_book_preview`: a 404 for an unknown book; otherwise the book's viewer
   * data as a preview without a loan. A NULL `total_pages` fails
   * `BookPagesResponse`'s integer field, so such a book is answered with a 500.
   */
  function GetBookPreview(books: map<nat, Book>, bookId: int): (r: Result<BookPages, Outcome>)
    ensures r.Success? <==> bookId >= 0 && bookId in books && books[bookId as nat].totalPages.Some?
    ensures bookId < 0 || bookId !in books ==> r == Failure(Outcome(404, BookNotFound))
    ensures bookId >= 0 && bookId in books && books[bookId as nat].totalPages.None? ==>
      r == Failure(Outcome(500, ResponseInvalid))
    ensures r.Success? ==> r.value.isPreview && !r.value.hasLoan && r.value.pages == []
    ensures r.Success? ==>
      var b := books[bookId as nat];
      r.value.bookId == bookId && r.value.bookTitle == b.title
      && r.value.googleBooksId == b.googleBooksId && Some(r.value.totalPages) == b.totalPages
  {
    if bookId < 0 || bookId as nat !in books then Failure(Outcome(404, BookNotFound))
    else
      var b := books[bookId as nat];
      match b.totalPages
      case None => Failure(Outcome(500, ResponseInvalid))
      case Some(n) => Success(BookPages(bookId as nat, b.title, b.googleBooksId, n, [], true, false))
  }

  /**
   * `read_book`: a 404 for an unknown book; a 403 unless the caller (looked up
   * by username) holds an `activo` loan of it; otherwise the viewer data as a
   * full read with a loan, which, as for the preview, is a 500 when
   * `total_pages` is NULL.
   */
  function ReadBook(users: map<string, User>, books: map<nat, Book>, loans: map<nat, Loan>,
                    p: Principal, bookId: int): (r: Result<BookPages, Outcome>)
    ensures bookId < 0 || bookId !in books ==> r == Failure(Outcome(404, BookNotFound))
    ensures r.Success? <==>
      bookId >= 0 && bookId in books && p.username in users
      && HasActiveLoan(loans, users[p.username].id, bookId as nat)
      && books[bookId as nat].totalPages.Some?
    ensures bookId >= 0 && bookId in books
            && !(p.username in users && HasActiveLoan(loans, users[p.username].id, bookId as nat)) ==>
      r == Failure(Outcome(403, NoLoanToRead))
    ensures bookId >= 0 && bookId in books
            && p.username in users && HasActiveLoan(loans, users[p.username].id, bookId as nat)
            && books[bookId as nat].totalPages.None? ==>
      r == Failure(Outcome(500, ResponseInvalid))
    ensures r.Success? ==> !r.value.isPreview && r.value.hasLoan && r.value.pages == []
    ensures r.Success? ==>
      var pv := GetBookPreview(books, bookId).value;
      r.value == pv.(isPreview := false, hasLoan := true)
  {
    if bookId < 0 || bookId as nat !in books then Failure(Outcome(404, BookNotFound))
    else
      var b := books[bookId as nat];
      if p.username !in users || !HasActiveLoan(loans, users[p.username].id, bookId as nat) then
        Failure(Outcome(403, NoLoanToRead))
      else
        match b.totalPages
        case None => Failure(Outcome(500, ResponseInvalid))
        case Some(n) => Success(BookPages(bookId as nat, b.title, b.googleBooksId, n, [], false, true))
  }

  /** A freshly borrowed book that has a page count can be read by its borrower. */
  lemma BorrowedBookCanBeRead(users: map<string, User>, books: map<nat, Book>, loans: map<nat, Loan>,
                              p: Principal, bookId: nat, loanId: nat, now: int)
    requires bookId in books && p.username in users && books[bookId].totalPages.Some?
    ensures ReadBook(users, books, loans[loanId := Loan(users[p.username].id, bookId, now, now + LoanDurationDays * Day,
                                                        None, Activo, false)], p, bookId).Success?
  {
    var loans' := loans[loanId := Loan(users[p.username].id, bookId, now, now + LoanDurationDays * Day, None, Activo, false)];
    assert loans'[loanId].userId == users[p.username].id && loans'[loanId].bookId == bookId;
  }

  /** A borrower whose loan has gone `vencido` (and who holds no other `activo` loan of the book) may no longer read it. */
  lemma OverdueBorrowerCannotRead(users: map<string, User>, books: map<nat, Book>, loans: map<nat, Loan>,
                                  p: Principal, bookId: nat, loanId: nat)
    requires bookId in books && p.username in users && books[bookId].totalPages.Some?
    requires loanId in loans && loans[loanId].userId == users[p.username].id && loans[loanId].bookId == bookId
    requires loans[loanId].status == Activo
    requires forall k :: k in loans && k != loanId ==>
      !(loans[k].userId == users[p.username].id && loans[k].bookId == bookId && loans[k].status == Activo)
    ensures ReadBook(users, books, loans, p, bookId).Success?
    ensures ReadBook(users, books, loans[loanId := loans[loanId].(status := Vencido)], p, bookId)
            == Failure(Outcome(403, NoLoanToRead))
  {
    var loans' := loans[loanId := loans[loanId].(status := Vencido)];
    assert !HasActiveLoan(loans', users[p.username].id, bookId) by {
      assert forall k :: k in loans' ==>
        !(loans'[k].userId == users[p.username].id && loans'[k].bookId == bookId && loans'[k].status == Activo);
    }
  }

  // ---------------------------------------------------------------- admin writes

  /** No two books share an ISBN string. */
  ghost predicate IsbnsDistinct(books: map<nat, Book>) {
    forall i, j :: i in books && j in books && i != j ==> books[i].isbn != books[j].isbn
  }

  /** The row `create_book` inserts: every requested column except `total_pages`, which the INSERT leaves out. */
  function NewBook(v: Models.BookCreate): (b: Book)
    ensures b.isbn == v.isbn && b.totalPages.None?
    ensures b.totalCopies == v.totalCopies && b.availableCopies == v.availableCopies
  {
    Book(v.title, v.author, v.isbn, v.googleBooksId, v.description, v.category, v.publicationYear,
         v.coverUrl, None, v.totalCopies, v.availableCopies)
  }

  /** A book `create_book` stores passes the response check of the catalogue reads, served without its external id. */
  lemma {:induction false} CreatedBookIsServed(req: Models.BookCreate)
    requires Models.ValidateBookCreate(req).Some?
    ensures var b := NewBook(Models.ValidateBookCreate(req).value);
      AsBookResponse(b) == Some(b.(googleBooksId := None))
  {
    Models.ValidateIsbnIdempotent(req.isbn);
    Models.NormalizeIsbnIdempotent(req.isbn);
  }

  /** Having no page count, a book `create_book` stores can be neither previewed nor read: both answer a 500 past their 404 and 403 checks. */
  lemma CreatedBookCannotBeViewed(users: map<string, User>, books: map<nat, Book>, loans: map<nat, Loan>,
                                  p: Principal, v: Models.BookCreate, bookId: nat)
    requires bookId in books && books[bookId] == NewBook(v)
    ensures GetBookPreview(books, bookId) == Failure(Outcome(500, ResponseInvalid))
    ensures ReadBook(users, books, loans, p, bookId).Failure?
  {
  }

  /**
   * `create_book`: admins only (403); a request failing `BookCreate` is a 422;
   * a normalised ISBN already stored is a 400 and nothing is written;
   * otherwise exactly one book is added, with the normalised ISBN and its
   * copies within bounds.
   */
  method CreateBook(db: Library, p: Principal, req: Models.BookCreate) returns (out: Outcome, bookId: Option<nat>)
    requires db.Valid()
    modifies db`books, db`nextBookId
    ensures db.Valid()
    ensures RequireAdmin(p).Failure? ==> out == Outcome(403, NotAdmin) && bookId.None? && unchanged(db)
    ensures RequireAdmin(p).Success? && Models.ValidateBookCreate(req).None? ==>
      out == Outcome(422, InvalidRequest) && bookId.None? && unchanged(db)
    ensures RequireAdmin(p).Success? && Models.ValidateBookCreate(req).Some? ==>
      var v := Models.ValidateBookCreate(req).value;
      && (IsbnStored(old(db.books), v.isbn) ==> out == Outcome(400, IsbnExists) && bookId.None? && unchanged(db))
      && (!IsbnStored(old(db.books), v.isbn) ==>
            && out == Outcome(201, BookCreated) && bookId == Some(old(db.nextBookId))
            && db.books == old(db.books)[old(db.nextBookId) := NewBook(v)]
            && db.nextBookId == old(db.nextBookId) + 1)
    ensures out.status == 201 ==>
      var b := db.books[bookId.value];
      0 <= b.availableCopies <= b.totalCopies && (Models.IsIsbn10(b.isbn) || Models.IsIsbn13(b.isbn))
    ensures IsbnsDistinct(old(db.books)) ==> IsbnsDistinct(db.books)
  {
    bookId := None;
    if RequireAdmin(p).Failure? {
      out := Outcome(403, NotAdmin);
      return;
    }
    var validated := Models.ValidateBookCreate(req);
    if validated.None? {
      out := Outcome(422, InvalidRequest);
      return;
    }
    var v := validated.value;
    if IsbnStored(db.books, v.isbn) {
      out := Outcome(400, IsbnExists);
      return;
    }
    LoansValidUnderLargerCounters(db.loans, db.nextLoanId, db.nextBookId, db.nextUserId, db.nextBookId + 1, db.nextUserId);
    bookId := Some(db.nextBookId);
    db.books := db.books[db.nextBookId := NewBook(v)];
    db.nextBookId := db.nextBookId + 1;
    out := Outcome(201, BookCreated);
  }

  /** The fields of `update_book` that are present. */
  function FieldCount(u: Models.BookUpdate): (n: nat)
    ensures n == 0 <==> u == Models.BookUpdate(None, None, None, None, None, None, None)
    ensures n <= 7
  {
    (if u.title.Some? then 1 else 0) + (if u.author.Some? then 1 else 0)
    + (if u.description.Some? then 1 else 0) + (if u.category.Some? then 1 else 0)
    + (if u.publicationYear.Some? then 1 else 0) + (if u.totalCopies.Some? then 1 else 0)
    + (if u.availableCopies.Some? then 1 else 0)
  }

  /** `u` keeps `b`'s value of a field it does not mention and takes its own otherwise. */
  ghost predicate IsPatch(b: Book, u: Models.BookUpdate, b': Book) {
    && b'.title == (if u.title.Some? then u.title.value else b.title)
    && b'.author == (if u.author.Some? then u.author.value else b.author)
    && b'.description == (if u.description.Some? then u.description else b.description)
    && b'.category == (if u.category.Some? then u.category else b.category)
    && b'.publicationYear == (if u.publicationYear.Some? then u.publicationYear else b.publicationYear)
    && b'.totalCopies == (if u.totalCopies.Some? then u.totalCopies.value else b.totalCopies)
    && b'.availableCopies == (if u.availableCopies.Some? then u.availableCopies.value else b.availableCopies)
    && b'.isbn == b.isbn && b'.googleBooksId == b.googleBooksId && b'.coverUrl == b.coverUrl
    && b'.totalPages == b.totalPages
  }

  /**
   * The `UPDATE books SET …` that `update_book` assembles one `if` at a time:
   * the result takes each present field and keeps every other column,
   * including the ISBN, the cover and the external id; `n` counts the SET
   * clauses.
   */
  method Patch(b: Book, u: Models.BookUpdate) returns (b': Book, n: nat)
    ensures IsPatch(b, u, b')
    ensures n == FieldCount(u)
  {
    b', n := b, 0;
    if u.title.Some? { b', n := b'.(title := u.title.value), n + 1; }
    if u.author.Some? { b', n := b'.(author := u.author.value), n + 1; }
    if u.description.Some? { b', n := b'.(description := u.description), n + 1; }
    if u.category.Some? { b', n := b'.(category := u.category), n + 1; }
    if u.publicationYear.Some? { b', n := b'.(publicationYear := u.publicationYear), n + 1; }
    if u.totalCopies.Some? { b', n := b'.(totalCopies := u.totalCopies.value), n + 1; }
    if u.availableCopies.Some? { b', n := b'.(availableCopies := u.availableCopies.value), n + 1; }
  }

  /** An update that passes `BookUpdate` keeps a served row servable: it checks the same bounds `BookResponse` does. */
  lemma PatchKeepsServed(b: Book, u: Models.BookUpdate, b': Book)
    requires IsPatch(b, u, b') && Models.ValidBookUpdate(u) && AsBookResponse(b).Some?
    ensures AsBookResponse(b').Some?
  {
  }

  /** Applying the same update twice changes nothing more. */
  lemma PatchIsIdempotent(b: Book, u: Models.BookUpdate, b': Book, b'': Book)
    requires IsPatch(b, u, b') && IsPatch(b', u, b'')
    ensures b'' == b'
  {
  }

  /** Each update determines its result: one patched row per book and update. */
  lemma PatchIsFunctional(b: Book, u: Models.BookUpdate, b1: Book, b2: Book)
    requires IsPatch(b, u, b1) && IsPatch(b, u, b2)
    ensures b1 == b2
  {
  }

  /**
   * `update_book`: admins only (403); a body failing `BookUpdate` is a 422; an
   * unknown id a 404; a body with no field a 400; otherwise exactly that book
   * changes, in exactly the fields given.
   */
  method UpdateBook(db: Library, p: Principal, bookId: int, u: Models.BookUpdate) returns (out: Outcome)
    requires db.Valid()
    modifies db`books
    ensures db.Valid()
    ensures out.status != 200 ==> db.books == old(db.books)
    ensures RequireAdmin(p).Failure? ==> out == Outcome(403, NotAdmin)
    ensures RequireAdmin(p).Success? && !Models.ValidBookUpdate(u) ==> out == Outcome(422, InvalidRequest)
    ensures RequireAdmin(p).Success? && Models.ValidBookUpdate(u) && (bookId < 0 || bookId !in old(db.books)) ==>
      out == Outcome(404, BookNotFound)
    ensures RequireAdmin(p).Success? && Models.ValidBookUpdate(u) && bookId >= 0 && bookId in old(db.books) ==>
      && (FieldCount(u) == 0 ==> out == Outcome(400, NoFieldsToUpdate))
      && (FieldCount(u) > 0 ==>
            && out == Outcome(200, BookUpdated)
            && db.books.Keys == old(db.books).Keys
            && IsPatch(old(db.books[bookId as nat]), u, db.books[bookId as nat])
            && forall k :: k in db.books && k != bookId ==> db.books[k] == old(db.books[k]))
  {
    if RequireAdmin(p).Failure? {
      return Outcome(403, NotAdmin);
    }
    if !Models.ValidBookUpdate(u) {
      return Outcome(422, InvalidRequest);
    }
    if bookId < 0 || bookId as nat !in db.books {
      return Outcome(404, BookNotFound);
    }
    var b', n := Patch(db.books[bookId as nat], u);
    if n == 0 {
      return Outcome(400, NoFieldsToUpdate);
    }
    db.books := db.books[bookId as nat := b'];
    out := Outcome(200, BookUpdated);
  }

  /** The loans of a book in status `activo` (what the deletion guard counts). */
  function ActiveLoansOfBook(loans: map<nat, Loan>, bid: nat): set<nat> {
    set id | id in loans && loans[id].bookId == bid && loans[id].status == Activo
  }

  /** `DELETE FROM loans WHERE book_id = %s`. */
  function LoansWithoutBook(loans: map<nat, Loan>, bid: nat): (r: map<nat, Loan>)
    ensures forall id :: id in r <==> id in loans && loans[id].bookId != bid
    ensures forall id :: id in r ==> r[id] == loans[id]
  {
    map id | id in loans && loans[id].bookId != bid :: loans[id]
  }

  /**
   * `delete_book`: admins only (403); an unknown id is a 404 with nothing
   * changed; without `force`, a book with an `activo` loan is a 400 (its
   * `vencido` and `devuelto` loans do not block, and stay behind); with
   * `force`, every loan of the book goes first, whatever its status. Then the
   * book goes.
   */
  method DeleteBook(db: Library, p: Principal, bookId: int, force: bool) returns (out: Outcome)
    requires db.Valid()
    modifies db`books, db`loans
    ensures db.Valid()
    ensures out.status != 200 ==> db.books == old(db.books) && db.loans == old(db.loans)
    ensures RequireAdmin(p).Failure? ==> out == Outcome(403, NotAdmin)
    ensures RequireAdmin(p).Success? && (bookId < 0 || bookId !in old(db.books)) ==> out == Outcome(404, BookNotFound)
    ensures RequireAdmin(p).Success? && bookId >= 0 && bookId in old(db.books) ==>
      && (!force && ActiveLoansOfBook(old(db.loans), bookId as nat) != {} ==> out == Outcome(400, BookHasActiveLoans))
      && (force || ActiveLoansOfBook(old(db.loans), bookId as nat) == {} ==>
            && out == Outcome(200, BookDeleted)
            && db.books == old(db.books) - {bookId as nat}
            && db.loans == if force then LoansWithoutBook(old(db.loans), bookId as nat) else old(db.loans))
  {
    if RequireAdmin(p).Failure? {
      return Outcome(403, NotAdmin);
    }
    if bookId < 0 || bookId as nat !in db.books {
      return Outcome(404, BookNotFound);
    }
    var bid := bookId as nat;
    if !force && |ActiveLoansOfBook(db.loans, bid)| > 0 {
      return Outcome(400, BookHasActiveLoans);
    }
    if force {
      LimitsKeptWhenActiveShrinks(db.loans, LoansWithoutBook(db.loans, bid));
      db.loans := LoansWithoutBook(db.loans, bid);
    }
    db.books := db.books - {bid};
    out := Outcome(200, BookDeleted);
  }

  /**
   * After a deletion without `force`, a `vencido` loan of the deleted book is
   * left behind and can no longer be returned: the join of `return_book` no
   * longer finds its book, so its copy never comes back.
   */
  lemma OrphanedLoanCannotBeReturned(users: map<string, User>, books: map<nat, Book>, loans: map<nat, Loan>,
                                     p: Principal, loanId: nat)
    requires loanId in loans && loans[loanId].status == Vencido
    requires Loans.ReturnVerdict(users, books, loans, p, loanId).Success?
    ensures Loans.ReturnVerdict(users, books - {loans[loanId].bookId}, loans, p, loanId)
            == Failure(Outcome(404, LoanNotFound))
  {
  }

  // ---------------------------------------------------------------- external search filter

  /** An entry of the external search results, as far as the filter reads it. */
  datatype ExternalBook = ExternalBook(title: Option<string>, description: Option<string>, category: Option<string>)

  /** `book.get(field) and q_lower in book[field].lower()`. */
  predicate FieldMatches(field: Option<string>, qLower: string) {
    Truthy(field) && Contains(ToLower(field.value), qLower)
  }

  /** The filter of `search_field`: one named field, or any of the three for every other value. */
  predicate Kept(b: ExternalBook, qLower: string, searchField: string) {
    if searchField == "title" then FieldMatches(b.title, qLower)
    else if searchField == "description" then FieldMatches(b.description, qLower)
    else if searchField == "category" then FieldMatches(b.category, qLower)
    else FieldMatches(b.title, qLower) || FieldMatches(b.description, qLower) || FieldMatches(b.category, qLower)
  }

  /** The list comprehension of `search_google_books`. */
  function FilterResults(items: seq<ExternalBook>, qLower: string, searchField: string): (r: seq<ExternalBook>)
    ensures |r| <= |items|
    ensures forall b :: b in r <==> b in items && Kept(b, qLower, searchField)
    ensures Listing.IsSubsequence(r, items)
    ensures forall b :: multiset(r)[b] == if Kept(b, qLower, searchField) then multiset(items)[b] else 0
  {
    if items == [] then []
    else
      var rest := FilterResults(items[1..], qLower, searchField);
      assert forall b :: b in items <==> b == items[0] || b in items[1..];
      assert items == [items[0]] + items[1..];
      if Kept(items[0], qLower, searchField) then [items[0]] + rest else rest
  }

  /** The answer of `search_google_books`. */
  datatype SearchResponse = SearchResponse(query: string, searchField: string, total: nat, books: seq<ExternalBook>)

  /**
   * `search_google_books`: `q` must be non-empty and `1 <= max_results <= 40`
   * (422); the service's results are an input here. The answer lists, in the
   * service's order, the entries containing the lower-cased query in the
   * chosen field, and reports their number.
   */
  function SearchGoogleBooks(q: string, maxResults: int, searchField: string, results: seq<ExternalBook>)
    : (r: Result<SearchResponse, Outcome>)
    ensures r.Failure? <==> |q| < 1 || !(1 <= maxResults <= 40)
    ensures r.Failure? ==> r.error == Outcome(422, InvalidRequest)
    ensures r.Success? ==>
      && r.value.query == q && r.value.searchField == searchField
      && r.value.total == |r.value.books| <= |results|
      && Listing.IsSubsequence(r.value.books, results)
      && (forall b :: b in r.value.books <==> b in results && Kept(b, ToLower(q), searchField))
      && (forall b :: multiset(r.value.books)[b] == if Kept(b, ToLower(q), searchField) then multiset(results)[b] else 0)
  {
    if |q| < 1 || !(1 <= maxResults <= 40) then Failure(Outcome(422, InvalidRequest))
    else
      var books := FilterResults(results, ToLower(q), searchField);
      Success(SearchResponse(q, searchField, |books|, books))
  }

  /** A field name outside the three means "any of them": the default `all` keeps whatever any single field would. */
  lemma AnyFieldKeepsMore(b: ExternalBook, qLower: string, field: string, other: string)
    requires other != "title" && other != "description" && other != "category"
    requires Kept(b, qLower, field)
    ensures Kept(b, qLower, other)
  {
  }
}

=== FILE: bulk_upload.dfy ===
/**
 * `routes/bulk_upload.py`: importing books from a spreadsheet. The upload
 * checks, the per-row extraction, the classification of every row into
 * inserted, skipped or failed, the optional enrichment from the external
 * catalogue, and the summary. The spreadsheet enters as rows of cells (what
 * pandas would hand over), and the external lookup as a function.
 */
module BulkUpload {
  import opened Wrappers
  import opened Text
  import opened Store
  import Listing
  import Models
  import Books

  /** `MAX_FILE_SIZE`: ten kibibytes. */
  const MaxFileSize: nat := 1024 * 10

  // ---------------------------------------------------------------- ISBN-13

  /**
   * `is_valid_isbn13`: with hyphens removed and surrounding whitespace
   * stripped, exactly thirteen digits whose check digit is right.
   */
  function IsValidIsbn13(isbn: string): (ok: bool)
    ensures ok <==> Models.IsIsbn13(Strip(Remove(isbn, '-')))
  {
    var clean := Strip(Remove(isbn, '-'));
    if !AllDigits(clean) || |clean| != 13 then false
    else
      var total := Models.Isbn13Sum(clean, 12);
      var last := Models.Digit(clean[12]);
      Models.CheckDigitMeansFullSum(total, last);
      (10 - total % 10) % 10 == last
  }

  /** An ISBN-10 is never accepted, however it is written. */
  lemma Isbn10Rejected(isbn: string)
    requires Models.IsIsbn10(Strip(Remove(isbn, '-')))
    ensures !IsValidIsbn13(isbn)
  {
  }

  /** A string of digits has no hyphen to remove. */
  lemma RemoveFromDigits(s: string)
    requires AllDigits(s)
    ensures '-' !in s && Remove(s, '-') == s
  {
    assert '-' !in s;
    RemoveMembers(s, '-');
  }

  lemma RemoveSplicedHyphen(s: string, k: nat)
    requires k <= |s| && '-' !in s
    ensures Remove(s[..k] + "-" + s[k..], '-') == s
  {
    var a, b := s[..k], s[k..];
    assert s == a + b;
    assert '-' !in a && '-' !in b;
    RemoveAbsent(a, '-');
    RemoveAbsent(b, '-');
    RemoveConcat(a + "-", b, '-');
    RemoveConcat(a, "-", '-');
    assert Remove("-", '-') == [] by {
      assert "-"[1..] == [];
    }
    assert a + [] == a;
  }

  lemma RemoveAbsent(s: string, c: char)
    requires c !in s
    ensures Remove(s, c) == s
  {
    RemoveMembers(s, c);
  }

  /**
   * A hyphen put anywhere into a valid ISBN-13 still passes, and gives a
   * different string: the exact-match duplicate check lets both spellings in.
   */
  lemma HyphenatedIsbnIsAnotherString(s: string, k: nat)
    requires Models.IsIsbn13(s) && k <= |s|
    ensures IsValidIsbn13(s)
    ensures IsValidIsbn13(s[..k] + "-" + s[k..]) && s[..k] + "-" + s[k..] != s
  {
    RemoveFromDigits(s);
    RemoveSplicedHyphen(s, k);
    StripOfNonSpaceEnds(s);
    assert |s[..k] + "-" + s[k..]| == |s| + 1;
  }

  // ---------------------------------------------------------------- upload checks

  /**
   * `validate_excel_file`: the name must end in `.xlsx` or `.xls` (400), and
   * only then is the size compared with `MAX_FILE_SIZE` (413).
   */
  function ValidateExcelFile(filename: string, size: nat): (r: Option<Outcome>)
    ensures !(EndsWith(filename, ".xlsx") || EndsWith(filename, ".xls")) ==> r == Some(Outcome(400, NotExcel))
    ensures EndsWith(filename, ".xlsx") || EndsWith(filename, ".xls") ==>
      (r.Some? <==> size > MaxFileSize) && (r.Some? ==> r.value == Outcome(413, FileTooLarge))
  {
    if !(EndsWith(filename, ".xlsx") || EndsWith(filename, ".xls")) then Some(Outcome(400, NotExcel))
    else if size > MaxFileSize then Some(Outcome(413, FileTooLarge))
    else None
  }

  /** The columns every spreadsheet must have, in the order they are reported. */
  const RequiredColumns: seq<string> := ["title", "author", "isbn"]

  /** `[col for col in wanted if col not in columns]`. */
  function Missing(wanted: seq<string>, columns: seq<string>): (m: seq<string>)
    ensures forall c :: c in m <==> c in wanted && c !in columns
    ensures Listing.IsSubsequence(m, wanted)
  {
    if wanted == [] then []
    else if wanted[0] in columns then Missing(wanted[1..], columns)
    else [wanted[0]] + Missing(wanted[1..], columns)
  }

  /** `validate_required_columns`: a 400 exactly when a required column is missing. */
  function ValidateRequiredColumns(columns: seq<string>): (r: Option<(Outcome, seq<string>)>)
    ensures r.Some? <==> exists c :: c in RequiredColumns && c !in columns
    ensures r.Some? ==> r.value == (Outcome(400, MissingColumns), Missing(RequiredColumns, columns))
  {
    var missing := Missing(RequiredColumns, columns);
    if missing == [] then None
    else
      assert missing[0] in missing;
      Some((Outcome(400, MissingColumns), missing))
  }

  // ---------------------------------------------------------------- rows

  /** A text cell: the column is absent, the cell is blank (`NaN`), or it holds text. */
  datatype TextCell = MissingText | BlankText | Text(s: string)

  /** A numeric cell: absent column, blank cell, an integer, or something `int()` rejects. */
  datatype NumCell = MissingNum | BlankNum | Num(n: int) | NotNum

  /** A spreadsheet row. */
  datatype Row = Row(
    title: TextCell, author: TextCell, isbn: TextCell, description: TextCell, category: TextCell,
    publicationYear: NumCell, totalCopies: NumCell, availableCopies: NumCell, coverUrl: TextCell)

  /** The dictionary `extract_book_data` builds. */
  datatype BookData = BookData(
    title: string, author: string, isbn: string, description: Option<string>, category: Option<string>,
    publicationYear: Option<int>, totalCopies: int, availableCopies: int, coverUrl: Option<string>)

  /** `str(row.get(col, '')).strip()`: a blank cell becomes the text `nan`. */
  function RequiredText(c: TextCell): string {
    match c
    case MissingText => ""
    case BlankText => "nan"
    case Text(s) => Strip(s)
  }

  /** `str(…).strip() if pd.notna(…) else None`. */
  function OptionalText(c: TextCell): Option<string> {
    match c
    case Text(s) => Some(Strip(s))
    case _ => None
  }

  /** `int(row.get(col, default))`; `None` where `int()` raises. */
  function IntCell(c: NumCell, default: int): Option<int> {
    match c
    case MissingNum => Some(default)
    case Num(n) => Some(n)
    case _ => None
  }

  /**
   * `extract_book_data`: `None` where a conversion raises (a non-numeric
   * year, or a blank or non-numeric copy count). A missing copy count means
   * one copy, and missing available copies means all of them.
   */
  function ExtractBookData(r: Row): (d: Option<BookData>)
    ensures d.None? <==>
      r.publicationYear.NotNum? || r.totalCopies.BlankNum? || r.totalCopies.NotNum?
      || r.availableCopies.BlankNum? || r.availableCopies.NotNum?
    ensures d.Some? && r.totalCopies.MissingNum? ==> d.value.totalCopies == 1
    ensures d.Some? && r.availableCopies.MissingNum? ==> d.value.availableCopies == d.value.totalCopies
    ensures d.Some? && r.title.BlankText? ==> d.value.title == "nan"
    ensures d.Some? && (r.description.MissingText? || r.description.BlankText?) ==> d.value.description.None?
  {
    if r.publicationYear.NotNum? then None
    else
      var year := if r.publicationYear.Num? then Some(r.publicationYear.n) else None;
      match IntCell(r.totalCopies, 1)
      case None => None
      case Some(total) =>
        var available := if r.availableCopies.MissingNum? then Some(total) else IntCell(r.availableCopies, 0);
        if available.None? then None
        else Some(BookData(RequiredText(r.title), RequiredText(r.author), RequiredText(r.isbn),
                           OptionalText(r.description), OptionalText(r.category), year,
                           total, available.value, OptionalText(r.coverUrl)))
  }

  /** Nothing in the extraction bounds the copy counts: zero, negative or more available than total all pass. */
  lemma ExtractionAcceptsAnyCopyCounts(r: Row, total: int, available: int)
    requires !r.publicationYear.NotNum?
    ensures var d := ExtractBookData(r.(totalCopies := Num(total), availableCopies := Num(available)));
      d.Some? && d.value.totalCopies == total && d.value.availableCopies == available
  {
  }

  // ---------------------------------------------------------------- enrichment

  /** What the external lookup by ISBN returns. */
  datatype GoogleBook = GoogleBook(description: Option<string>, category: Option<string>,
                                   publicationYear: Option<int>, coverUrl: Option<string>)

  predicate TruthyYear(y: Option<int>) { y.Some? && y.value != 0 }

  /** The row after enrichment: each of the four keys takes the lookup's value where the row's is falsy and the lookup's is not. */
  function Enriched(d: BookData, g: GoogleBook): (e: BookData)
    ensures e.(description := d.description, category := d.category, publicationYear := d.publicationYear,
               coverUrl := d.coverUrl) == d
    ensures Truthy(d.description) ==> e.description == d.description
    ensures Truthy(d.category) ==> e.category == d.category
    ensures TruthyYear(d.publicationYear) ==> e.publicationYear == d.publicationYear
    ensures Truthy(d.coverUrl) ==> e.coverUrl == d.coverUrl
    ensures !Truthy(d.description) && Truthy(g.description) ==> e.description == g.description
    ensures !Truthy(d.category) && Truthy(g.category) ==> e.category == g.category
    ensures !TruthyYear(d.publicationYear) && TruthyYear(g.publicationYear) ==> e.publicationYear == g.publicationYear
    ensures !Truthy(d.coverUrl) && Truthy(g.coverUrl) ==> e.coverUrl == g.coverUrl
    ensures !Truthy(g.description) ==> e.description == d.description
    ensures !Truthy(g.category) ==> e.category == d.category
    ensures !TruthyYear(g.publicationYear) ==> e.publicationYear == d.publicationYear
    ensures !Truthy(g.coverUrl) ==> e.coverUrl == d.coverUrl
  {
    d.(description := if !Truthy(d.description) && Truthy(g.description) then g.description else d.description,
       category := if !Truthy(d.category) && Truthy(g.category) then g.category else d.category,
       publicationYear := if !TruthyYear(d.publicationYear) && TruthyYear(g.publicationYear) then g.publicationYear
                          else d.publicationYear,
       coverUrl := if !Truthy(d.coverUrl) && Truthy(g.coverUrl) then g.coverUrl else d.coverUrl)
  }

  /** Enriching twice from the same lookup changes nothing more. */
  lemma EnrichedIsIdempotent(d: BookData, g: GoogleBook)
    ensures Enriched(Enriched(d, g), g) == Enriched(d, g)
  {
  }

  /**
   * `enrich_book_with_google_data`: fills the gaps key by key in place, and
   * reports whether the lookup found the book.
   */
  method EnrichBookWithGoogleData(d: BookData, google: Option<GoogleBook>) returns (e: BookData, enriched: bool)
    ensures enriched <==> google.Some?
    ensures e == if google.Some? then Enriched(d, google.value) else d
  {
    e := d;
    if google.None? {
      return e, false;
    }
    var g := google.value;
    if !Truthy(e.description) && Truthy(g.description) { e := e.(description := g.description); }
    if !Truthy(e.category) && Truthy(g.category) { e := e.(category := g.category); }
    if !TruthyYear(e.publicationYear) && TruthyYear(g.publicationYear) { e := e.(publicationYear := g.publicationYear); }
    if !Truthy(e.coverUrl) && Truthy(g.coverUrl) { e := e.(coverUrl := g.coverUrl); }
    enriched := true;
  }

  /** The row `insert_book_to_database` writes: no external id and no page count. */
  function StoredBook(d: BookData): (b: Book)
    ensures b.isbn == d.isbn && b.title == d.title && b.googleBooksId.None? && b.totalPages.None?
  {
    Book(d.title, d.author, d.isbn, None, d.description, d.category, d.publicationYear, d.coverUrl,
         None, d.totalCopies, d.availableCopies)
  }

  /**
   * Nothing bounds the year of an uploaded row: a year past 2100 is extracted,
   * kept by the enrichment, and stored, and the stored book then fails the
   * response check of the catalogue reads, which answer it with a 500.
   */
  lemma {:induction false} LateYearIsStoredButNotServed(r: Row, g: GoogleBook, year: int)
    requires ExtractBookData(r).Some? && year > 2100
    ensures var d := ExtractBookData(r.(publicationYear := Num(year)));
      && d.Some? && d.value.publicationYear == Some(year)
      && Enriched(d.value, g).publicationYear == Some(year)
      && Books.AsBookResponse(StoredBook(Enriched(d.value, g))).None?
  {
    var d := ExtractBookData(r.(publicationYear := Num(year)));
    assert d.Some?;
    assert TruthyYear(d.value.publicationYear);
  }

  /**
   * A hyphenated ISBN-13 is stored as written, but the catalogue reads serve
   * it cleaned: the validator of `BookResponse` removes the hyphen again.
   */
  lemma {:induction false} HyphenatedIsbnServedCleaned(d: BookData, s: string, k: nat)
    requires Models.IsIsbn13(s) && k <= |s| && d.isbn == s[..k] + "-" + s[k..]
    requires 1 <= |d.title| <= 255 && 1 <= |d.author| <= 150
    requires d.category.Some? ==> |d.category.value| <= 100
    requires d.publicationYear.Some? ==> 1000 <= d.publicationYear.value <= 2100
    ensures Books.AsBookResponse(StoredBook(d)).Some?
    ensures Books.AsBookResponse(StoredBook(d)).value.isbn == s != StoredBook(d).isbn
  {
    SplicedHyphenCleaned(s, k);
    assert Models.ValidateIsbn(d.isbn) == Success(s);
  }

  /** Cleaning a string of digits with one hyphen spliced in gives the digits back. */
  lemma SplicedHyphenCleaned(s: string, k: nat)
    requires AllDigits(s) && k <= |s|
    ensures Models.NormalizeIsbn(s[..k] + "-" + s[k..]) == s
    ensures |s[..k] + "-" + s[k..]| == |s| + 1
  {
    RemoveFromDigits(s);
    RemoveSplicedHyphen(s, k);
    assert ' ' !in s;
    Models.NormalizeIsbnOfNormal(s);
  }

  // ---------------------------------------------------------------- classification

  datatype SkipReason = IncompleteRow | InvalidIsbn13 | IsbnAlreadyStored

  /** An entry of `success` or `enriched`. */
  datatype Done = Done(row: nat, isbn: string, title: string)

  /** An entry of `skipped`; an incomplete row carries no ISBN. */
  datatype Skip = Skip(row: nat, isbn: Option<string>, reason: SkipReason)

  /** An entry of `errors`. */
  datatype RowError = RowError(row: nat, isbn: string)

  datatype Results = Results(success: seq<Done>, errors: seq<RowError>, skipped: seq<Skip>, enriched: seq<Done>)

  /** `not title or not author or not isbn`. */
  predicate Incomplete(d: BookData) {
    d.title == "" || d.author == "" || d.isbn == ""
  }

  datatype RowVerdict = Broken | Skipped(reason: SkipReason) | Accepted

  /**
   * The fate of an extracted row when the stored ISBNs are `taken`: a failed
   * extraction is an error; then, in this order, an incomplete row, an
   * invalid ISBN-13 and an ISBN already stored (the exact string) are
   * skipped; anything else is inserted.
   */
  function Classify(taken: set<string>, e: Option<BookData>): (v: RowVerdict)
    ensures v == Broken <==> e.None?
    ensures v == Skipped(IncompleteRow) <==> e.Some? && Incomplete(e.value)
    ensures v == Skipped(InvalidIsbn13) <==> e.Some? && !Incomplete(e.value) && !IsValidIsbn13(e.value.isbn)
    ensures v == Skipped(IsbnAlreadyStored) <==>
      e.Some? && !Incomplete(e.value) && IsValidIsbn13(e.value.isbn) && e.value.isbn in taken
    ensures v == Accepted <==>
      e.Some? && !Incomplete(e.value) && IsValidIsbn13(e.value.isbn) && e.value.isbn !in taken
  {
    match e
    case None => Broken
    case Some(d) =>
      if Incomplete(d) then Skipped(IncompleteRow)
      else if !IsValidIsbn13(d.isbn) then Skipped(InvalidIsbn13)
      else if d.isbn in taken then Skipped(IsbnAlreadyStored)
      else Accepted
  }

  /** What `process_dataframe` has built after some rows: the lists, the stored ISBNs, the `isbn` local, and the rows inserted. */
  datatype Progress = Progress(results: Results, taken: set<string>, lastIsbn: Option<string>, inserted: seq<Book>)

  function Start(books: map<nat, Book>): Progress {
    Progress(Results([], [], [], []), Isbns(books), None, [])
  }

  /**
   * One iteration of `process_dataframe` on the row at `index`, reported as
   * row `index + 2`. An error entry names the `isbn` local, which still holds
   * the ISBN of the last row that got through extraction (or `N/A` when none has).
   */
  function Step(p: Progress, r: Row, index: nat, enrich: bool, lookup: string -> Option<GoogleBook>): Progress {
    var res := p.results;
    var e := ExtractBookData(r);
    match Classify(p.taken, e)
    case Broken =>
      p.(results := res.(errors := res.errors + [RowError(index + 2, p.lastIsbn.GetOr("N/A"))]))
    case Skipped(reason) =>
      var entry := Skip(index + 2, if reason == IncompleteRow then None else Some(e.value.isbn), reason);
      p.(results := res.(skipped := res.skipped + [entry]), lastIsbn := Some(e.value.isbn))
    case Accepted =>
      var d := e.value;
      var google := if enrich then lookup(d.isbn) else None;
      var stored := if google.Some? then Enriched(d, google.value) else d;
      var done := Done(index + 2, d.isbn, d.title);
      Progress(res.(success := res.success + [done], enriched := res.enriched + (if google.Some? then [done] else [])),
               p.taken + {d.isbn}, Some(d.isbn), p.inserted + [StoredBook(stored)])
  }

  /** The progress after the first `n` rows. */
  function Processed(books: map<nat, Book>, rows: seq<Row>, n: nat, enrich: bool, lookup: string -> Option<GoogleBook>): Progress
    requires n <= |rows|
  {
    if n == 0 then Start(books)
    else Step(Processed(books, rows, n - 1, enrich, lookup), rows[n - 1], n - 1, enrich, lookup)
  }

  lemma IsbnsAfterInsert(books: map<nat, Book>, k: nat, b: Book)
    requires k !in books
    ensures Isbns(books[k := b]) == Isbns(books) + {b.isbn}
  {
    assert b.isbn in Isbns(books[k := b]) by {
      assert books[k := b][k] == b;
    }
    forall x | x in Isbns(books) ensures x in Isbns(books[k := b]) {
      var j :| j in books && books[j].isbn == x;
      assert books[k := b][j] == books[j];
    }
  }

  /**
   * The body of the loop in `process_dataframe`, on one row: the lists, the
   * `isbn` local and the catalogue move exactly as `Step` says, and the
   * catalogue gains at most the one book `Step` inserts, under the next id.
   */
  method ProcessRow(db: Library, ghost books0: map<nat, Book>, ghost next0: nat, rows: seq<Row>, index: nat,
                    results: Results, lastIsbn: Option<string>, ghost inserted: seq<Book>,
                    enrich: bool, lookup: string -> Option<GoogleBook>)
    returns (results': Results, lastIsbn': Option<string>, ghost inserted': seq<Book>)
    requires db.Valid() && index < |rows|
    requires forall k :: k in books0 ==> k < next0
    requires Processed(books0, rows, index, enrich, lookup) == Progress(results, Isbns(db.books), lastIsbn, inserted)
    requires Extends(books0, next0, db.books, db.nextBookId, inserted)
    modifies db`books, db`nextBookId
    ensures db.Valid()
    ensures Processed(books0, rows, index + 1, enrich, lookup) == Progress(results', Isbns(db.books), lastIsbn', inserted')
    ensures Extends(books0, next0, db.books, db.nextBookId, inserted')
  {
    results', lastIsbn', inserted' := results, lastIsbn, inserted;
    ghost var p := Progress(results, Isbns(db.books), lastIsbn, inserted);
    var row := rows[index];
    var extracted := ExtractBookData(row);
    if extracted.None? {
      results' := results.(errors := results.errors + [RowError(index + 2, lastIsbn.GetOr("N/A"))]);
      assert Classify(p.taken, extracted) == Broken;
    } else {
      var d := extracted.value;
      lastIsbn' := Some(d.isbn);
      if Incomplete(d) {
        results' := results.(skipped := results.skipped + [Skip(index + 2, None, IncompleteRow)]);
        assert Classify(p.taken, extracted) == Skipped(IncompleteRow);
      } else if !IsValidIsbn13(d.isbn) {
        results' := results.(skipped := results.skipped + [Skip(index + 2, Some(d.isbn), InvalidIsbn13)]);
        assert Classify(p.taken, extracted) == Skipped(InvalidIsbn13);
      } else if IsbnStored(db.books, d.isbn) {
        results' := results.(skipped := results.skipped + [Skip(index + 2, Some(d.isbn), IsbnAlreadyStored)]);
        assert Classify(p.taken, extracted) == Skipped(IsbnAlreadyStored);
      } else {
        assert Classify(p.taken, extracted) == Accepted;
        var b;
        results', b := InsertAccepted(db, results, d, index, enrich, lookup);
        InsertionExtends(books0, next0, old(db.books), old(db.nextBookId), inserted, b);
        inserted' := inserted + [b];
      }
    }
    ProcessedNext(books0, rows, index, enrich, lookup, p, Progress(results', Isbns(db.books), lastIsbn', inserted'));
  }

  /**
   * The accepted branch of the loop: enrich when asked to, insert the book
   * under the next id, and record it in `success` (and in `enriched` when the
   * lookup found it).
   */
  method InsertAccepted(db: Library, results: Results, d: BookData, index: nat, enrich: bool,
                        lookup: string -> Option<GoogleBook>)
    returns (results': Results, b: Book)
    requires db.Valid()
    modifies db`books, db`nextBookId
    ensures db.Valid()
    ensures var google := if enrich then lookup(d.isbn) else None;
      var done := Done(index + 2, d.isbn, d.title);
      && b == StoredBook(if google.Some? then Enriched(d, google.value) else d)
      && results' == results.(success := results.success + [done],
                              enriched := results.enriched + (if google.Some? then [done] else []))
    ensures old(db.nextBookId) !in old(db.books)
    ensures db.books == old(db.books)[old(db.nextBookId) := b] && db.nextBookId == old(db.nextBookId) + 1
  {
    results' := results;
    var google := if enrich then lookup(d.isbn) else None;
    var stored, wasEnriched := EnrichBookWithGoogleData(d, google);
    if wasEnriched {
      results' := results'.(enriched := results'.enriched + [Done(index + 2, d.isbn, d.title)]);
    }
    b := StoredBook(stored);
    db.books := db.books[db.nextBookId := b];
    db.nextBookId := db.nextBookId + 1;
    results' := results'.(success := results'.success + [Done(index + 2, d.isbn, d.title)]);
  }

  /**
   * The catalogue `books` with next id `next` is `books0` (next id `next0`)
   * with `inserted` added under consecutive ids and nothing else touched.
   */
  ghost predicate Extends(books0: map<nat, Book>, next0: nat, books: map<nat, Book>, next: nat, inserted: seq<Book>) {
    && next == next0 + |inserted|
    && (forall k :: k in books <==> k in books0 || next0 <= k < next)
    && (forall k :: k in books0 ==> books[k] == books0[k])
    && (forall j :: 0 <= j < |inserted| ==> books[next0 + j] == inserted[j])
  }

  /** A book added under the next id to a catalogue that extends `books0`: the ISBNs gain its ISBN, and the catalogue still extends `books0`. */
  lemma InsertionExtends(books0: map<nat, Book>, next0: nat, books: map<nat, Book>, next: nat, inserted: seq<Book>, b: Book)
    requires Extends(books0, next0, books, next, inserted)
    requires forall k :: k in books0 ==> k < next0
    ensures Isbns(books[next := b]) == Isbns(books) + {b.isbn}
    ensures Extends(books0, next0, books[next := b], next + 1, inserted + [b])
  {
    ExtendsNext(books0, next0, books, next, inserted);
    IsbnsAfterInsert(books, next, b);
    ExtendsByOne(books0, next0, books, next, inserted, b);
  }

  lemma ExtendsNext(books0: map<nat, Book>, next0: nat, books: map<nat, Book>, next: nat, inserted: seq<Book>)
    requires Extends(books0, next0, books, next, inserted)
    requires forall k :: k in books0 ==> k < next0
    ensures next !in books
  {
  }

  lemma ExtendsByOne(books0: map<nat, Book>, next0: nat, books: map<nat, Book>, next: nat, inserted: seq<Book>, b: Book)
    requires Extends(books0, next0, books, next, inserted)
    requires forall k :: k in books0 ==> k < next0
    ensures Extends(books0, next0, books[next := b], next + 1, inserted + [b])
  {
    var books' := books[next := b];
    var inserted' := inserted + [b];
    forall j | 0 <= j < |inserted'| ensures books'[next0 + j] == inserted'[j] {
      if j < |inserted| {
        assert next0 + j != next;
      }
    }
  }

  lemma ProcessedNext(books: map<nat, Book>, rows: seq<Row>, i: nat, enrich: bool, lookup: string -> Option<GoogleBook>,
                      p: Progress, q: Progress)
    requires i < |rows|
    requires Processed(books, rows, i, enrich, lookup) == p && Step(p, rows[i], i, enrich, lookup) == q
    ensures Processed(books, rows, i + 1, enrich, lookup) == q
  {
  }

  /**
   * `process_dataframe`: goes through the rows in order, classifying each
   * against the catalogue as it stands, inserting the accepted ones as it
   * goes; the lists it returns and the books it adds are those of `Processed`,
   * the new books under consecutive ids and the old ones untouched.
   */
  method ProcessDataframe(db: Library, rows: seq<Row>, enrich: bool, lookup: string -> Option<GoogleBook>)
    returns (results: Results)
    requires db.Valid()
    modifies db`books, db`nextBookId
    ensures db.Valid()
    ensures var fin := Processed(old(db.books), rows, |rows|, enrich, lookup);
      && results == fin.results
      && Extends(old(db.books), old(db.nextBookId), db.books, db.nextBookId, fin.inserted)
  {
    ghost var books0, next0 := db.books, db.nextBookId;
    results := Results([], [], [], []);
    var lastIsbn: Option<string> := None;
    ghost var inserted: seq<Book> := [];
    var i := 0;
    while i < |rows|
      invariant 0 <= i <= |rows|
      invariant db.Valid()
      invariant Processed(books0, rows, i, enrich, lookup) == Progress(results, Isbns(db.books), lastIsbn, inserted)
      invariant Extends(books0, next0, db.books, db.nextBookId, inserted)
    {
      results, lastIsbn, inserted := ProcessRow(db, books0, next0, rows, i, results, lastIsbn, inserted, enrich, lookup);
      i := i + 1;
    }
  }

  // ---------------------------------------------------------------- what the processing guarantees

  function SuccessRows(r: Results): set<nat> { DoneRows(r.success) }
  function SkippedRows(r: Results): set<nat> { SkipRows(r.skipped) }
  function ErrorRows(r: Results): set<nat> { RowErrorRows(r.errors) }

  /** The row numbers a list of entries names. */
  function DoneRows(s: seq<Done>): set<nat> {
    if s == [] then {} else DoneRows(s[..|s| - 1]) + {s[|s| - 1].row}
  }

  function SkipRows(s: seq<Skip>): set<nat> {
    if s == [] then {} else SkipRows(s[..|s| - 1]) + {s[|s| - 1].row}
  }

  function RowErrorRows(s: seq<RowError>): set<nat> {
    if s == [] then {} else RowErrorRows(s[..|s| - 1]) + {s[|s| - 1].row}
  }

  /** The row numbers of the first `n` rows of the sheet; the header is row 1. */
  function RowNumbers(n: nat): (s: set<nat>)
    ensures forall k :: k in s <==> 2 <= k < n + 2
  {
    if n == 0 then {} else RowNumbers(n - 1) + {n + 1}
  }

  /** One step adds exactly one entry, numbered `index + 2`, to exactly one of the three lists. */
  lemma StepAddsOneRow(p: Progress, r: Row, index: nat, enrich: bool, lookup: string -> Option<GoogleBook>, q: Progress)
    requires q == Step(p, r, index, enrich, lookup)
    ensures OneMore(p.results, q.results, index + 2)
  {
    var res, res' := p.results, q.results;
    match Classify(p.taken, ExtractBookData(r))
    case Broken =>
      ErrorAppended(res, res', res'.errors[|res'.errors| - 1]);
    case Skipped(_) =>
      SkipAppended(res, res', res'.skipped[|res'.skipped| - 1]);
    case Accepted =>
      DoneAppended(res, res', res'.success[|res'.success| - 1]);
  }

  lemma ErrorAppended(r: Results, q: Results, x: RowError)
    requires q.errors == r.errors + [x] && q.success == r.success && q.skipped == r.skipped
    ensures OneMore(r, q, x.row)
  {
    assert (r.errors + [x])[..|r.errors|] == r.errors;
  }

  lemma SkipAppended(r: Results, q: Results, x: Skip)
    requires q.skipped == r.skipped + [x] && q.success == r.success && q.errors == r.errors
    ensures OneMore(r, q, x.row)
  {
    assert (r.skipped + [x])[..|r.skipped|] == r.skipped;
  }

  lemma DoneAppended(r: Results, q: Results, x: Done)
    requires q.success == r.success + [x] && q.skipped == r.skipped && q.errors == r.errors
    ensures OneMore(r, q, x.row)
  {
    assert (r.success + [x])[..|r.success|] == r.success;
  }

  /**
   * Every row lands in exactly one of `success`, `skipped` and `errors`,
   * under its own row number, and the three lists together are as long as
   * the rows processed.
   */
  lemma EveryRowOnce(books: map<nat, Book>, rows: seq<Row>, n: nat, enrich: bool,
                     lookup: string -> Option<GoogleBook>)
    requires n <= |rows|
    ensures var r := Processed(books, rows, n, enrich, lookup).results;
      && SuccessRows(r) + SkippedRows(r) + ErrorRows(r) == RowNumbers(n)
      && SuccessRows(r) * SkippedRows(r) == {} && SuccessRows(r) * ErrorRows(r) == {} && SkippedRows(r) * ErrorRows(r) == {}
      && |r.success| + |r.skipped| + |r.errors| == n
  {
    PartitionedSoFar(books, rows, n, enrich, lookup);
  }

  /** The row numbers of `r` are exactly those of the first `n` rows, each in one list only. */
  ghost predicate Partitioned(r: Results, n: nat) {
    && SuccessRows(r) + SkippedRows(r) + ErrorRows(r) == RowNumbers(n)
    && SuccessRows(r) * SkippedRows(r) == {} && SuccessRows(r) * ErrorRows(r) == {} && SkippedRows(r) * ErrorRows(r) == {}
    && |r.success| + |r.skipped| + |r.errors| == n
  }

  lemma PartitionedSoFar(books: map<nat, Book>, rows: seq<Row>, n: nat, enrich: bool,
                          lookup: string -> Option<GoogleBook>)
    requires n <= |rows|
    ensures Partitioned(Processed(books, rows, n, enrich, lookup).results, n)
  {
    TraceGrows(books, rows, n, enrich, lookup);
    ChainPartitioned(Trace(books, rows, n, enrich, lookup), n);
  }

  /** The progress after 0, 1, ..., `n` rows. */
  ghost function Trace(books: map<nat, Book>, rows: seq<Row>, n: nat, enrich: bool,
                       lookup: string -> Option<GoogleBook>): (trace: seq<Progress>)
    requires n <= |rows|
    ensures |trace| == n + 1 && trace[0] == Start(books) && trace[n] == Processed(books, rows, n, enrich, lookup)
    ensures forall i :: 0 <= i <= n ==> trace[i] == Processed(books, rows, i, enrich, lookup)
  {
    seq(n + 1, i requires 0 <= i <= n => Processed(books, rows, i, enrich, lookup))
  }

  lemma TraceGrows(books: map<nat, Book>, rows: seq<Row>, n: nat, enrich: bool,
                   lookup: string -> Option<GoogleBook>)
    requires n <= |rows|
    ensures var trace := Trace(books, rows, n, enrich, lookup);
      forall i :: 0 <= i < |trace| - 1 ==> OneMore(trace[i].results, trace[i + 1].results, i + 2)
  {
    var trace := Trace(books, rows, n, enrich, lookup);
    forall i | 0 <= i < |trace| - 1
      ensures OneMore(trace[i].results, trace[i + 1].results, i + 2)
    {
      RowAddedAt(books, rows, i, enrich, lookup);
    }
  }

  /** Lists that start empty and gain one entry per row, numbered after the row, partition the rows seen. */
  lemma {:induction false} ChainPartitioned(trace: seq<Progress>, n: nat)
    requires n < |trace| && trace[0].results == Results([], [], [], [])
    requires forall i :: 0 <= i < |trace| - 1 ==> OneMore(trace[i].results, trace[i + 1].results, i + 2)
    ensures Partitioned(trace[n].results, n)
  {
    if n == 0 {
      NothingPartitioned(trace[0].results);
    } else {
      ChainPartitioned(trace, n - 1);
      PartitionGrows(trace[n - 1].results, trace[n].results, n);
    }
  }

  lemma NothingPartitioned(r: Results)
    requires r == Results([], [], [], [])
    ensures Partitioned(r, 0)
  {
  }

  /** `q` is `r` with one more entry, numbered `k`, in exactly one of the three lists. */
  ghost predicate OneMore(r: Results, q: Results, k: nat) {
    && |q.success| + |q.skipped| + |q.errors| == |r.success| + |r.skipped| + |r.errors| + 1
    && (|| (SuccessRows(q) == SuccessRows(r) + {k} && SkippedRows(q) == SkippedRows(r) && ErrorRows(q) == ErrorRows(r))
        || (SuccessRows(q) == SuccessRows(r) && SkippedRows(q) == SkippedRows(r) + {k} && ErrorRows(q) == ErrorRows(r))
        || (SuccessRows(q) == SuccessRows(r) && SkippedRows(q) == SkippedRows(r) && ErrorRows(q) == ErrorRows(r) + {k}))
  }

  lemma RowAddedAt(books: map<nat, Book>, rows: seq<Row>, i: nat, enrich: bool, lookup: string -> Option<GoogleBook>)
    requires i < |rows|
    ensures OneMore(Processed(books, rows, i, enrich, lookup).results, Processed(books, rows, i + 1, enrich, lookup).results, i + 2)
  {
    var p := Processed(books, rows, i, enrich, lookup);
    var q := Step(p, rows[i], i, enrich, lookup);
    ProcessedNext(books, rows, i, enrich, lookup, p, q);
    StepAddsOneRow(p, rows[i], i, enrich, lookup, q);
  }

  /** Rows partitioned so far, and one more row added to exactly one list: still a partition. */
  lemma PartitionGrows(r: Results, q: Results, n: nat)
    requires 0 < n && Partitioned(r, n - 1) && OneMore(r, q, n + 1)
    ensures Partitioned(q, n)
  {
    assert n + 1 !in RowNumbers(n - 1);
    assert RowNumbers(n) == RowNumbers(n - 1) + {n + 1};
  }

  /**
   * After some rows, with `stored` the ISBNs in the catalogue beforehand: the
   * success entries carry distinct ISBNs, none of them stored before; the
   * ISBNs now known are exactly those stored plus those inserted; and each success
   * entry names the book inserted at the same position.
   */
  ghost predicate FreshSoFar(stored: set<string>, p: Progress) {
    FreshParts(stored, p.taken, p.results.success, p.inserted)
  }

  ghost predicate FreshParts(stored: set<string>, taken: set<string>, s: seq<Done>, inserted: seq<Book>) {
    && stored <= taken
    && (forall i, j :: 0 <= i < j < |s| ==> s[i].isbn != s[j].isbn)
    && (forall i :: 0 <= i < |s| ==> s[i].isbn !in stored && s[i].isbn in taken)
    && (forall x :: x in taken ==> x in stored || exists i :: 0 <= i < |s| && s[i].isbn == x)
    && |inserted| == |s|
    && (forall j :: 0 <= j < |inserted| ==> inserted[j].isbn == s[j].isbn && inserted[j].title == s[j].title)
  }

  /** How one row can change the success list, the known ISBNs and the inserted books. */
  ghost predicate SuccessStep(p: Progress, q: Progress) {
    var s, s' := p.results.success, q.results.success;
    || (s' == s && q.inserted == p.inserted && q.taken == p.taken)
    || (&& |s'| == |s| + 1 && s'[..|s|] == s && s'[|s|].isbn !in p.taken && q.taken == p.taken + {s'[|s|].isbn}
        && |q.inserted| == |p.inserted| + 1 && q.inserted[..|p.inserted|] == p.inserted
        && q.inserted[|p.inserted|].isbn == s'[|s|].isbn && q.inserted[|p.inserted|].title == s'[|s|].title)
  }

  lemma StepIsSuccessStep(p: Progress, r: Row, index: nat, enrich: bool, lookup: string -> Option<GoogleBook>, q: Progress)
    requires q == Step(p, r, index, enrich, lookup)
    ensures SuccessStep(p, q)
  {
    var e := ExtractBookData(r);
    if Classify(p.taken, e) == Accepted {
      var s := p.results.success;
      assert q.results.success[..|s|] == s;
      assert q.inserted[..|p.inserted|] == p.inserted;
    }
  }

  lemma SuccessStepAt(books: map<nat, Book>, rows: seq<Row>, i: nat, enrich: bool, lookup: string -> Option<GoogleBook>)
    requires i < |rows|
    ensures SuccessStep(Processed(books, rows, i, enrich, lookup), Processed(books, rows, i + 1, enrich, lookup))
  {
    var p := Processed(books, rows, i, enrich, lookup);
    var q := Step(p, rows[i], i, enrich, lookup);
    ProcessedNext(books, rows, i, enrich, lookup, p, q);
    StepIsSuccessStep(p, rows[i], i, enrich, lookup, q);
  }

  lemma FreshStep(stored: set<string>, p: Progress, q: Progress)
    requires FreshSoFar(stored, p) && SuccessStep(p, q)
    ensures FreshSoFar(stored, q)
  {
    var s, s' := p.results.success, q.results.success;
    if |s'| != |s| {
      var m := |s|;
      assert s' == s + [s'[m]] by {
        assert s'[..m] == s;
      }
      assert q.inserted == p.inserted + [q.inserted[m]] by {
        assert q.inserted[..|p.inserted|] == p.inserted;
      }
      FreshGrow(stored, p.taken, s, p.inserted, s'[m], q.inserted[m]);
    }
  }

  /** One more success entry with an ISBN not known yet, and its book: still fresh. */
  lemma FreshGrow(stored: set<string>, taken: set<string>, s: seq<Done>, inserted: seq<Book>, d: Done, b: Book)
    requires FreshParts(stored, taken, s, inserted)
    requires d.isbn !in taken && b.isbn == d.isbn && b.title == d.title
    ensures FreshParts(stored, taken + {d.isbn}, s + [d], inserted + [b])
  {
    DistinctGrow(taken, s, d);
    CoverGrow(stored, taken, s, d);
  }

  lemma DistinctGrow(taken: set<string>, s: seq<Done>, d: Done)
    requires forall i :: 0 <= i < |s| ==> s[i].isbn in taken
    requires forall i, j :: 0 <= i < j < |s| ==> s[i].isbn != s[j].isbn
    requires d.isbn !in taken
    ensures forall i, j :: 0 <= i < j < |s + [d]| ==> (s + [d])[i].isbn != (s + [d])[j].isbn
  {
    var s' := s + [d];
    forall i, j | 0 <= i < j < |s'| ensures s'[i].isbn != s'[j].isbn {
      assert s'[i] == s[i];
      if j == |s| {
        assert s[i].isbn in taken;
      } else {
        assert s'[j] == s[j];
      }
    }
  }

  lemma CoverGrow(stored: set<string>, taken: set<string>, s: seq<Done>, d: Done)
    requires forall x :: x in taken ==> x in stored || exists i :: 0 <= i < |s| && s[i].isbn == x
    ensures forall x :: x in taken + {d.isbn} ==> x in stored || exists i :: 0 <= i < |s + [d]| && (s + [d])[i].isbn == x
  {
    var s' := s + [d];
    forall x | x in taken + {d.isbn} ensures x in stored || exists i :: 0 <= i < |s'| && s'[i].isbn == x {
      if x == d.isbn {
        assert s'[|s|].isbn == x;
      } else if x !in stored {
        var i :| 0 <= i < |s| && s[i].isbn == x;
        assert s'[i].isbn == x;
      }
    }
  }

  /**
   * Within one batch no two inserted rows share an ISBN string and none
   * repeats one stored before, and each success entry names the book
   * inserted at the same position.
   */
  lemma {:induction false} BatchIsbnsAreFresh(books: map<nat, Book>, rows: seq<Row>, n: nat, enrich: bool,
                                              lookup: string -> Option<GoogleBook>)
    requires n <= |rows|
    ensures var p := Processed(books, rows, n, enrich, lookup);
      && (forall i, j :: 0 <= i < j < |p.results.success| ==> p.results.success[i].isbn != p.results.success[j].isbn)
      && (forall i :: 0 <= i < |p.results.success| ==> p.results.success[i].isbn !in Isbns(books))
      && |p.inserted| == |p.results.success|
      && (forall j :: 0 <= j < |p.inserted| ==>
            p.inserted[j].isbn == p.results.success[j].isbn && p.inserted[j].title == p.results.success[j].title)
  {
    BatchIsFresh(books, rows, n, enrich, lookup);
  }

  lemma BatchIsFresh(books: map<nat, Book>, rows: seq<Row>, n: nat, enrich: bool,
                     lookup: string -> Option<GoogleBook>)
    requires n <= |rows|
    ensures FreshSoFar(Isbns(books), Processed(books, rows, n, enrich, lookup))
  {
    TraceSucceeds(books, rows, n, enrich, lookup);
    ChainFresh(Isbns(books), Trace(books, rows, n, enrich, lookup), n);
  }

  lemma TraceSucceeds(books: map<nat, Book>, rows: seq<Row>, n: nat, enrich: bool,
                      lookup: string -> Option<GoogleBook>)
    requires n <= |rows|
    ensures var trace := Trace(books, rows, n, enrich, lookup);
      forall i :: 0 <= i < |trace| - 1 ==> SuccessStep(trace[i], trace[i + 1])
  {
    var trace := Trace(books, rows, n, enrich, lookup);
    forall i | 0 <= i < |trace| - 1
      ensures SuccessStep(trace[i], trace[i + 1])
    {
      SuccessStepAt(books, rows, i, enrich, lookup);
    }
  }

  /** Progress that starts from the stored ISBNs and changes only by success steps stays fresh. */
  lemma {:induction false} ChainFresh(stored: set<string>, trace: seq<Progress>, n: nat)
    requires n < |trace| && trace[0] == Progress(Results([], [], [], []), stored, None, [])
    requires forall i :: 0 <= i < |trace| - 1 ==> SuccessStep(trace[i], trace[i + 1])
    ensures FreshSoFar(stored, trace[n])
  {
    if n == 0 {
      FreshAtStart(stored, trace[0]);
    } else {
      ChainFresh(stored, trace, n - 1);
      FreshStep(stored, trace[n - 1], trace[n]);
    }
  }

  lemma FreshAtStart(stored: set<string>, p: Progress)
    requires p == Progress(Results([], [], [], []), stored, None, [])
    ensures FreshSoFar(stored, p)
  {
  }

  /** Every enriched entry is also a success entry, so no more rows are enriched than inserted, and none unless enrichment was asked for. */
  lemma EnrichedAtMostSuccess(books: map<nat, Book>, rows: seq<Row>, n: nat, enrich: bool,
                              lookup: string -> Option<GoogleBook>)
    requires n <= |rows|
    ensures var r := Processed(books, rows, n, enrich, lookup).results;
      && |r.enriched| <= |r.success| && (!enrich ==> r.enriched == [])
      && (forall e :: e in r.enriched ==> e in r.success)
  {
    TraceEnriched(books, rows, n, enrich, lookup);
    ChainEnriched(Trace(books, rows, n, enrich, lookup), n, enrich);
  }

  lemma TraceEnriched(books: map<nat, Book>, rows: seq<Row>, n: nat, enrich: bool,
                      lookup: string -> Option<GoogleBook>)
    requires n <= |rows|
    ensures var trace := Trace(books, rows, n, enrich, lookup);
      forall i :: 0 <= i < |trace| - 1 ==> EnrichedWithin(trace[i].results, enrich) ==> EnrichedWithin(trace[i + 1].results, enrich)
  {
    var trace := Trace(books, rows, n, enrich, lookup);
    forall i | 0 <= i < |trace| - 1 && EnrichedWithin(trace[i].results, enrich)
      ensures EnrichedWithin(trace[i + 1].results, enrich)
    {
      EnrichedAt(books, rows, i, enrich, lookup);
    }
  }

  /** Lists that start empty and keep their enriched entries among their success entries at every step end that way. */
  lemma {:induction false} ChainEnriched(trace: seq<Progress>, n: nat, enrich: bool)
    requires n < |trace| && trace[0].results == Results([], [], [], [])
    requires forall i :: 0 <= i < |trace| - 1 ==> EnrichedWithin(trace[i].results, enrich) ==> EnrichedWithin(trace[i + 1].results, enrich)
    ensures EnrichedWithin(trace[n].results, enrich)
  {
    if n > 0 {
      ChainEnriched(trace, n - 1, enrich);
    }
  }

  /** The enriched entries are among the success entries, none without enrichment. */
  ghost predicate EnrichedWithin(r: Results, enrich: bool) {
    && |r.enriched| <= |r.success| && (!enrich ==> r.enriched == [])
    && (forall e :: e in r.enriched ==> e in r.success)
  }

  lemma EnrichedAt(books: map<nat, Book>, rows: seq<Row>, i: nat, enrich: bool, lookup: string -> Option<GoogleBook>)
    requires i < |rows| && EnrichedWithin(Processed(books, rows, i, enrich, lookup).results, enrich)
    ensures EnrichedWithin(Processed(books, rows, i + 1, enrich, lookup).results, enrich)
  {
    var p := Processed(books, rows, i, enrich, lookup);
    var q := Step(p, rows[i], i, enrich, lookup);
    ProcessedNext(books, rows, i, enrich, lookup, p, q);
    EnrichedStep(p, rows[i], i, enrich, lookup, q);
  }

  lemma EnrichedStep(p: Progress, r: Row, index: nat, enrich: bool, lookup: string -> Option<GoogleBook>, q: Progress)
    requires q == Step(p, r, index, enrich, lookup) && EnrichedWithin(p.results, enrich)
    ensures EnrichedWithin(q.results, enrich)
  {
  }

  /** `create_summary_response`'s counts. */
  datatype Summary = Summary(totalRows: nat, successful: nat, errors: nat, skipped: nat, enriched: nat)

  /** `create_summary_response`: the sheet's row count and the lengths of the four lists. */
  function CreateSummaryResponse(totalRows: nat, r: Results): (s: Summary)
    ensures s.totalRows == totalRows
    ensures s.successful == |r.success| && s.errors == |r.errors| && s.skipped == |r.skipped| && s.enriched == |r.enriched|
  {
    Summary(totalRows, |r.success|, |r.errors|, |r.skipped|, |r.enriched|)
  }

  /** For a processed sheet the summary adds up: inserted, skipped and failed make the row count, and no more are enriched than inserted. */
  lemma SummaryAddsUp(books: map<nat, Book>, rows: seq<Row>, enrich: bool, lookup: string -> Option<GoogleBook>)
    ensures var s := CreateSummaryResponse(|rows|, Processed(books, rows, |rows|, enrich, lookup).results);
      s.successful + s.skipped + s.errors == s.totalRows && s.enriched <= s.successful
  {
    EveryRowOnce(books, rows, |rows|, enrich, lookup);
    EnrichedAtMostSuccess(books, rows, |rows|, enrich, lookup);
  }

  /**
   * A row whose copy count is not a number, after a row skipped as
   * incomplete, is reported under that earlier row's ISBN rather than `N/A`.
   */
  lemma ErrorNamesPreviousIsbn(lookup: string -> Option<GoogleBook>)
    ensures var first := Row(MissingText, MissingText, Text("X"), MissingText, MissingText, MissingNum, MissingNum, MissingNum, MissingText);
      var second := first.(totalCopies := NotNum);
      var r := Processed(map[], [first, second], 2, false, lookup).results;
      r.skipped == [Skip(2, None, IncompleteRow)] && r.errors == [RowError(3, "X")]
  {
    var first := Row(MissingText, MissingText, Text("X"), MissingText, MissingText, MissingNum, MissingNum, MissingNum, MissingText);
    var second := first.(totalCopies := NotNum);
    var rows := [first, second];
    StripOfNonSpaceEnds("X");
    assert ExtractBookData(first) == Some(BookData("", "", "X", None, None, None, 1, 1, None));
    assert ExtractBookData(second).None?;
    var p0 := Start(map[]);
    var p1 := Step(p0, first, 0, false, lookup);
    assert p1.results.skipped == [Skip(2, None, IncompleteRow)] && p1.results.errors == [] && p1.lastIsbn == Some("X");
    var p2 := Step(p1, second, 1, false, lookup);
    assert p2.results.skipped == p1.results.skipped && p2.results.errors == [RowError(3, "X")];
    assert Processed(map[], rows, 1, false, lookup) == p1;
    assert Processed(map[], rows, 2, false, lookup) == p2;
  }
}

=== FILE: listing.dfy ===
/**
 * What the SELECT statements of the routes do after filtering: `ORDER BY`
 * (ties come back in an order MySQL leaves open, so a listing is any order
 * sorted by the key), and `LIMIT … OFFSET …`. Strings are ordered by code
 * point, character by character.
 */
module Listing {

  /** `le` relates any two values one way or the other, and chains. */
  ghost predicate IsTotalPreorder<T(!new)>(le: (T, T) -> bool) {
    (forall a, b :: le(a, b) || le(b, a))
    && (forall a, b, c :: le(a, b) && le(b, c) ==> le(a, c))
  }

  ghost predicate SortedBy<T>(xs: seq<T>, le: (T, T) -> bool) {
    forall i, j :: 0 <= i < j < |xs| ==> le(xs[i], xs[j])
  }

  /** Puts `x` after every element of `xs` that goes before it. */
  method Insert<T(==,!new)>(x: T, xs: seq<T>, le: (T, T) -> bool) returns (ys: seq<T>)
    requires IsTotalPreorder(le) && SortedBy(xs, le)
    ensures SortedBy(ys, le)
    ensures multiset(ys) == multiset(xs) + multiset{x}
  {
    var i := 0;
    while i < |xs| && le(xs[i], x)
      invariant 0 <= i <= |xs|
      invariant forall k :: 0 <= k < i ==> le(xs[k], x)
    {
      i := i + 1;
    }
    StopsBeforeLarger(x, xs, i, le);
    SortedSplice(x, xs, i, le);
    ys := xs[..i] + [x] + xs[i..];
    assert xs == xs[..i] + xs[i..];
  }

  /** Where the scan of a sorted list stops, `x` goes before everything that is left. */
  lemma StopsBeforeLarger<T(!new)>(x: T, xs: seq<T>, i: nat, le: (T, T) -> bool)
    requires IsTotalPreorder(le) && SortedBy(xs, le)
    requires i <= |xs| && (i < |xs| ==> !le(xs[i], x))
    ensures forall k :: i <= k < |xs| ==> le(x, xs[k])
  {
    if i < |xs| {
      assert le(x, xs[i]);
      forall k | i < k < |xs| ensures le(x, xs[k]) {
        assert le(xs[i], xs[k]);
      }
    }
  }

  /** `x` between a sorted prefix of things before it and a sorted suffix of things after it: the whole is sorted. */
  lemma SortedSplice<T>(x: T, xs: seq<T>, i: nat, le: (T, T) -> bool)
    requires SortedBy(xs, le) && i <= |xs|
    requires forall k :: 0 <= k < i ==> le(xs[k], x)
    requires forall k :: i <= k < |xs| ==> le(x, xs[k])
    ensures SortedBy(xs[..i] + [x] + xs[i..], le)
  {
    var ys := xs[..i] + [x] + xs[i..];
    forall a, b | 0 <= a < b < |ys| ensures le(ys[a], ys[b]) {
      if b < i {
        assert ys[a] == xs[a] && ys[b] == xs[b];
      } else if b == i {
        assert ys[a] == xs[a];
      } else if a < i {
        assert ys[a] == xs[a] && ys[b] == xs[b - 1];
      } else if a == i {
        assert ys[b] == xs[b - 1];
      } else {
        assert ys[a] == xs[a - 1] && ys[b] == xs[b - 1];
      }
    }
  }

  /** `ORDER BY`: a sorted rearrangement of the selected rows. */
  method Sort<T(==,!new)>(xs: seq<T>, le: (T, T) -> bool) returns (ys: seq<T>)
    requires IsTotalPreorder(le)
    ensures SortedBy(ys, le)
    ensures multiset(ys) == multiset(xs)
  {
    ys := [];
    var i := 0;
    while i < |xs|
      invariant 0 <= i <= |xs|
      invariant SortedBy(ys, le)
      invariant multiset(ys) == multiset(xs[..i])
    {
      ys := Insert(xs[i], ys, le);
      assert xs[..i + 1] == xs[..i] + [xs[i]];
      i := i + 1;
    }
    assert xs[..|xs|] == xs;
  }

  /** The rows of a result set, one each, in whatever order the scan meets them. */
  method Enumerate<T(==)>(s: set<T>) returns (xs: seq<T>)
    ensures multiset(xs) == multiset(s)
  {
    xs := [];
    var rest := s;
    while rest != {}
      invariant rest <= s
      invariant multiset(xs) + multiset(rest) == multiset(s)
      decreases |rest|
    {
      var x :| x in rest;
      assert multiset(rest) == multiset(rest - {x}) + multiset{x};
      xs := xs + [x];
      rest := rest - {x};
    }
  }

  /** `ORDER BY key DESC` over a set of row ids: each id once, largest key first. */
  method ListByKeyDesc(s: set<nat>, key: nat -> int) returns (ids: seq<nat>)
    ensures multiset(ids) == multiset(s)
    ensures forall i, j :: 0 <= i < j < |ids| ==> key(ids[i]) >= key(ids[j])
  {
    var xs := Enumerate(s);
    var later := (a: nat, b: nat) => key(a) >= key(b);
    ids := Sort(xs, later);
    forall i, j | 0 <= i < j < |ids| ensures key(ids[i]) >= key(ids[j]) {
      assert later(ids[i], ids[j]);
    }
  }

  /** The rows of a listing are exactly those of the set, each once. */
  lemma ListingOfSet<T>(xs: seq<T>, s: set<T>)
    requires multiset(xs) == multiset(s)
    ensures forall x :: x in xs <==> x in s
    ensures |xs| == |s|
    ensures forall i, j :: 0 <= i < j < |xs| ==> xs[i] != xs[j]
  {
    assert forall x :: x in xs <==> x in multiset(xs);
    assert |multiset(xs)| == |xs|;
    forall i, j | 0 <= i < j < |xs| ensures xs[i] != xs[j] {
      var x := xs[i];
      assert xs == xs[..j] + xs[j..];
      assert multiset(xs) == multiset(xs[..j]) + multiset(xs[j..]);
      assert xs[..j][i] == x && xs[j..][0] == xs[j];
      assert multiset(xs[..j])[x] >= 1 && multiset(xs[j..])[xs[j]] >= 1;
      assert multiset(xs)[x] <= 1;
    }
  }

  /** The key of each row of a listing, in the listing's order. */
  function Keys<R>(rows: seq<R>, key: R -> nat): (ks: seq<nat>)
    ensures |ks| == |rows|
    ensures forall i :: 0 <= i < |rows| ==> ks[i] == key(rows[i])
  {
    seq(|rows|, i requires 0 <= i < |rows| => key(rows[i]))
  }

  /** `xs` is `ys` with some entries left out and the rest in their order. */
  predicate IsSubsequence<T(==)>(xs: seq<T>, ys: seq<T>) {
    if xs == [] then true
    else if ys == [] then false
    else if xs[0] == ys[0] then IsSubsequence(xs[1..], ys[1..])
    else IsSubsequence(xs, ys[1..])
  }

  function Min(a: int, b: int): int { if a <= b then a else b }

  /** `LIMIT limit OFFSET skip`. */
  function Page<T>(xs: seq<T>, skip: nat, limit: nat): (r: seq<T>)
    ensures |r| == if skip >= |xs| then 0 else Min(limit, |xs| - skip)
    ensures forall i :: 0 <= i < |r| ==> r[i] == xs[skip + i]
  {
    if skip >= |xs| then [] else xs[skip..skip + Min(limit, |xs| - skip)]
  }

  /** A window of a sorted listing is sorted too. */
  lemma PageSorted<T>(xs: seq<T>, skip: nat, limit: nat, le: (T, T) -> bool)
    requires SortedBy(xs, le)
    ensures SortedBy(Page(xs, skip, limit), le)
  {
    var r := Page(xs, skip, limit);
    forall i, j | 0 <= i < j < |r| ensures le(r[i], r[j]) {
      assert r[i] == xs[skip + i] && r[j] == xs[skip + j];
    }
  }

  // ---------------------------------------------------------------- strings

  /** Lexicographic order on code points: `a` sorts before or together with `b`. */
  predicate StrLe(a: string, b: string) {
    a == [] || (b != [] && (a[0] < b[0] || (a[0] == b[0] && StrLe(a[1..], b[1..]))))
  }

  lemma {:induction false} StrLeTotal(a: string, b: string)
    ensures StrLe(a, b) || StrLe(b, a)
  {
    if a != [] && b != [] && a[0] == b[0] {
      StrLeTotal(a[1..], b[1..]);
    }
  }

  lemma {:induction false} StrLeTransitive(a: string, b: string, c: string)
    requires StrLe(a, b) && StrLe(b, c)
    ensures StrLe(a, c)
  {
    if a != [] && b != [] && c != [] && a[0] == b[0] && b[0] == c[0] {
      StrLeTransitive(a[1..], b[1..], c[1..]);
    }
  }

  /** `ORDER BY key` over a set of row ids, for a string key. */
  method ListByStringKey(s: set<nat>, key: nat -> string) returns (ids: seq<nat>)
    ensures multiset(ids) == multiset(s)
    ensures forall i, j :: 0 <= i < j < |ids| ==> StrLe(key(ids[i]), key(ids[j]))
  {
    var xs := Enumerate(s);
    var le := (a: nat, b: nat) => StrLe(key(a), key(b));
    forall a: nat, b: nat ensures le(a, b) || le(b, a) {
      StrLeTotal(key(a), key(b));
    }
    forall a: nat, b: nat, c: nat | le(a, b) && le(b, c) ensures le(a, c) {
      StrLeTransitive(key(a), key(b), key(c));
    }
    ids := Sort(xs, le);
    forall i, j | 0 <= i < j < |ids| ensures StrLe(key(ids[i]), key(ids[j])) {
      assert le(ids[i], ids[j]);
    }
  }
}

=== FILE: loans.dfy ===
/**
 * `routes/loans.py`: borrowing, returning and listing loans, and the overdue
 * refresh. Each route runs its checks in the order of the source and answers
 * with the first that fails, leaving the database as it was; the two writes
 * of a borrow or a return form one transaction whose second statement is a
 * conditional UPDATE, and a conditional UPDATE that matches no row rolls the
 * whole transaction back.
 */
module Loans {
  import opened Wrappers
  import opened Store
  import opened Auth
  import Listing
  import Models

  /** A loan joined with its book's title and author and its borrower's username (`LoanWithDetails`). */
  datatype LoanRow = LoanRow(id: nat, loan: Loan, bookTitle: string, bookAuthor: string, username: string)

  /** `get_user_id_by_username` resolves to an id the route accepts (`if not user_id` refuses 0). */
  predicate KnownUser(users: map<string, User>, username: string) {
    username in users && users[username].id != 0
  }

  /** `check_book_availability`: the book exists and has a copy on the shelf. */
  function CheckBookAvailability(books: map<nat, Book>, bookId: nat): (ok: bool)
    ensures ok ==> bookId in books
    ensures bookId in books ==> (ok <==> books[bookId].availableCopies > 0)
  {
    bookId in books && books[bookId].availableCopies > 0
  }

  /** `count_active_loans`: the user's loans in status `activo`. */
  function CountActiveLoans(loans: map<nat, Loan>, uid: nat): nat {
    |ActiveLoansOf(loans, uid)|
  }

  /** Only `activo` loans count: a loan that is or becomes `vencido` or `devuelto` changes no user's count. */
  lemma CountIgnoresInactiveLoans(loans: map<nat, Loan>, id: nat, l: Loan, uid: nat)
    requires l.status != Activo
    requires id in loans ==> loans[id].status != Activo
    ensures CountActiveLoans(loans[id := l], uid) == CountActiveLoans(loans, uid)
  {
    assert ActiveLoansOf(loans[id := l], uid) == ActiveLoansOf(loans, uid);
  }

  /** Only `activo` loans block a second borrow of the same book. */
  lemma DuplicateCheckIgnoresInactiveLoans(loans: map<nat, Loan>, id: nat, l: Loan, uid: nat, bid: nat)
    requires l.status != Activo
    requires id in loans ==> loans[id].status != Activo
    ensures HasActiveLoan(loans[id := l], uid, bid) == HasActiveLoan(loans, uid, bid)
  {
    var loans' := loans[id := l];
    assert forall k :: (k in loans' && loans'[k].userId == uid && loans'[k].bookId == bid && loans'[k].status == Activo)
                       <==> (k in loans && loans[k].userId == uid && loans[k].bookId == bid && loans[k].status == Activo);
  }


  /**
   * The checks of `create_loan`, in their order: the caller must resolve to a
   * user (404), the book must exist (404) and have a copy on the shelf (400),
   * the caller must hold fewer than three `activo` loans (400) and no `activo`
   * loan of this book (400). On success, the caller's user id.
   */
  function BorrowVerdict(users: map<string, User>, books: map<nat, Book>, loans: map<nat, Loan>,
                         username: string, bookId: nat): (r: Result<nat, Outcome>)
    ensures r == Failure(Outcome(404, UserNotFound)) <==> !KnownUser(users, username)
    ensures r == Failure(Outcome(404, BookNotFound)) <==> KnownUser(users, username) && bookId !in books
    ensures r == Failure(Outcome(400, NoCopiesAvailable)) <==>
      KnownUser(users, username) && bookId in books && books[bookId].availableCopies <= 0
    ensures r == Failure(Outcome(400, LoanLimitReached)) <==>
      KnownUser(users, username) && bookId in books && books[bookId].availableCopies > 0
      && |ActiveLoansOf(loans, users[username].id)| >= MaxLoansPerUser
    ensures r == Failure(Outcome(400, AlreadyBorrowed)) <==>
      KnownUser(users, username) && bookId in books && books[bookId].availableCopies > 0
      && |ActiveLoansOf(loans, users[username].id)| < MaxLoansPerUser
      && HasActiveLoan(loans, users[username].id, bookId)
    ensures r.Success? <==>
      KnownUser(users, username) && bookId in books && books[bookId].availableCopies > 0
      && |ActiveLoansOf(loans, users[username].id)| < MaxLoansPerUser
      && !HasActiveLoan(loans, users[username].id, bookId)
    ensures r.Success? ==> r.value == users[username].id
  {
    if !KnownUser(users, username) then Failure(Outcome(404, UserNotFound))
    else
      var uid := users[username].id;
      if bookId !in books then Failure(Outcome(404, BookNotFound))
      else if !CheckBookAvailability(books, bookId) then Failure(Outcome(400, NoCopiesAvailable))
      else if CountActiveLoans(loans, uid) >= MaxLoansPerUser then Failure(Outcome(400, LoanLimitReached))
      else if HasActiveLoan(loans, uid, bookId) then Failure(Outcome(400, AlreadyBorrowed))
      else Success(uid)
  }

  /** The row `INSERT INTO loans (user_id, book_id, due_date)` creates, with the column defaults. */
  function NewLoan(uid: nat, bookId: nat, now: int): (l: Loan)
    ensures WellFormedLoan(l) && l.status == Activo && l.returnDate.None? && !l.hasReview
    ensures l.dueDate - l.loanDate == 14 * 86400
  {
    Loan(uid, bookId, now, now + LoanDurationDays * Day, None, Activo, false)
  }

  /** A borrow moves one copy from the shelf to an outstanding loan: no book's stock changes. */
  lemma StockAfterBorrow(books: map<nat, Book>, loans: map<nat, Loan>, id: nat, l: Loan, b: nat)
    requires id !in loans && l.status == Activo && l.bookId in books && b in books
    ensures Stock(TakeOut(books, l.bookId), loans[id := l], b) == Stock(books, loans, b)
  {
    var bid := l.bookId;
    if b == bid {
      assert Outstanding(loans[id := l], b) == Outstanding(loans, b) + {id};
    } else {
      assert Outstanding(loans[id := l], b) == Outstanding(loans, b);
    }
  }

  /** `UPDATE loans SET return_date = NOW(), status = 'devuelto' WHERE id = %s`. */
  function MarkReturned(loans: map<nat, Loan>, id: nat, now: int): map<nat, Loan>
    requires id in loans
  {
    loans[id := loans[id].(returnDate := Some(now), status := Devuelto)]
  }

  /** `UPDATE books SET available_copies = available_copies + 1 WHERE id = %s`. */
  function PutBack(books: map<nat, Book>, bid: nat): map<nat, Book>
    requires bid in books
  {
    books[bid := books[bid].(availableCopies := books[bid].availableCopies + 1)]
  }

  /** `UPDATE books SET available_copies = available_copies - 1 WHERE id = %s`. */
  function TakeOut(books: map<nat, Book>, bid: nat): map<nat, Book>
    requires bid in books
  {
    books[bid := books[bid].(availableCopies := books[bid].availableCopies - 1)]
  }

  /** A new well-formed `activo` loan under the next id, for a user under the limit who holds no `activo` loan of that book, keeps the loan table valid. */
  lemma BorrowKeepsLoansValid(loans: map<nat, Loan>, id: nat, l: Loan, nextBookId: nat, nextUserId: nat)
    requires 1 <= id && LoansValid(loans, id, nextBookId, nextUserId)
    requires WellFormedLoan(l) && l.status == Activo && l.bookId < nextBookId && l.userId < nextUserId
    requires |ActiveLoansOf(loans, l.userId)| < MaxLoansPerUser && !HasActiveLoan(loans, l.userId, l.bookId)
    ensures LoansValid(loans[id := l], id + 1, nextBookId, nextUserId)
  {
    LimitsKeptByNewLoan(loans, id, l);
  }

  /** Marking a loan `devuelto` keeps the loan table valid. */
  lemma ReturnKeepsLoansValid(loans: map<nat, Loan>, id: nat, now: int, nextLoanId: nat, nextBookId: nat, nextUserId: nat)
    requires id in loans && LoansValid(loans, nextLoanId, nextBookId, nextUserId)
    ensures LoansValid(MarkReturned(loans, id, now), nextLoanId, nextBookId, nextUserId)
  {
    LimitsKeptWhenActiveShrinks(loans, MarkReturned(loans, id, now));
  }

  /** A return moves one copy from an outstanding loan back to the shelf: no book's stock changes. */
  lemma StockAfterReturn(books: map<nat, Book>, loans: map<nat, Loan>, id: nat, now: int, b: nat)
    requires id in loans && loans[id].status != Devuelto && loans[id].bookId in books && b in books
    ensures Stock(PutBack(books, loans[id].bookId), MarkReturned(loans, id, now), b) == Stock(books, loans, b)
  {
    var bid := loans[id].bookId;
    var loans' := MarkReturned(loans, id, now);
    if b == bid {
      assert Outstanding(loans, b) == Outstanding(loans', b) + {id};
    } else {
      assert Outstanding(loans', b) == Outstanding(loans, b);
    }
  }

  /**
   * The transaction of `create_loan`: insert the loan, then
   * `UPDATE books SET available_copies = available_copies - 1 WHERE id = %s AND available_copies > 0`;
   * when that matches no row the insert is rolled back and nothing has changed.
   */
  method CommitLoan(db: Library, uid: nat, bookId: nat) returns (ok: bool, loanId: nat)
    requires db.Valid()
    requires uid < db.nextUserId
    requires |ActiveLoansOf(db.loans, uid)| < MaxLoansPerUser && !HasActiveLoan(db.loans, uid, bookId)
    modifies db
    ensures db.Valid()
    ensures ok <==> old(bookId in db.books && db.books[bookId].availableCopies > 0)
    ensures !ok ==> unchanged(db)
    ensures ok ==>
      && loanId == old(db.nextLoanId) && db.nextLoanId == loanId + 1
      && db.loans == old(db.loans)[loanId := NewLoan(uid, bookId, old(db.now))]
      && db.books == TakeOut(old(db.books), bookId)
      && db.books[bookId].availableCopies >= 0
      && unchanged(db`users, db`reviews, db`nextUserId, db`nextBookId, db`nextReviewId, db`now)
    ensures ok ==> forall b :: b in db.books ==> Stock(db.books, db.loans, b) == old(Stock(db.books, db.loans, b))
  {
    var loansBefore, booksBefore := db.loans, db.books;
    loanId := db.nextLoanId;
    var l := NewLoan(uid, bookId, db.now);
    // INSERT INTO loans …
    db.loans := loansBefore[loanId := l];
    db.nextLoanId := loanId + 1;
    // UPDATE books … WHERE id = %s AND available_copies > 0
    ok := bookId in booksBefore && booksBefore[bookId].availableCopies > 0;
    if !ok {
      // connection.rollback()
      db.loans := loansBefore;
      db.nextLoanId := loanId;
      return;
    }
    db.books := TakeOut(booksBefore, bookId);
    BorrowKeepsLoansValid(loansBefore, loanId, l, db.nextBookId, db.nextUserId);
    forall b | b in db.books ensures Stock(db.books, db.loans, b) == Stock(booksBefore, loansBefore, b) {
      StockAfterBorrow(booksBefore, loansBefore, loanId, l, b);
    }
  }

  /**
   * `create_loan`: a body whose `book_id` is not positive is a 422; then the
   * checks of `BorrowVerdict`, any failure leaving the database unchanged;
   * then the transaction, which on this path always finds the copy the checks
   * saw: one new `activo` loan due fourteen days from now, and one copy fewer
   * on the shelf.
   */
  method CreateLoan(db: Library, p: Principal, bookId: int) returns (out: Outcome, loanId: Option<nat>)
    requires db.Valid()
    modifies db
    ensures db.Valid()
    ensures !Models.ValidLoanCreate(bookId) ==> out == Outcome(422, InvalidRequest) && loanId.None? && unchanged(db)
    ensures Models.ValidLoanCreate(bookId) ==>
      var verdict := BorrowVerdict(old(db.users), old(db.books), old(db.loans), p.username, bookId as nat);
      (verdict.Failure? ==> out == verdict.error && loanId.None? && unchanged(db))
      && (verdict.Success? ==>
            && out == Outcome(201, LoanCreated) && loanId == Some(old(db.nextLoanId))
            && db.loans == old(db.loans)[old(db.nextLoanId) := NewLoan(verdict.value, bookId as nat, old(db.now))]
            && db.books == old(db.books)[bookId as nat := old(db.books[bookId as nat]).(availableCopies := old(db.books[bookId as nat].availableCopies) - 1)]
            && db.books[bookId as nat].availableCopies >= 0
            && db.nextLoanId == old(db.nextLoanId) + 1
            && unchanged(db`users, db`reviews, db`nextUserId, db`nextBookId, db`nextReviewId, db`now))
  {
    loanId := None;
    if !Models.ValidLoanCreate(bookId) {
      out := Outcome(422, InvalidRequest);
      return;
    }
    var verdict := BorrowVerdict(db.users, db.books, db.loans, p.username, bookId as nat);
    if verdict.Failure? {
      out := verdict.error;
      return;
    }
    var ok, id := CommitLoan(db, verdict.value, bookId as nat);
    // the conditional UPDATE finds the copy the checks saw, so the rollback answer is never given here
    assert ok;
    out := Outcome(201, LoanCreated);
    loanId := Some(id);
  }

  /**
   * Two callers who both passed the checks for the last copy of a book commit
   * one after the other: the first gets the copy, the second's conditional
   * UPDATE matches no row and its insert is rolled back.
   */
  method LastCopyRace(db: Library, first: nat, second: nat, bookId: nat) returns (ok1: bool, ok2: bool)
    requires db.Valid()
    requires first < db.nextUserId && second < db.nextUserId && first != second
    requires bookId in db.books && db.books[bookId].availableCopies == 1
    requires |ActiveLoansOf(db.loans, first)| < MaxLoansPerUser && !HasActiveLoan(db.loans, first, bookId)
    requires |ActiveLoansOf(db.loans, second)| < MaxLoansPerUser && !HasActiveLoan(db.loans, second, bookId)
    modifies db
    ensures db.Valid()
    ensures ok1 && !ok2
    ensures bookId in db.books && db.books[bookId].availableCopies == 0
    ensures db.loans == old(db.loans)[old(db.nextLoanId) := NewLoan(first, bookId, old(db.now))]
  {
    var id1, id2;
    ok1, id1 := CommitLoan(db, first, bookId);
    ActiveLoansAfterInsert(old(db.loans), id1, NewLoan(first, bookId, old(db.now)), second);
    DuplicateAfterInsert(old(db.loans), id1, NewLoan(first, bookId, old(db.now)), second, bookId);
    ok2, id2 := CommitLoan(db, second, bookId);
  }

  lemma DuplicateAfterInsert(loans: map<nat, Loan>, id: nat, l: Loan, uid: nat, bid: nat)
    requires id !in loans && l.userId != uid
    ensures HasActiveLoan(loans[id := l], uid, bid) == HasActiveLoan(loans, uid, bid)
  {
    var loans' := loans[id := l];
    assert forall k :: (k in loans' && loans'[k].userId == uid && loans'[k].bookId == bid && loans'[k].status == Activo)
                       <==> (k in loans && loans[k].userId == uid && loans[k].bookId == bid && loans[k].status == Activo);
  }

  /**
   * `update_book_availability`: one copy back on the shelf (never above the
   * total) or one copy off it (never below zero); `false` when the guarded
   * UPDATE matches no row.
   */
  method UpdateBookAvailability(db: Library, bookId: nat, increment: bool) returns (ok: bool)
    requires db.Valid()
    modifies db`books
    ensures db.Valid()
    ensures ok <==>
      old(bookId in db.books) &&
      (if increment then old(db.books[bookId].availableCopies < db.books[bookId].totalCopies)
       else old(db.books[bookId].availableCopies > 0))
    ensures !ok ==> db.books == old(db.books)
    ensures ok ==> db.books == old(db.books)[bookId := old(db.books[bookId]).(availableCopies :=
      old(db.books[bookId].availableCopies) + if increment then 1 else -1)]
    ensures ok && old(db.books[bookId].availableCopies) >= 0 ==>
      0 <= db.books[bookId].availableCopies <= db.books[bookId].totalCopies || !increment
    ensures ok && !increment ==> db.books[bookId].availableCopies >= 0
  {
    if bookId !in db.books {
      return false;
    }
    var b := db.books[bookId];
    if increment {
      ok := b.availableCopies < b.totalCopies;
      if ok { db.books := db.books[bookId := b.(availableCopies := b.availableCopies + 1)]; }
    } else {
      ok := b.availableCopies > 0;
      if ok { db.books := db.books[bookId := b.(availableCopies := b.availableCopies - 1)]; }
    }
  }

  /** `update_overdue_loans`: the refresh at the database's clock; it reports 0 whatever it changed. */
  method UpdateOverdueLoans(db: Library) returns (n: int)
    requires db.Valid()
    modifies db`loans
    ensures db.Valid()
    ensures n == 0
    ensures db.loans == RefreshOverdue(old(db.loans), db.now)
    ensures forall b :: b in db.books ==> Stock(db.books, db.loans, b) == old(Stock(db.books, db.loans, b))
  {
    RefreshKeepsInvariants(db.loans, db.now);
    forall b | b in db.books ensures Outstanding(RefreshOverdue(db.loans, db.now), b) == Outstanding(db.loans, b) {
      RefreshKeepsOutstanding(db.loans, db.now, b);
    }
    db.loans := RefreshOverdue(db.loans, db.now);
    n := 0;
  }

  /**
   * The checks of `return_book`, in their order: the caller must resolve to a
   * user (404), the loan must exist with its book (404), the caller must own
   * it or be an admin (403), and it must not be `devuelto` already (400).
   * On success, the id of the loan's book.
   */
  function ReturnVerdict(users: map<string, User>, books: map<nat, Book>, loans: map<nat, Loan>,
                         p: Principal, loanId: nat): (r: Result<nat, Outcome>)
    ensures r == Failure(Outcome(404, UserNotFound)) <==> !KnownUser(users, p.username)
    ensures r == Failure(Outcome(404, LoanNotFound)) <==>
      KnownUser(users, p.username) && (loanId !in loans || loans[loanId].bookId !in books)
    ensures r == Failure(Outcome(403, NotLoanOwner)) <==>
      KnownUser(users, p.username) && loanId in loans && loans[loanId].bookId in books
      && p.role != Some("admin") && loans[loanId].userId != users[p.username].id
    ensures r.Success? <==>
      KnownUser(users, p.username) && loanId in loans && loans[loanId].bookId in books
      && (p.role == Some("admin") || loans[loanId].userId == users[p.username].id)
      && loans[loanId].status != Devuelto
    ensures r.Success? ==> r.value == loans[loanId].bookId
    ensures r.Failure? && r.error.reason == AlreadyReturned ==> r.error.status == 400
  {
    if !KnownUser(users, p.username) then Failure(Outcome(404, UserNotFound))
    else if loanId !in loans || loans[loanId].bookId !in books then Failure(Outcome(404, LoanNotFound))
    else
      var loan := loans[loanId];
      if p.role != Some("admin") && loan.userId != users[p.username].id then Failure(Outcome(403, NotLoanOwner))
      else if loan.status == Devuelto then Failure(Outcome(400, AlreadyReturned))
      else Success(loan.bookId)
  }

  /** An overdue loan is returned like an active one. */
  lemma OverdueLoanCanBeReturned(users: map<string, User>, books: map<nat, Book>, loans: map<nat, Loan>,
                                 p: Principal, loanId: nat)
    requires KnownUser(users, p.username) && loanId in loans && loans[loanId].bookId in books
    requires loans[loanId].userId == users[p.username].id
    requires loans[loanId].status == Vencido
    ensures ReturnVerdict(users, books, loans, p, loanId) == Success(loans[loanId].bookId)
  {
  }

  /**
   * `return_book`: after the checks, the transaction marks the loan `devuelto`
   * at the current instant and puts the copy back with
   * `UPDATE books … WHERE id = %s AND available_copies < total_copies`; when
   * that matches no row both writes are rolled back and the answer is a 500.
   */
  method ReturnBook(db: Library, p: Principal, loanId: nat) returns (out: Outcome)
    requires db.Valid()
    modifies db
    ensures db.Valid()
    ensures var verdict := ReturnVerdict(old(db.users), old(db.books), old(db.loans), p, loanId);
      && (verdict.Failure? ==> out == verdict.error && unchanged(db))
      && (verdict.Success? && old(db.books[verdict.value].availableCopies >= db.books[verdict.value].totalCopies) ==>
            out == Outcome(500, AvailabilityUpdateFailed) && unchanged(db))
      && (verdict.Success? && old(db.books[verdict.value].availableCopies < db.books[verdict.value].totalCopies) ==>
            && out == Outcome(200, BookReturned)
            && db.loans == MarkReturned(old(db.loans), loanId, old(db.now))
            && db.books == PutBack(old(db.books), verdict.value)
            && db.books[verdict.value].availableCopies <= db.books[verdict.value].totalCopies
            && unchanged(db`users, db`reviews, db`nextUserId, db`nextBookId, db`nextLoanId, db`nextReviewId, db`now)
            && forall b :: b in db.books ==> Stock(db.books, db.loans, b) == old(Stock(db.books, db.loans, b)))
  {
    var verdict := ReturnVerdict(db.users, db.books, db.loans, p, loanId);
    if verdict.Failure? {
      out := verdict.error;
      return;
    }
    var ok := CommitReturn(db, loanId);
    out := if ok then Outcome(200, BookReturned) else Outcome(500, AvailabilityUpdateFailed);
  }

  /**
   * The transaction of `return_book`: mark the loan `devuelto` now, then
   * `UPDATE books … WHERE id = %s AND available_copies < total_copies`; when
   * that matches no row both writes are rolled back and nothing has changed.
   */
  method CommitReturn(db: Library, loanId: nat) returns (ok: bool)
    requires db.Valid()
    requires loanId in db.loans && db.loans[loanId].status != Devuelto && db.loans[loanId].bookId in db.books
    modifies db
    ensures db.Valid()
    ensures var bid := old(db.loans[loanId].bookId);
      ok <==> old(db.books[bid].availableCopies < db.books[bid].totalCopies)
    ensures !ok ==> unchanged(db)
    ensures ok ==>
      var bid := old(db.loans[loanId].bookId);
      && db.loans == MarkReturned(old(db.loans), loanId, old(db.now))
      && db.books == PutBack(old(db.books), bid)
      && db.books[bid].availableCopies <= db.books[bid].totalCopies
      && unchanged(db`users, db`reviews, db`nextUserId, db`nextBookId, db`nextLoanId, db`nextReviewId, db`now)
    ensures ok ==> forall b :: b in db.books ==> Stock(db.books, db.loans, b) == old(Stock(db.books, db.loans, b))
  {
    var loansBefore, booksBefore, now := db.loans, db.books, db.now;
    var bid := loansBefore[loanId].bookId;
    // UPDATE loans SET return_date = NOW(), status = 'devuelto' WHERE id = %s
    db.loans := MarkReturned(loansBefore, loanId, now);
    // UPDATE books … WHERE id = %s AND available_copies < total_copies
    ok := booksBefore[bid].availableCopies < booksBefore[bid].totalCopies;
    if !ok {
      // connection.rollback()
      db.loans := loansBefore;
      return;
    }
    db.books := PutBack(booksBefore, bid);
    ReturnKeepsLoansValid(loansBefore, loanId, now, db.nextLoanId, db.nextBookId, db.nextUserId);
    forall b | b in db.books ensures Stock(db.books, db.loans, b) == Stock(booksBefore, loansBefore, b) {
      StockAfterReturn(booksBefore, loansBefore, loanId, now, b);
    }
  }

  // ---------------------------------------------------------------- listings

  /** The row exists in `loans INNER JOIN books INNER JOIN users`, with the joined columns copied across. */
  ghost predicate IsJoinedRow(users: map<string, User>, books: map<nat, Book>, loans: map<nat, Loan>, r: LoanRow) {
    r.id in loans && r.loan == loans[r.id] && r.loan.bookId in books
    && r.bookTitle == books[r.loan.bookId].title && r.bookAuthor == books[r.loan.bookId].author
    && r.username in users && users[r.username].id == r.loan.userId
  }

  /** The loan survives both inner joins: its book and its borrower still exist. */
  predicate Joinable(users: map<string, User>, books: map<nat, Book>, loans: map<nat, Loan>, id: nat) {
    id in loans && loans[id].bookId in books && exists n :: n in users && users[n].id == loans[id].userId
  }

  /** `if status_filter:` then `l.status = %s`; an absent or empty filter keeps every status. */
  predicate StatusMatches(l: Loan, statusFilter: Option<string>) {
    statusFilter.None? || statusFilter.value == "" || StatusName(l.status) == statusFilter.value
  }

  function LoanRowId(r: LoanRow): nat { r.id }

  function LoanDateOf(loans: map<nat, Loan>, id: nat): int {
    if id in loans then loans[id].loanDate else 0
  }

  /**
   * The selected loans, joined and listed by `ORDER BY l.loan_date DESC`: each
   * selected loan exactly once, each row its joined row, latest first.
   */
  method ListLoans(users: map<string, User>, books: map<nat, Book>, loans: map<nat, Loan>, selected: set<nat>)
    returns (rows: seq<LoanRow>)
    requires forall id :: id in selected ==> Joinable(users, books, loans, id)
    ensures multiset(Listing.Keys(rows, LoanRowId)) == multiset(selected)
    ensures forall i :: 0 <= i < |rows| ==> IsJoinedRow(users, books, loans, rows[i])
    ensures forall i, j :: 0 <= i < j < |rows| ==> rows[i].loan.loanDate >= rows[j].loan.loanDate
  {
    var ids := Listing.ListByKeyDesc(selected, (id: nat) => LoanDateOf(loans, id));
    rows := [];
    var i := 0;
    while i < |ids|
      invariant 0 <= i <= |ids|
      invariant |rows| == i
      invariant forall k :: 0 <= k < i ==> rows[k].id == ids[k] && IsJoinedRow(users, books, loans, rows[k])
    {
      var id := ids[i];
      assert id in multiset(ids);
      var name :| name in users && users[name].id == loans[id].userId;
      var b := books[loans[id].bookId];
      rows := rows + [LoanRow(id, loans[id], b.title, b.author, name)];
      i := i + 1;
    }
    assert Listing.Keys(rows, LoanRowId) == ids;
  }

  /** The loans `get_my_loans` selects for user `uid`. */
  function MySelection(users: map<string, User>, books: map<nat, Book>, loans: map<nat, Loan>,
                       uid: nat, statusFilter: Option<string>): set<nat> {
    set id | id in loans && loans[id].userId == uid && StatusMatches(loans[id], statusFilter)
                && Joinable(users, books, loans, id)
  }

  /**
   * `get_my_loans`: the overdue refresh runs first, whatever follows; a caller
   * who does not resolve to a user gets a 404; otherwise the caller's loans
   * that survive the joins and match the filter, latest first.
   */
  method GetMyLoans(db: Library, p: Principal, statusFilter: Option<string>) returns (out: Outcome, rows: seq<LoanRow>)
    requires db.Valid()
    modifies db`loans
    ensures db.Valid()
    ensures db.loans == RefreshOverdue(old(db.loans), db.now)
    ensures !KnownUser(db.users, p.username) ==> out == Outcome(404, UserNotFound) && rows == []
    ensures KnownUser(db.users, p.username) ==>
      && out == Outcome(200, LoansListed)
      && multiset(Listing.Keys(rows, LoanRowId)) == multiset(MySelection(db.users, db.books, db.loans, db.users[p.username].id, statusFilter))
      && (forall i :: 0 <= i < |rows| ==> IsJoinedRow(db.users, db.books, db.loans, rows[i]))
      && (forall i, j :: 0 <= i < j < |rows| ==> rows[i].loan.loanDate >= rows[j].loan.loanDate)
  {
    var _ := UpdateOverdueLoans(db);
    rows := [];
    if !KnownUser(db.users, p.username) {
      out := Outcome(404, UserNotFound);
      return;
    }
    var uid := db.users[p.username].id;
    rows := ListLoans(db.users, db.books, db.loans, MySelection(db.users, db.books, db.loans, uid, statusFilter));
    out := Outcome(200, LoansListed);
  }

  /** The loans `get_all_loans` selects. */
  function AllSelection(users: map<string, User>, books: map<nat, Book>, loans: map<nat, Loan>,
                        statusFilter: Option<string>): set<nat> {
    set id | id in loans && StatusMatches(loans[id], statusFilter) && Joinable(users, books, loans, id)
  }

  /**
   * `get_all_loans`: admins only (403), `skip >= 0` and `1 <= limit <= 100`
   * (422); then the refresh, and the window `LIMIT limit OFFSET skip` of all
   * joined loans matching the filter, latest first.
   */
  method GetAllLoans(db: Library, p: Principal, skip: int, limit: int, statusFilter: Option<string>)
    returns (out: Outcome, rows: seq<LoanRow>)
    requires db.Valid()
    modifies db`loans
    ensures db.Valid()
    ensures RequireAdmin(p).Failure? ==> out == Outcome(403, NotAdmin) && rows == [] && unchanged(db)
    ensures RequireAdmin(p).Success? && !(skip >= 0 && 1 <= limit <= 100) ==>
      out == Outcome(422, InvalidRequest) && rows == [] && unchanged(db)
    ensures RequireAdmin(p).Success? && skip >= 0 && 1 <= limit <= 100 ==>
      && out == Outcome(200, LoansListed)
      && db.loans == RefreshOverdue(old(db.loans), db.now)
      && |rows| <= limit
      && exists all: seq<LoanRow> ::
           && multiset(Listing.Keys(all, LoanRowId)) == multiset(AllSelection(db.users, db.books, db.loans, statusFilter))
           && (forall i :: 0 <= i < |all| ==> IsJoinedRow(db.users, db.books, db.loans, all[i]))
           && (forall i, j :: 0 <= i < j < |all| ==> all[i].loan.loanDate >= all[j].loan.loanDate)
           && rows == Listing.Page(all, skip, limit)
  {
    rows := [];
    if RequireAdmin(p).Failure? {
      out := Outcome(403, NotAdmin);
      return;
    }
    if !(skip >= 0 && 1 <= limit <= 100) {
      out := Outcome(422, InvalidRequest);
      return;
    }
    var _ := UpdateOverdueLoans(db);
    var all := ListLoans(db.users, db.books, db.loans, AllSelection(db.users, db.books, db.loans, statusFilter));
    rows := Listing.Page(all, skip, limit);
    out := Outcome(200, LoansListed);
  }

  /**
   * `get_loan_by_id`: the loan joined with its book and borrower (404 when the
   * joins find nothing); a caller who is not an admin sees only a loan whose
   * borrower's username is the caller's own (403).
   */
  method GetLoanById(db: Library, p: Principal, loanId: nat) returns (out: Outcome, row: Option<LoanRow>)
    requires db.Valid()
    ensures !Joinable(db.users, db.books, db.loans, loanId) ==> out == Outcome(404, LoanNotFound) && row.None?
    ensures Joinable(db.users, db.books, db.loans, loanId) ==>
      (out == Outcome(200, LoanFound) <==> row.Some?)
      && (out == Outcome(200, LoanFound) || out == Outcome(403, NotLoanOwner))
    ensures row.Some? ==>
      && row.value.id == loanId && IsJoinedRow(db.users, db.books, db.loans, row.value)
      && (p.role == Some("admin") || row.value.username == p.username)
    ensures out == Outcome(403, NotLoanOwner) ==>
      p.role != Some("admin") && Joinable(db.users, db.books, db.loans, loanId)
      && !(p.username in db.users && db.users[p.username].id == db.loans[loanId].userId)
  {
    row := None;
    if !Joinable(db.users, db.books, db.loans, loanId) {
      out := Outcome(404, LoanNotFound);
      return;
    }
    var loan := db.loans[loanId];
    var name :| name in db.users && db.users[name].id == loan.userId;
    var b := db.books[loan.bookId];
    var joined := LoanRow(loanId, loan, b.title, b.author, name);
    if p.role != Some("admin") && name != p.username {
      out := Outcome(403, NotLoanOwner);
      return;
    }
    out := Outcome(200, LoanFound);
    row := Some(joined);
  }
}

=== FILE: models.dfy ===
/**
 * The request models of `app/models.py`: the field bounds FastAPI enforces
 * (answering 422 when one fails) and the custom validators for usernames,
 * passwords, ISBNs and available copies.
 */
module Models {
  import opened Wrappers
  import opened Text

  // ---------------------------------------------------------------- users

  predicate IsWordChar(c: char) { IsLetter(c) || IsDigit(c) || c == '_' }

  predicate AllWordChars(s: string) {
    forall i :: 0 <= i < |s| ==> IsWordChar(s[i])
  }

  /**
   * `re.match(r'^[a-zA-Z0-9_]+$', v)`: one or more word characters, where `$`
   * also matches just before a single final newline.
   */
  predicate UsernamePatternMatches(v: string) {
    (|v| > 0 && AllWordChars(v))
    || (|v| > 1 && v[|v| - 1] == '\n' && AllWordChars(v[..|v| - 1]))
  }

  /** `UserBase.username`: 3 to 100 characters, then the word-character validator. */
  function ValidUsername(v: string): (ok: bool)
    ensures ok ==> 3 <= |v| <= 100
    ensures ok ==> forall i :: 0 <= i < |v| - 1 ==> IsWordChar(v[i])
    ensures ok ==> |v| > 0 && (IsWordChar(v[|v| - 1]) || v[|v| - 1] == '\n')
    ensures ok ==> forall i :: 0 <= i < |v| ==> !IsWhitespace(v[i]) || (i == |v| - 1 && v[i] == '\n')
    ensures ok <==> 3 <= |v| <= 100 && (forall i :: 0 <= i < |v| - 1 ==> IsWordChar(v[i]))
                    && (IsWordChar(v[|v| - 1]) || v[|v| - 1] == '\n')
  {
    3 <= |v| <= 100 && UsernamePatternMatches(v)
  }

  lemma UsernameExamples()
    ensures ValidUsername("ana_01")
    ensures ValidUsername("ana\n")
    ensures !ValidUsername("ab")
    ensures !ValidUsername("ana lu")
  {
    assert !IsWordChar(("ana lu")[3]);
    assert ("ana\n")[..3] == "ana";
  }

  predicate HasLetter(s: string) { exists i :: 0 <= i < |s| && IsLetter(s[i]) }
  predicate HasDigit(s: string) { exists i :: 0 <= i < |s| && IsDigit(s[i]) }

  function FindLetter(s: string): (found: bool)
    ensures found <==> HasLetter(s)
  {
    if s == [] then false
    else if IsLetter(s[0]) then true
    else
      assert forall i :: 1 <= i < |s| ==> s[i] == s[1..][i - 1];
      FindLetter(s[1..])
  }

  function FindDigit(s: string): (found: bool)
    ensures found <==> HasDigit(s)
  {
    if s == [] then false
    else if IsDigit(s[0]) then true
    else
      assert forall i :: 1 <= i < |s| ==> s[i] == s[1..][i - 1];
      FindDigit(s[1..])
  }

  /** `UserCreate.password`: at least 6 characters, with a letter and a digit somewhere. */
  function ValidPassword(v: string): (ok: bool)
    ensures ok <==> |v| >= 6 && HasLetter(v) && HasDigit(v)
  {
    |v| >= 6 && FindLetter(v) && FindDigit(v)
  }

  /** The body of a registration request. */
  datatype UserCreate = UserCreate(
    username: string, email: string, fullName: Option<string>, password: string, role: string)

  /**
   * All of `UserCreate`'s constraints; `EmailStr` comes from a library, so its
   * verdict is the parameter `isEmail`.
   */
  function ValidUserCreate(u: UserCreate, isEmail: string -> bool): (ok: bool)
    ensures ok <==> (u.role == "usuario" || u.role == "admin")
                    && ValidUsername(u.username) && ValidPassword(u.password) && isEmail(u.email)
                    && (u.fullName.Some? ==> |u.fullName.value| <= 150)
  {
    ValidUsername(u.username) && isEmail(u.email)
    && (u.fullName.None? || |u.fullName.value| <= 150)
    && ValidPassword(u.password)
    && (u.role == "usuario" || u.role == "admin")
  }

  // ---------------------------------------------------------------- ISBN

  datatype IsbnError =
    | Isbn10Format      // ten characters, but not nine digits and a digit or 'X'
    | Isbn10Checksum
    | Isbn13NotDigits
    | Isbn13Checksum
    | IsbnLength        // neither ten nor thirteen characters once cleaned

  /** Hyphens and spaces removed, letters upper-cased. */
  function NormalizeIsbn(v: string): (r: string)
    ensures '-' !in r && ' ' !in r
    ensures forall i :: 0 <= i < |r| ==> !IsLower(r[i])
  {
    RemoveMembers(v, '-');
    RemoveMembers(Remove(v, '-'), ' ');
    ToUpper(Remove(Remove(v, '-'), ' '))
  }

  lemma NormalizeIsbnIdempotent(v: string)
    ensures NormalizeIsbn(NormalizeIsbn(v)) == NormalizeIsbn(v)
  {
    var n := NormalizeIsbn(v);
    RemoveMembers(n, '-');
    RemoveMembers(n, ' ');
    assert Remove(n, '-') == n;
    assert Remove(n, ' ') == n;
    assert ToUpper(n) == n;
  }

  /** A string without hyphens, spaces or lower-case letters is already normalised. */
  lemma NormalizeIsbnOfNormal(s: string)
    requires '-' !in s && ' ' !in s && forall i :: 0 <= i < |s| ==> !IsLower(s[i])
    ensures NormalizeIsbn(s) == s
  {
    RemoveMembers(s, '-');
    RemoveMembers(s, ' ');
    assert ToUpper(s) == s;
  }

  predicate Isbn10Char(c: char) { IsDigit(c) || c == 'X' }

  /** The value of an ISBN-10 character: 'X' is ten; characters outside the format count as zero. */
  function Isbn10Value(c: char): (v: nat)
    ensures v <= 10
  {
    if c == 'X' then 10 else if IsDigit(c) then DigitValue(c) else 0
  }

  /** The ISBN-10 weighted sum of the first `n` characters: index `i` weighs `10 - i`. */
  function Isbn10Sum(s: string, n: nat): nat
    requires n <= 10 && n <= |s|
  {
    if n == 0 then 0 else Isbn10Sum(s, n - 1) + (11 - n) * Isbn10Value(s[n - 1])
  }

  function Weight13(i: nat): nat { if i % 2 == 0 then 1 else 3 }

  /** The value of a digit; other characters count as zero. */
  function Digit(c: char): (v: nat)
    ensures v <= 9
  {
    if IsDigit(c) then DigitValue(c) else 0
  }

  /** The ISBN-13 weighted sum of the first `n` digits: even indices weigh 1, odd indices 3. */
  function Isbn13Sum(s: string, n: nat): nat
    requires n <= |s|
  {
    if n == 0 then 0 else Isbn13Sum(s, n - 1) + Weight13(n - 1) * Digit(s[n - 1])
  }

  /** Nine digits and a final digit or 'X'. */
  predicate Isbn10Shaped(s: string) {
    |s| == 10 && AllDigits(s[..9]) && Isbn10Char(s[9])
  }

  /** A valid ISBN-10: the weighted sum of all ten characters is a multiple of 11. */
  predicate IsIsbn10(s: string) {
    Isbn10Shaped(s) && Isbn10Sum(s, 10) % 11 == 0
  }

  /** A valid ISBN-13: the weighted sum of all thirteen digits, check digit included, is a multiple of 10. */
  predicate IsIsbn13(s: string) {
    |s| == 13 && AllDigits(s) && Isbn13Sum(s, 13) % 10 == 0
  }

  /** The check digit `validate_isbn` computes equals the one that makes the full sum a multiple of 10. */
  lemma CheckDigitMeansFullSum(partial: nat, d: nat)
    requires d <= 9
    ensures (10 - partial % 10) % 10 == d <==> (partial + d) % 10 == 0
  {
    var m := partial % 10;
    assert partial == (partial / 10) * 10 + m;
    assert (partial + d) % 10 == (m + d) % 10;
  }

  /**
   * `BookBase.validate_isbn`: the normalised ISBN is either ten characters
   * with a correct mod-11 checksum, or thirteen digits whose computed check
   * digit matches the last one; the normalised form is what gets stored.
   */
  function ValidateIsbn(v: string): (r: Result<string, IsbnError>)
    ensures r.Success? <==> IsIsbn10(NormalizeIsbn(v)) || IsIsbn13(NormalizeIsbn(v))
    ensures r.Success? ==> r.value == NormalizeIsbn(v)
    ensures r == Failure(IsbnLength) <==> |NormalizeIsbn(v)| != 10 && |NormalizeIsbn(v)| != 13
    ensures r == Failure(Isbn10Format) <==> |NormalizeIsbn(v)| == 10 && !Isbn10Shaped(NormalizeIsbn(v))
    ensures r == Failure(Isbn10Checksum) <==> Isbn10Shaped(NormalizeIsbn(v)) && !IsIsbn10(NormalizeIsbn(v))
    ensures r == Failure(Isbn13NotDigits) <==> |NormalizeIsbn(v)| == 13 && !AllDigits(NormalizeIsbn(v))
    ensures r == Failure(Isbn13Checksum) <==>
      |NormalizeIsbn(v)| == 13 && AllDigits(NormalizeIsbn(v)) && !IsIsbn13(NormalizeIsbn(v))
  {
    var clean := NormalizeIsbn(v);
    if |clean| == 10 then
      if !(AllDigits(clean[..9]) && Isbn10Char(clean[9])) then Failure(Isbn10Format)
      else
        if Isbn10Sum(clean, 10) % 11 != 0 then Failure(Isbn10Checksum)
        else Success(clean)
    else if |clean| == 13 then
      if !AllDigits(clean) then Failure(Isbn13NotDigits)
      else
        var partial := Isbn13Sum(clean, 12);
        CheckDigitMeansFullSum(partial, DigitValue(clean[12]));
        if (10 - partial % 10) % 10 != DigitValue(clean[12]) then Failure(Isbn13Checksum)
        else Success(clean)
    else
      Failure(IsbnLength)
  }

  /** Validating an ISBN the validator already produced gives it back unchanged. */
  lemma ValidateIsbnIdempotent(v: string)
    requires ValidateIsbn(v).Success?
    ensures ValidateIsbn(ValidateIsbn(v).value) == ValidateIsbn(v)
  {
    NormalizeIsbnIdempotent(v);
  }

  lemma Isbn10Accepted()
    ensures ValidateIsbn("0306406152") == Success("0306406152")
  {
    assert IsIsbn10("0306406152") by {
      assert DigitsUpTo("0306406152", 9);
      assert ("0306406152")[..9] == "030640615";
    }
    NormalizeIsbnOfNormal("0306406152");
  }

  lemma Isbn10ChecksumRejected()
    ensures ValidateIsbn("0306406153") == Failure(Isbn10Checksum)
  {
    assert Isbn10Shaped("0306406153") && !IsIsbn10("0306406153") by {
      assert DigitsUpTo("0306406153", 9);
      assert ("0306406153")[..9] == "030640615";
    }
    NormalizeIsbnOfNormal("0306406153");
  }

  lemma Isbn13Accepted()
    ensures ValidateIsbn("9780306406157") == Success("9780306406157")
  {
    Isbn13Example();
    NormalizeIsbnOfNormal("9780306406157");
  }

  /** 9·1 + 7·3 + 8·1 + 0·3 + 3·1 + 0·3 + 6·1 + 4·3 + 0·1 + 6·3 + 1·1 + 5·3 + 7·1 = 100. */
  lemma Isbn13Example()
    ensures IsIsbn13("9780306406157")
  {
    assert DigitsUpTo("9780306406157", 13);
    assert "9780306406157"[0] == '9' && Digit('9') == 9;
    assert Isbn13Sum("9780306406157", 1) == 9;
    assert Isbn13Sum("9780306406157", 2) == 30;
    assert Isbn13Sum("9780306406157", 3) == 38;
    assert Isbn13Sum("9780306406157", 4) == 38;
    assert Isbn13Sum("9780306406157", 5) == 41;
    assert Isbn13Sum("9780306406157", 6) == 41;
    assert Isbn13Sum("9780306406157", 7) == 47;
    assert Isbn13Sum("9780306406157", 8) == 59;
    assert Isbn13Sum("9780306406157", 9) == 59;
    assert Isbn13Sum("9780306406157", 10) == 77;
    assert Isbn13Sum("9780306406157", 11) == 78;
    assert Isbn13Sum("9780306406157", 12) == 93;
    assert Isbn13Sum("9780306406157", 13) == 100;
  }

  lemma Isbn13ChecksumRejected()
    ensures ValidateIsbn("9780306406150") == Failure(Isbn13Checksum)
  {
    Isbn13WrongCheckExample();
    NormalizeIsbnOfNormal("9780306406150");
  }

  /** The same first twelve digits with check digit 0: the sum is 93. */
  lemma Isbn13WrongCheckExample()
    ensures AllDigits("9780306406150") && !IsIsbn13("9780306406150")
  {
    assert DigitsUpTo("9780306406150", 13);
    assert "9780306406150"[0] == '9' && Digit('9') == 9;
    assert Isbn13Sum("9780306406150", 1) == 9;
    assert Isbn13Sum("9780306406150", 2) == 30;
    assert Isbn13Sum("9780306406150", 3) == 38;
    assert Isbn13Sum("9780306406150", 4) == 38;
    assert Isbn13Sum("9780306406150", 5) == 41;
    assert Isbn13Sum("9780306406150", 6) == 41;
    assert Isbn13Sum("9780306406150", 7) == 47;
    assert Isbn13Sum("9780306406150", 8) == 59;
    assert Isbn13Sum("9780306406150", 9) == 59;
    assert Isbn13Sum("9780306406150", 10) == 77;
    assert Isbn13Sum("9780306406150", 11) == 78;
    assert Isbn13Sum("9780306406150", 12) == 93;
    assert Isbn13Sum("9780306406150", 13) == 93;
  }

  lemma RemoveOne(c: char, d: char)
    ensures Remove([c], d) == if c == d then [] else [c]
  {
    assert [c][1..] == [];
  }

  lemma RemoveAround(a: string, b: string, c: char, d: char)
    ensures Remove(a + [c] + b, d) == Remove(a, d) + Remove([c], d) + Remove(b, d)
  {
    RemoveConcat(a + [c], b, d);
    RemoveConcat(a, [c], d);
  }

  lemma RemoveSeparatorsIgnores(a: string, b: string, c: char)
    requires c == '-' || c == ' '
    ensures Remove(Remove(a + [c] + b, '-'), ' ') == Remove(Remove(a + b, '-'), ' ')
  {
    RemoveAround(a, b, c, '-');
    RemoveOne(c, '-');
    RemoveConcat(a, b, '-');
    var x, y := Remove(a, '-'), Remove(b, '-');
    if c == '-' {
      assert Remove(a + [c] + b, '-') == x + y;
    } else {
      assert Remove(a + [c] + b, '-') == x + [c] + y;
      RemoveSpaceBetween(x, y);
    }
  }

  lemma RemoveSpaceBetween(x: string, y: string)
    ensures Remove(x + [' '] + y, ' ') == Remove(x + y, ' ')
  {
    RemoveAround(x, y, ' ', ' ');
    RemoveOne(' ', ' ');
    RemoveConcat(x, y, ' ');
  }

  /** A hyphen or a space anywhere in the input makes no difference to the verdict. */
  lemma IsbnIgnoresSeparators(a: string, b: string, c: char)
    requires c == '-' || c == ' '
    ensures ValidateIsbn(a + [c] + b) == ValidateIsbn(a + b)
  {
    RemoveSeparatorsIgnores(a, b, c);
    assert NormalizeIsbn(a + [c] + b) == NormalizeIsbn(a + b);
  }

  lemma {:induction false} Isbn13SumUpdate(s: string, n: nat, k: nat, c: char)
    requires n <= |s| && k < |s|
    ensures k < n ==>
      Isbn13Sum(s[k := c], n) + Weight13(k) * Digit(s[k]) == Isbn13Sum(s, n) + Weight13(k) * Digit(c)
    ensures k >= n ==> Isbn13Sum(s[k := c], n) == Isbn13Sum(s, n)
  {
    if n > 0 {
      Isbn13SumUpdate(s, n - 1, k, c);
    }
  }

  /** Changing any single digit of a valid ISBN-13 into a different digit makes it invalid. */
  lemma Isbn13DetectsSingleDigitErrors(s: string, k: nat, c: char)
    requires IsIsbn13(s) && k < 13 && IsDigit(c) && c != s[k]
    ensures !IsIsbn13(s[k := c])
  {
    Isbn13SumUpdate(s, 13, k, c);
    TenCheckArithmetic(Isbn13Sum(s[k := c], 13), Isbn13Sum(s, 13), Weight13(k), Digit(s[k]), Digit(c));
  }

  /** Moving a multiple of 10 by 1 or 3 times a change of digit leaves the multiples of 10. */
  lemma TenCheckArithmetic(a: int, b: int, w: int, p: int, q: int)
    requires (w == 1 || w == 3) && 0 <= p <= 9 && 0 <= q <= 9 && p != q
    requires a + w * p == b + w * q && b % 10 == 0
    ensures a % 10 != 0
  {
    Rearrange(a, b, w, p, q);
    NoMultipleOfTen(w, q - p);
    ShiftByMultipleOfTen(b, w * (q - p));
  }

  /** 1 and 3 share no factor with 10, so they times a non-zero digit difference is never a multiple of 10. */
  lemma NoMultipleOfTen(w: int, x: int)
    requires (w == 1 || w == 3) && -9 <= x <= 9 && x != 0
    ensures (w * x) % 10 != 0
  {
    if w == 3 {
      assert w * x == x + x + x;
    }
  }

  lemma ShiftByMultipleOfTen(b: int, y: int)
    requires b % 10 == 0
    ensures (b + y) % 10 == y % 10
  {
    assert b + y == 10 * (b / 10) + y;
  }

  lemma {:induction false} Isbn10SumUpdate(s: string, n: nat, k: nat, c: char)
    requires n <= 10 && n <= |s| && k < |s|
    ensures k < n ==>
      Isbn10Sum(s[k := c], n) + (10 - k) * Isbn10Value(s[k]) == Isbn10Sum(s, n) + (10 - k) * Isbn10Value(c)
    ensures k >= n ==> Isbn10Sum(s[k := c], n) == Isbn10Sum(s, n)
  {
    if n > 0 {
      Isbn10SumUpdate(s, n - 1, k, c);
    }
  }

  /** 11 is prime: a weight in 1..10 times a non-zero difference in -10..10 is never a multiple of 11. */
  lemma NoMultipleOfEleven(w: int, x: int)
    requires 1 <= w <= 10 && -10 <= x <= 10 && x != 0
    ensures (w * x) % 11 != 0
  {
    if w <= 5 {
      NoMultipleOfElevenLow(w, x);
    } else {
      NoMultipleOfElevenHigh(w, x);
    }
  }

  lemma NoMultipleOfElevenLow(w: int, x: int)
    requires 1 <= w <= 5 && -10 <= x <= 10 && x != 0
    ensures (w * x) % 11 != 0
  {
    if w == 1 { } else if w == 2 { } else if w == 3 { } else if w == 4 { } else { }
  }

  lemma NoMultipleOfElevenHigh(w: int, x: int)
    requires 6 <= w <= 10 && -10 <= x <= 10 && x != 0
    ensures (w * x) % 11 != 0
  {
    if w == 6 { } else if w == 7 { } else if w == 8 { } else if w == 9 { } else { }
  }

  lemma MultipleOfElevenDifference(a: int, b: int)
    requires a % 11 == 0 && (a + b) % 11 == 0
    ensures b % 11 == 0
  {
    assert b == 11 * ((a + b) / 11 - a / 11);
  }

  lemma Rearrange(a: int, b: int, w: int, p: int, q: int)
    requires a + w * p == b + w * q
    ensures a == b + w * (q - p)
  {
  }

  /** Moving a multiple of 11 by a weight in 1..10 times a change of value in 0..10 leaves the multiples of 11. */
  lemma ElevenCheckArithmetic(a: int, b: int, w: int, p: int, q: int)
    requires 1 <= w <= 10 && 0 <= p <= 10 && 0 <= q <= 10 && p != q
    requires a + w * p == b + w * q && b % 11 == 0
    ensures a % 11 != 0
  {
    Rearrange(a, b, w, p, q);
    NoMultipleOfEleven(w, q - p);
    if a % 11 == 0 {
      MultipleOfElevenDifference(b, w * (q - p));
    }
  }

  /** Changing any single character of a valid ISBN-10 into a different digit or 'X' makes it invalid. */
  lemma Isbn10DetectsSingleCharErrors(s: string, k: nat, c: char)
    requires IsIsbn10(s) && k < 10 && Isbn10Char(c) && c != s[k]
    ensures !IsIsbn10(s[k := c])
  {
    assert Isbn10Char(s[k]) by {
      if k < 9 { assert s[k] == s[..9][k]; }
    }
    Isbn10SumUpdate(s, 10, k, c);
    ElevenCheckArithmetic(Isbn10Sum(s[k := c], 10), Isbn10Sum(s, 10), 10 - k, Isbn10Value(s[k]), Isbn10Value(c));
  }

  // ---------------------------------------------------------------- books

  /** The body of a book-creation request. */
  datatype BookCreate = BookCreate(
    title: string, author: string, isbn: string, googleBooksId: Option<string>,
    description: Option<string>, category: Option<string>, publicationYear: Option<int>,
    coverUrl: Option<string>, totalPages: Option<int>, totalCopies: int, availableCopies: int)

  predicate LengthWithin(s: string, lo: nat, hi: nat) { lo <= |s| <= hi }

  predicate OptionalLengthAtMost(s: Option<string>, hi: nat) { s.None? || |s.value| <= hi }

  predicate OptionalYear(y: Option<int>) { y.None? || 1000 <= y.value <= 2100 }

  /**
   * `BookCreate`: the field bounds of `BookBase`, the ISBN validator (on a raw
   * value of 10 to 20 characters), at least one copy, and
   * `validate_available_copies`. The validated request carries the normalised ISBN.
   */
  function ValidateBookCreate(b: BookCreate): (r: Option<BookCreate>)
    ensures r.Some? ==> 1 <= r.value.totalCopies && 0 <= r.value.availableCopies <= r.value.totalCopies
    ensures r.Some? ==> IsIsbn10(r.value.isbn) || IsIsbn13(r.value.isbn)
    ensures r.Some? ==> r.value == b.(isbn := NormalizeIsbn(b.isbn))
    ensures r.Some? ==> 1 <= |b.title| <= 255 && 1 <= |b.author| <= 150 && 10 <= |b.isbn| <= 20
    ensures r.None? <==>
      || !(1 <= b.totalCopies && 0 <= b.availableCopies <= b.totalCopies)
      || ValidateIsbn(b.isbn).Failure? || !(10 <= |b.isbn| <= 20)
      || !LengthWithin(b.title, 1, 255) || !LengthWithin(b.author, 1, 150)
      || !OptionalLengthAtMost(b.googleBooksId, 50) || !OptionalLengthAtMost(b.category, 100)
      || !OptionalYear(b.publicationYear) || !(b.totalPages.None? || b.totalPages.value >= 0)
  {
    var isbn := ValidateIsbn(b.isbn);
    if LengthWithin(b.title, 1, 255) && LengthWithin(b.author, 1, 150)
       && LengthWithin(b.isbn, 10, 20) && isbn.Success?
       && OptionalLengthAtMost(b.googleBooksId, 50) && OptionalLengthAtMost(b.category, 100)
       && OptionalYear(b.publicationYear) && (b.totalPages.None? || b.totalPages.value >= 0)
       && b.totalCopies >= 1 && b.availableCopies >= 0 && b.availableCopies <= b.totalCopies
    then Some(b.(isbn := isbn.value))
    else None
  }

  /** The body of a book-update request: every field optional. */
  datatype BookUpdate = BookUpdate(
    title: Option<string>, author: Option<string>, description: Option<string>,
    category: Option<string>, publicationYear: Option<int>,
    totalCopies: Option<int>, availableCopies: Option<int>)

  /**
   * `BookUpdate`: each field that is present obeys its own bound; nothing
   * relates `available_copies` to `total_copies`.
   */
  function ValidBookUpdate(u: BookUpdate): (ok: bool)
    ensures ok <==>
      && (u.title.Some? ==> 1 <= |u.title.value| <= 255)
      && (u.author.Some? ==> 1 <= |u.author.value| <= 150)
      && (u.category.Some? ==> |u.category.value| <= 100)
      && (u.publicationYear.Some? ==> 1000 <= u.publicationYear.value <= 2100)
      && (u.totalCopies.Some? ==> u.totalCopies.value >= 1)
      && (u.availableCopies.Some? ==> u.availableCopies.value >= 0)
  {
    (u.title.None? || LengthWithin(u.title.value, 1, 255))
    && (u.author.None? || LengthWithin(u.author.value, 1, 150))
    && OptionalLengthAtMost(u.category, 100)
    && OptionalYear(u.publicationYear)
    && (u.totalCopies.None? || u.totalCopies.value >= 1)
    && (u.availableCopies.None? || u.availableCopies.value >= 0)
  }

  /** An update may ask for more available copies than total copies. */
  lemma BookUpdateAllowsMoreAvailableThanTotal()
    ensures ValidBookUpdate(BookUpdate(None, None, None, None, None, Some(1), Some(5)))
  {
  }

  // ---------------------------------------------------------------- loans and reviews

  /** `LoanCreate.book_id`: a positive id. */
  function ValidLoanCreate(bookId: int): (ok: bool)
    ensures ok <==> bookId >= 1
  {
    bookId > 0
  }

  /** `ReviewBase`: a positive book id, 1 to 5 stars, a comment of at most 1000 characters. */
  function ValidReviewCreate(bookId: int, rating: int, comment: Option<string>): (ok: bool)
    ensures ok <==> bookId >= 1 && rating in {1, 2, 3, 4, 5} && (comment.Some? ==> |comment.value| <= 1000)
  {
    bookId > 0 && 1 <= rating <= 5 && OptionalLengthAtMost(comment, 1000)
  }
}

=== FILE: reviews.dfy ===
/**
 * `routes/reviews.py`: the review eligibility gate and the review listings.
 * A review needs a returned loan of the book; the gate consults only the
 * returned loan with the latest return date, and creating the review flags
 * that loan. Deleting a review leaves the flag set.
 */
module Reviews {
  import opened Wrappers
  import opened Store
  import opened Auth
  import Listing
  import Models

  /** A review joined with its book's title (`SELECT r.*, b.title AS book_title`). */
  datatype ReviewRow = ReviewRow(id: nat, review: Review, bookTitle: string)

  /** `get_user_id`: the caller's id, or nothing when the username is empty or unknown. */
  function GetUserId(users: map<string, User>, p: Principal): (r: Option<nat>)
    ensures r.Some? <==> p.username != "" && p.username in users
    ensures r.Some? ==> r.value == users[p.username].id
  {
    if p.username == "" || p.username !in users then None else Some(users[p.username].id)
  }

  /** Under the store invariant the id found is the caller's own and nobody else's. */
  lemma GetUserIdIsUnique(db: Library, p: Principal, q: Principal)
    requires db.Valid()
    requires GetUserId(db.users, p).Some? && GetUserId(db.users, p) == GetUserId(db.users, q)
    ensures p.username == q.username
  {
  }


  /**
   * `get_user_role`: the `role` entry if it is truthy, else the `user_role`
   * entry if that is, else `'usuario'`; never empty.
   */
  function GetUserRole(role: Option<string>, userRole: Option<string>): (r: string)
    ensures r != ""
    ensures Truthy(role) ==> r == role.value
    ensures !Truthy(role) && Truthy(userRole) ==> r == userRole.value
    ensures !Truthy(role) && !Truthy(userRole) ==> r == "usuario"
    ensures r == "admin" <==> (Truthy(role) && role.value == "admin") || (!Truthy(role) && userRole == Some("admin"))
  {
    if Truthy(role) then role.value else if Truthy(userRole) then userRole.value else "usuario"
  }

  /** The routes hand `get_user_role` the decoded token, which never carries `user_role`. */
  function CallerRole(p: Principal): (r: string)
    ensures r == "admin" <==> p.role == Some("admin")
  {
    GetUserRole(p.role, None)
  }

  /** The user's `devuelto` loans of the book. */
  function ReturnedLoansOf(loans: map<nat, Loan>, uid: nat, bid: nat): set<nat> {
    set id | id in loans && loans[id].userId == uid && loans[id].bookId == bid && loans[id].status == Devuelto
  }

  /** `ORDER BY return_date DESC` puts `a` before or level with `b` (a missing date sorts last). */
  predicate ReturnedNoEarlier(a: Option<int>, b: Option<int>) {
    b.None? || (a.Some? && a.value >= b.value)
  }

  /** `id` is a loan `ORDER BY return_date DESC LIMIT 1` may return. */
  ghost predicate IsLatestReturned(loans: map<nat, Loan>, uid: nat, bid: nat, id: nat) {
    id in ReturnedLoansOf(loans, uid, bid)
    && forall k :: k in ReturnedLoansOf(loans, uid, bid) ==> ReturnedNoEarlier(loans[id].returnDate, loans[k].returnDate)
  }

  /**
   * The loan query of `create_review`: nothing when the user has no returned
   * loan of the book, otherwise one with the latest return date.
   */
  method LatestReturnedLoan(loans: map<nat, Loan>, uid: nat, bid: nat) returns (r: Option<nat>)
    ensures r.None? <==> ReturnedLoansOf(loans, uid, bid) == {}
    ensures r.Some? ==> IsLatestReturned(loans, uid, bid, r.value)
  {
    var returned := ReturnedLoansOf(loans, uid, bid);
    var rest := returned;
    r := None;
    while rest != {}
      invariant rest <= returned
      invariant r.None? ==> rest == returned
      invariant r.Some? ==> r.value in returned
      invariant r.Some? ==> forall k :: k in returned - rest ==> ReturnedNoEarlier(loans[r.value].returnDate, loans[k].returnDate)
      decreases |rest|
    {
      var k :| k in rest;
      if r.None? || !ReturnedNoEarlier(loans[r.value].returnDate, loans[k].returnDate) {
        r := Some(k);
      }
      rest := rest - {k};
    }
  }

  /** Whether a review of the book by the user exists (`SELECT id FROM reviews WHERE user_id = … AND book_id = …`). */
  predicate HasReviewed(reviews: map<nat, Review>, uid: nat, bid: nat) {
    exists id :: id in reviews && reviews[id].userId == uid && reviews[id].bookId == bid
  }

  /**
   * The checks of `create_review` after request validation, in their order:
   * the caller's id must resolve (400), the caller must not have reviewed the
   * book (400), must have a returned loan of it (400), and the loan the query
   * picked must not be flagged as reviewed (400). On success, that loan.
   */
  function ReviewVerdict(reviews: map<nat, Review>, loans: map<nat, Loan>, uid: Option<nat>, bid: nat,
                         latest: Option<nat>): (r: Result<nat, Outcome>)
    requires latest.Some? ==> latest.value in loans
    ensures r == Failure(Outcome(400, UserUnidentified)) <==> uid.None? || uid.value == 0
    ensures r == Failure(Outcome(400, ReviewExists)) <==>
      uid.Some? && uid.value != 0 && HasReviewed(reviews, uid.value, bid)
    ensures r == Failure(Outcome(400, NoReturnedLoan)) <==>
      uid.Some? && uid.value != 0 && !HasReviewed(reviews, uid.value, bid) && latest.None?
    ensures r == Failure(Outcome(400, LoanAlreadyReviewed)) <==>
      uid.Some? && uid.value != 0 && !HasReviewed(reviews, uid.value, bid) && latest.Some?
      && loans[latest.value].hasReview
    ensures r.Success? <==>
      uid.Some? && uid.value != 0 && !HasReviewed(reviews, uid.value, bid) && latest.Some?
      && !loans[latest.value].hasReview
    ensures r.Success? ==> r == Success(latest.value)
  {
    if uid.None? || uid.value == 0 then Failure(Outcome(400, UserUnidentified))
    else if HasReviewed(reviews, uid.value, bid) then Failure(Outcome(400, ReviewExists))
    else if latest.None? then Failure(Outcome(400, NoReturnedLoan))
    else if loans[latest.value].hasReview then Failure(Outcome(400, LoanAlreadyReviewed))
    else Success(latest.value)
  }

  /**
   * `create_review`: a request that fails `ReviewCreate` is a 422; then the
   * checks of `ReviewVerdict` over the loan the query picks, any failure
   * leaving the database unchanged; then one review stamped with the current
   * instant, and the picked loan flagged. No book and no other loan changes.
   */
  method CreateReview(db: Library, p: Principal, bookId: int, rating: int, comment: Option<string>)
    returns (out: Outcome, reviewId: Option<nat>, picked: Option<nat>)
    requires db.Valid()
    modifies db
    ensures db.Valid()
    ensures !Models.ValidReviewCreate(bookId, rating, comment) ==>
      out == Outcome(422, InvalidRequest) && reviewId.None? && unchanged(db)
    ensures Models.ValidReviewCreate(bookId, rating, comment) ==>
      var uid := GetUserId(old(db.users), p);
      && (uid.None? ==> picked.None?)
      && (uid.Some? ==> (picked.None? <==> ReturnedLoansOf(old(db.loans), uid.value, bookId as nat) == {}))
      && (uid.Some? && picked.Some? ==> IsLatestReturned(old(db.loans), uid.value, bookId as nat, picked.value))
    ensures Models.ValidReviewCreate(bookId, rating, comment) && picked.Some? ==> picked.value in old(db.loans)
    ensures Models.ValidReviewCreate(bookId, rating, comment) ==>
      var uid := GetUserId(old(db.users), p);
      var verdict := ReviewVerdict(old(db.reviews), old(db.loans), uid, bookId as nat, picked);
      && (verdict.Failure? ==> out == verdict.error && reviewId.None? && unchanged(db))
      && (verdict.Success? ==>
            && out == Outcome(201, ReviewCreated) && reviewId == Some(old(db.nextReviewId))
            && db.reviews == old(db.reviews)[old(db.nextReviewId) := Review(uid.value, bookId as nat, rating, comment, old(db.now))]
            && db.loans == MarkReviewed(old(db.loans), picked.value)
            && db.nextReviewId == old(db.nextReviewId) + 1
            && unchanged(db`users, db`books, db`nextUserId, db`nextBookId, db`nextLoanId, db`now))
  {
    reviewId, picked := None, None;
    if !Models.ValidReviewCreate(bookId, rating, comment) {
      out := Outcome(422, InvalidRequest);
      return;
    }
    var uid := GetUserId(db.users, p);
    if uid.Some? {
      picked := LatestReturnedLoan(db.loans, uid.value, bookId as nat);
    }
    var verdict := ReviewVerdict(db.reviews, db.loans, uid, bookId as nat, picked);
    if verdict.Failure? {
      out := verdict.error;
      return;
    }
    var id := verdict.value;
    reviewId := InsertReview(db, Review(uid.value, bookId as nat, rating, comment, db.now));
    FlagReviewed(db, id);
    out := Outcome(201, ReviewCreated);
  }

  /** `INSERT INTO reviews …`: the next review id. */
  method InsertReview(db: Library, r: Review) returns (id: Option<nat>)
    requires db.Valid()
    modifies db`reviews, db`nextReviewId
    ensures db.Valid()
    ensures id == Some(old(db.nextReviewId)) && db.nextReviewId == old(db.nextReviewId) + 1
    ensures db.reviews == old(db.reviews)[old(db.nextReviewId) := r]
  {
    id := Some(db.nextReviewId);
    db.reviews := db.reviews[db.nextReviewId := r];
    db.nextReviewId := db.nextReviewId + 1;
  }

  /** The loan with `has_review` set. */
  function MarkReviewed(loans: map<nat, Loan>, id: nat): map<nat, Loan>
    requires id in loans
  {
    loans[id := loans[id].(hasReview := true)]
  }

  /** Setting a loan's review flag keeps the loan table valid. */
  lemma ReviewFlagKeepsLoansValid(loans: map<nat, Loan>, id: nat, nextLoanId: nat, nextBookId: nat, nextUserId: nat)
    requires id in loans && LoansValid(loans, nextLoanId, nextBookId, nextUserId)
    ensures LoansValid(MarkReviewed(loans, id), nextLoanId, nextBookId, nextUserId)
  {
    LimitsKeptWhenActiveShrinks(loans, MarkReviewed(loans, id));
  }

  /** `UPDATE loans SET has_review = TRUE WHERE id = %s`. */
  method FlagReviewed(db: Library, id: nat)
    requires db.Valid() && id in db.loans
    modifies db`loans
    ensures db.Valid()
    ensures db.loans == MarkReviewed(old(db.loans), id)
  {
    ReviewFlagKeepsLoansValid(db.loans, id, db.nextLoanId, db.nextBookId, db.nextUserId);
    db.loans := MarkReviewed(db.loans, id);
  }

  /**
   * `delete_review`: an unknown id is a 404; a caller who neither wrote the
   * review nor is an admin gets a 403; otherwise the review alone goes, and
   * the loan flag it set stays.
   */
  method DeleteReview(db: Library, p: Principal, reviewId: nat) returns (out: Outcome)
    requires db.Valid()
    modifies db`reviews
    ensures db.Valid()
    ensures reviewId !in old(db.reviews) ==> out == Outcome(404, ReviewNotFound) && db.reviews == old(db.reviews)
    ensures reviewId in old(db.reviews) ==>
      var owner := Some(old(db.reviews[reviewId]).userId) == GetUserId(db.users, p);
      && (!owner && CallerRole(p) != "admin" ==> out == Outcome(403, NotReviewOwner) && db.reviews == old(db.reviews))
      && (owner || CallerRole(p) == "admin" ==> out == Outcome(204, ReviewDeleted) && db.reviews == old(db.reviews) - {reviewId})
  {
    if reviewId !in db.reviews {
      return Outcome(404, ReviewNotFound);
    }
    var currentUserId := GetUserId(db.users, p);
    var userRole := CallerRole(p);
    if Some(db.reviews[reviewId].userId) != currentUserId && userRole != "admin" {
      return Outcome(403, NotReviewOwner);
    }
    db.reviews := db.reviews - {reviewId};
    out := Outcome(204, ReviewDeleted);
  }

  /**
   * A review written on the user's only returned loan of a book and then
   * deleted cannot be written again: the check per book passes, but the
   * flag on that loan was never cleared.
   */
  method ReviewDeleteReview(db: Library, p: Principal, bookId: int, rating: int)
    returns (first: Outcome, deleted: Outcome, second: Outcome)
    requires db.Valid()
    requires Models.ValidReviewCreate(bookId, rating, None)
    requires GetUserId(db.users, p).Some? && GetUserId(db.users, p).value != 0
    requires !HasReviewed(db.reviews, GetUserId(db.users, p).value, bookId as nat)
    requires exists id :: ReturnedLoansOf(db.loans, GetUserId(db.users, p).value, bookId as nat) == {id} && !db.loans[id].hasReview
    modifies db
    ensures first == Outcome(201, ReviewCreated)
    ensures deleted == Outcome(204, ReviewDeleted)
    ensures second == Outcome(400, LoanAlreadyReviewed)
  {
    var uid := GetUserId(db.users, p).value;
    ghost var id :| ReturnedLoansOf(db.loans, uid, bookId as nat) == {id} && !db.loans[id].hasReview;
    var rid, picked;
    first, rid, picked := CreateReview(db, p, bookId, rating, None);
    assert picked == Some(id);
    ghost var flagged := db.loans;
    assert ReturnedLoansOf(flagged, uid, bookId as nat) == {id} by {
      assert forall k :: k in flagged <==> k in old(db.loans);
      assert forall k :: k in flagged ==>
        flagged[k].status == old(db.loans[k]).status
        && flagged[k].userId == old(db.loans[k]).userId && flagged[k].bookId == old(db.loans[k]).bookId;
    }
    deleted := DeleteReview(db, p, rid.value);
    assert db.loans == flagged;
    second, rid, picked := CreateReview(db, p, bookId, rating, None);
    assert picked == Some(id);
  }

  /** The reviews `get_user_reviews` lists: the user's, joined with their book. */
  function ReviewsOf(reviews: map<nat, Review>, books: map<nat, Book>, userId: int): set<nat> {
    set id | id in reviews && reviews[id].userId == userId && reviews[id].bookId in books
  }

  function CreatedAtOf(reviews: map<nat, Review>, id: nat): int {
    if id in reviews then reviews[id].createdAt else 0
  }

  function ReviewRowId(r: ReviewRow): nat { r.id }

  /**
   * `get_user_reviews`: a caller whose id is not the one asked for gets a 403
   * unless an admin; otherwise that user's reviews joined with their books,
   * newest first.
   */
  method GetUserReviews(db: Library, p: Principal, userId: int) returns (out: Outcome, rows: seq<ReviewRow>)
    ensures out == Outcome(403, NotReviewOwner) <==>
      !(GetUserId(db.users, p).Some? && GetUserId(db.users, p).value == userId) && CallerRole(p) != "admin"
    ensures out == Outcome(403, NotReviewOwner) ==> rows == []
    ensures out != Outcome(403, NotReviewOwner) ==>
      && out == Outcome(200, ReviewsListed)
      && multiset(Listing.Keys(rows, ReviewRowId)) == multiset(ReviewsOf(db.reviews, db.books, userId))
      && (forall i :: 0 <= i < |rows| ==>
            rows[i].id in db.reviews && rows[i].review == db.reviews[rows[i].id]
            && rows[i].review.bookId in db.books && rows[i].bookTitle == db.books[rows[i].review.bookId].title)
      && (forall i, j :: 0 <= i < j < |rows| ==> rows[i].review.createdAt >= rows[j].review.createdAt)
  {
    rows := [];
    var currentUserId := GetUserId(db.users, p);
    if !(currentUserId.Some? && currentUserId.value == userId) && CallerRole(p) != "admin" {
      out := Outcome(403, NotReviewOwner);
      return;
    }
    var reviews, books := db.reviews, db.books;
    var ids := Listing.ListByKeyDesc(ReviewsOf(reviews, books, userId), (id: nat) => CreatedAtOf(reviews, id));
    var i := 0;
    while i < |ids|
      invariant 0 <= i <= |ids|
      invariant |rows| == i
      invariant forall k :: 0 <= k < i ==>
        rows[k].id == ids[k] && rows[k].id in reviews && rows[k].review == reviews[rows[k].id]
        && rows[k].review.bookId in books && rows[k].bookTitle == books[rows[k].review.bookId].title
    {
      var id := ids[i];
      assert id in multiset(ids);
      rows := rows + [ReviewRow(id, reviews[id], books[reviews[id].bookId].title)];
      i := i + 1;
    }
    assert Listing.Keys(rows, ReviewRowId) == ids;
    out := Outcome(200, ReviewsListed);
  }
}

=== FILE: store.dfy ===
/**
 * The four MySQL tables the routes work on (`users`, `books`, `loans`,
 * `reviews`), held by one `Library` object, together with the counts the
 * loan rules are stated in and the overdue refresh that `update_overdue_loans`
 * runs as a single UPDATE.
 *
 * Instants are whole seconds on one clock, `Library.now`, which stands for both
 * Python's `datetime.now()` and MySQL's `NOW()`. Row ids come from one
 * auto-increment counter per table. The column defaults the INSERTs rely on
 * are assumptions of the model: a new loan is `activo`, has no review and is
 * dated `now`; a new user is active; a new review is dated `now`.
 */
module Store {
  import opened Wrappers

  /** Seconds in a day. */
  const Day: int := 86400

  /** `MAX_LOANS_PER_USER` in `routes/loans.py`. */
  const MaxLoansPerUser: nat := 3

  /** `LOAN_DURATION_DAYS` in `routes/loans.py`. */
  const LoanDurationDays: int := 14

  /** The `loans.status` column. */
  datatype LoanStatus = Activo | Devuelto | Vencido

  /** The text stored in `loans.status`, which a `status_filter` query parameter is compared with. */
  function StatusName(s: LoanStatus): string {
    match s
    case Activo => "activo"
    case Devuelto => "devuelto"
    case Vencido => "vencido"
  }

  /** A `users` row; the table is keyed by its UNIQUE `username`. */
  datatype User = User(
    id: nat, email: string, passwordHash: string, fullName: Option<string>,
    role: string, isActive: bool)

  /** A `books` row. */
  datatype Book = Book(
    title: string, author: string, isbn: string, googleBooksId: Option<string>,
    description: Option<string>, category: Option<string>, publicationYear: Option<int>,
    coverUrl: Option<string>, totalPages: Option<int>, totalCopies: int, availableCopies: int)

  /** A `loans` row. */
  datatype Loan = Loan(
    userId: nat, bookId: nat, loanDate: int, dueDate: int, returnDate: Option<int>,
    status: LoanStatus, hasReview: bool)

  /** A `reviews` row. */
  datatype Review = Review(userId: nat, bookId: nat, rating: int, comment: Option<string>, createdAt: int)

  /** Why a route answered as it did; each tag stands for one message of the source. */
  datatype Reason =
    | InvalidRequest | NotAdmin
    | MissingToken | BadTokenFormat | BadScheme | InvalidToken | TokenWithoutSubject
    | UsernameOrEmailTaken | UserRegistered | BadCredentials | InactiveUser | LoggedIn
    | UserNotFound | BookNotFound | NoCopiesAvailable | LoanLimitReached | AlreadyBorrowed
    | AvailabilityUpdateFailed | LoanCreated | LoansListed | LoanNotFound | NotLoanOwner
    | AlreadyReturned | BookReturned | LoanFound
    | UserUnidentified | ReviewExists | NoReturnedLoan | LoanAlreadyReviewed | ReviewCreated
    | ReviewsListed | ReviewNotFound | NotReviewOwner | ReviewDeleted
    | BooksListed | BookFound | IsbnExists | BookCreated | NoFieldsToUpdate | BookUpdated
    | BookHasActiveLoans | BookDeleted | PreviewReady | NoLoanToRead | ReadReady
    | NotExcel | FileTooLarge | MissingColumns
    | ResponseInvalid  // the route's value fails its `response_model`, which FastAPI answers with a 500

  /** The ISBN strings stored in the catalogue. */
  function Isbns(books: map<nat, Book>): set<string> {
    set k | k in books :: books[k].isbn
  }

  /** `SELECT id FROM books WHERE isbn = %s` finds a row: the exact-string lookup of `create_book` and of the bulk import. */
  function IsbnStored(books: map<nat, Book>, isbn: string): (found: bool)
    ensures found <==> isbn in Isbns(books)
  {
    exists k :: k in books && books[k].isbn == isbn
  }

  /** Python truthiness of an optional string column or entry. */
  predicate Truthy(s: Option<string>) { s.Some? && s.value != "" }

  /** An HTTP status with the reason behind it. */
  datatype Outcome = Outcome(status: nat, reason: Reason)

  // ---------------------------------------------------------------- counts over the loans table

  /** `SELECT … FROM loans WHERE user_id = uid AND status = 'activo'`. */
  function ActiveLoansOf(loans: map<nat, Loan>, uid: nat): set<nat> {
    set id | id in loans && loans[id].userId == uid && loans[id].status == Activo
  }

  /** The loans of book `bid` whose copy has not come back: status `activo` or `vencido`. */
  function Outstanding(loans: map<nat, Loan>, bid: nat): set<nat> {
    set id | id in loans && loans[id].bookId == bid && loans[id].status != Devuelto
  }

  /** Whether user `uid` has an `activo` loan of book `bid`. */
  predicate HasActiveLoan(loans: map<nat, Loan>, uid: nat, bid: nat) {
    exists id :: id in loans && loans[id].userId == uid && loans[id].bookId == bid && loans[id].status == Activo
  }

  /** The copies of a book on the shelf plus those lent out and not yet returned. */
  ghost function Stock(books: map<nat, Book>, loans: map<nat, Loan>, bid: nat): int
    requires bid in books
  {
    books[bid].availableCopies + |Outstanding(loans, bid)|
  }

  /**
   * What `create_loan` guards: nobody holds more than three `activo` loans and
   * no two `activo` loans pair the same user with the same book.
   */
  ghost predicate LoanLimitsHold(loans: map<nat, Loan>) {
    (forall uid :: |ActiveLoansOf(loans, uid)| <= MaxLoansPerUser)
    && (forall i, j :: i in loans && j in loans && i != j && loans[i].status == Activo && loans[j].status == Activo ==>
          loans[i].userId != loans[j].userId || loans[i].bookId != loans[j].bookId)
  }

  /** A loan is returned exactly when it has a return date, and it falls due fourteen days after it starts. */
  predicate WellFormedLoan(l: Loan) {
    (l.returnDate.Some? <==> l.status == Devuelto)
    && l.dueDate == l.loanDate + LoanDurationDays * Day
  }

  /** A subset is no larger than its superset. */
  lemma {:induction false} SubsetCardinality(a: set<nat>, b: set<nat>)
    requires a <= b
    ensures |a| <= |b|
    decreases |b|
  {
    if a != {} {
      var x :| x in a;
      SubsetCardinality(a - {x}, b - {x});
    }
  }

  /** Loans that only lose `activo` status (or disappear) keep the loan limits. */
  lemma LimitsKeptWhenActiveShrinks(loans: map<nat, Loan>, loans': map<nat, Loan>)
    requires LoanLimitsHold(loans)
    requires forall id :: id in loans' && loans'[id].status == Activo ==>
               id in loans && loans[id].status == Activo
               && loans'[id].userId == loans[id].userId && loans'[id].bookId == loans[id].bookId
    ensures LoanLimitsHold(loans')
  {
    forall uid ensures |ActiveLoansOf(loans', uid)| <= MaxLoansPerUser {
      SubsetCardinality(ActiveLoansOf(loans', uid), ActiveLoansOf(loans, uid));
    }
  }

  /** A new `activo` loan for a user under the limit who holds no `activo` loan of that book keeps the loan limits. */
  lemma LimitsKeptByNewLoan(loans: map<nat, Loan>, id: nat, l: Loan)
    requires LoanLimitsHold(loans) && id !in loans && l.status == Activo
    requires |ActiveLoansOf(loans, l.userId)| < MaxLoansPerUser
    requires !HasActiveLoan(loans, l.userId, l.bookId)
    ensures LoanLimitsHold(loans[id := l])
  {
    var loans' := loans[id := l];
    forall uid ensures |ActiveLoansOf(loans', uid)| <= MaxLoansPerUser {
      ActiveLoansAfterInsert(loans, id, l, uid);
    }
    forall i, j | i in loans' && j in loans' && i != j && loans'[i].status == Activo && loans'[j].status == Activo
      ensures loans'[i].userId != loans'[j].userId || loans'[i].bookId != loans'[j].bookId
    {
      if i == id {
        assert j in loans && loans[j] == loans'[j];
      } else if j == id {
        assert i in loans && loans[i] == loans'[i];
      }
    }
  }

  lemma ActiveLoansAfterInsert(loans: map<nat, Loan>, id: nat, l: Loan, uid: nat)
    requires id !in loans && l.status == Activo
    ensures ActiveLoansOf(loans[id := l], uid) ==
      if uid == l.userId then ActiveLoansOf(loans, uid) + {id} else ActiveLoansOf(loans, uid)
  {
  }

  /** Adding a loan of another book, or changing one, leaves a book's outstanding set alone. */
  lemma OutstandingUnrelated(loans: map<nat, Loan>, id: nat, l: Loan, bid: nat)
    requires l.bookId != bid && (id in loans ==> loans[id].bookId != bid)
    ensures Outstanding(loans[id := l], bid) == Outstanding(loans, bid)
  {
  }

  // ---------------------------------------------------------------- the overdue refresh

  /** The WHERE clause of `update_overdue_loans`. */
  predicate PastDue(l: Loan, now: int) {
    l.status == Activo && l.dueDate < now && l.returnDate.None?
  }

  /**
   * `UPDATE loans SET status = 'vencido' WHERE status = 'activo' AND
   * due_date < NOW() AND return_date IS NULL`.
   */
  function RefreshOverdue(loans: map<nat, Loan>, now: int): (r: map<nat, Loan>)
    ensures r.Keys == loans.Keys
    ensures forall id :: id in loans ==> r[id] == loans[id].(status := r[id].status)
    ensures forall id :: id in loans ==>
      (r[id].status != loans[id].status <==> PastDue(loans[id], now))
    ensures forall id :: id in loans && r[id].status != loans[id].status ==> r[id].status == Vencido
    ensures forall id :: id in r ==> !PastDue(r[id], now)
  {
    map id | id in loans :: if PastDue(loans[id], now) then loans[id].(status := Vencido) else loans[id]
  }

  /** Running the refresh twice at the same instant is running it once. */
  lemma RefreshOverdueIdempotent(loans: map<nat, Loan>, now: int)
    ensures RefreshOverdue(RefreshOverdue(loans, now), now) == RefreshOverdue(loans, now)
  {
    var once := RefreshOverdue(loans, now);
    var twice := RefreshOverdue(once, now);
    assert forall id :: id in once ==> twice[id] == once[id];
  }

  /** An overdue loan still holds its copy, so the refresh leaves every book's outstanding set as it was. */
  lemma RefreshKeepsOutstanding(loans: map<nat, Loan>, now: int, bid: nat)
    ensures Outstanding(RefreshOverdue(loans, now), bid) == Outstanding(loans, bid)
  {
  }

  /** The refresh only takes loans out of `activo`, so the loan limits survive it; returns stay well formed. */
  lemma RefreshKeepsInvariants(loans: map<nat, Loan>, now: int)
    requires LoanLimitsHold(loans)
    requires forall id :: id in loans ==> WellFormedLoan(loans[id])
    ensures LoanLimitsHold(RefreshOverdue(loans, now))
    ensures forall id :: id in loans ==> WellFormedLoan(RefreshOverdue(loans, now)[id])
  {
    LimitsKeptWhenActiveShrinks(loans, RefreshOverdue(loans, now));
  }

  /** Every loan is well formed and points below the user and book counters, and the loan limits hold. */
  ghost predicate LoansValid(loans: map<nat, Loan>, nextLoanId: nat, nextBookId: nat, nextUserId: nat) {
    && (forall k :: k in loans ==>
          1 <= k < nextLoanId && WellFormedLoan(loans[k])
          && loans[k].bookId < nextBookId && loans[k].userId < nextUserId)
    && LoanLimitsHold(loans)
  }

  /** Raising the book or user counter keeps the loan table valid. */
  lemma LoansValidUnderLargerCounters(loans: map<nat, Loan>, nextLoanId: nat, nextBookId: nat, nextUserId: nat,
                                      nextBookId': nat, nextUserId': nat)
    requires LoansValid(loans, nextLoanId, nextBookId, nextUserId)
    requires nextBookId <= nextBookId' && nextUserId <= nextUserId'
    ensures LoansValid(loans, nextLoanId, nextBookId', nextUserId')
  {
  }

  /** The whole database, as the routes see it. */
  class Library {
    var users: map<string, User>
    var books: map<nat, Book>
    var loans: map<nat, Loan>
    var reviews: map<nat, Review>
    var nextUserId: nat
    var nextBookId: nat
    var nextLoanId: nat
    var nextReviewId: nat
    var now: int

    /**
     * Ids are below their table's counter, user ids are unique, every loan is
     * well formed and points below the user and book counters, and the loan
     * limits hold.
     */
    ghost predicate Valid()
      reads this
    {
      1 <= nextUserId && 1 <= nextBookId && 1 <= nextLoanId && 1 <= nextReviewId
      && (forall n :: n in users ==> 1 <= users[n].id < nextUserId)
      && (forall n, m :: n in users && m in users && n != m ==> users[n].id != users[m].id)
      && (forall k :: k in books ==> 1 <= k < nextBookId)
      && (forall k :: k in reviews ==> 1 <= k < nextReviewId)
      && LoansValid(loans, nextLoanId, nextBookId, nextUserId)
    }

    /** An empty database whose clock reads `now`. */
    constructor (now: int)
      ensures Valid()
      ensures users == map[] && books == map[] && loans == map[] && reviews == map[]
      ensures this.now == now
    {
      users, books, loans, reviews := map[], map[], map[], map[];
      nextUserId, nextBookId, nextLoanId, nextReviewId := 1, 1, 1, 1;
      this.now := now;
    }

    /** `SELECT id FROM users WHERE username = %s`. */
    function UserIdOf(username: string): (r: Option<nat>)
      reads this
      ensures r.Some? <==> username in users
      ensures r.Some? ==> r.value == users[username].id
    {
      if username in users then Some(users[username].id) else None
    }

    /** A book that no loan points at: no book row can carry the next id. */
    lemma NoLoanOfNextBook()
      requires Valid()
      ensures Outstanding(loans, nextBookId) == {}
      ensures forall uid :: !HasActiveLoan(loans, uid, nextBookId)
    {
    }
  }
}

=== FILE: text.dfy ===
/**
 * Character classes and the few `str` methods the backend relies on
 * (`replace`, `upper`, `lower`, `strip`, `split`, `' '.join`, `endswith`,
 * `isdigit`, substring `in`). Only ASCII digits and letters are modelled;
 * whitespace is the set Python's `str.isspace` accepts below U+0080.
 */
module Text {

  predicate IsDigit(c: char) { '0' <= c <= '9' }
  predicate IsUpper(c: char) { 'A' <= c <= 'Z' }
  predicate IsLower(c: char) { 'a' <= c <= 'z' }
  predicate IsLetter(c: char) { IsUpper(c) || IsLower(c) }

  predicate IsWhitespace(c: char) {
    c == ' ' || '\t' <= c <= '\r' || '\U{1C}' <= c <= '\U{1F}'
  }

  function DigitValue(c: char): (v: nat)
    requires IsDigit(c)
    ensures v <= 9
  {
    c as int - '0' as int
  }

  /** `str.isdigit()`: non-empty and every character a digit. */
  predicate AllDigits(s: string) {
    |s| > 0 && forall i :: 0 <= i < |s| ==> IsDigit(s[i])
  }

  /** Whether the first `n` characters are digits, checked one at a time. */
  function DigitsUpTo(s: string, n: nat): (b: bool)
    requires n <= |s|
    ensures b <==> forall i :: 0 <= i < n ==> IsDigit(s[i])
  {
    n == 0 || (DigitsUpTo(s, n - 1) && IsDigit(s[n - 1]))
  }

  function UpperChar(c: char): (u: char)
    ensures IsLower(c) ==> IsUpper(u)
    ensures !IsLower(c) ==> u == c
  {
    if IsLower(c) then (c as int - 32) as char else c
  }

  function LowerChar(c: char): (l: char)
    ensures IsUpper(c) ==> IsLower(l)
    ensures !IsUpper(c) ==> l == c
  {
    if IsUpper(c) then (c as int + 32) as char else c
  }

  /** `s.upper()` on ASCII letters. */
  function ToUpper(s: string): (r: string)
    ensures |r| == |s|
    ensures forall i :: 0 <= i < |s| ==> r[i] == UpperChar(s[i])
  {
    if s == [] then [] else [UpperChar(s[0])] + ToUpper(s[1..])
  }

  /** `s.lower()` on ASCII letters. */
  function ToLower(s: string): (r: string)
    ensures |r| == |s|
    ensures forall i :: 0 <= i < |s| ==> r[i] == LowerChar(s[i])
  {
    if s == [] then [] else [LowerChar(s[0])] + ToLower(s[1..])
  }

  /** `s.replace(c, '')`. */
  function Remove(s: string, c: char): (r: string)
    ensures |r| <= |s|
  {
    if s == [] then []
    else (if s[0] == c then [] else [s[0]]) + Remove(s[1..], c)
  }

  /** `Remove` keeps exactly the characters other than `c`, and nothing changes when there is no `c`. */
  lemma {:induction false} RemoveMembers(s: string, c: char)
    ensures forall x :: x in Remove(s, c) <==> x in s && x != c
    ensures c !in s ==> Remove(s, c) == s
  {
    if s != [] {
      RemoveMembers(s[1..], c);
      assert s == [s[0]] + s[1..];
    }
  }

  lemma {:induction false} RemoveConcat(a: string, b: string, c: char)
    ensures Remove(a + b, c) == Remove(a, c) + Remove(b, c)
  {
    if a != [] {
      assert (a + b)[0] == a[0];
      assert (a + b)[1..] == a[1..] + b;
      RemoveConcat(a[1..], b, c);
      var h := if a[0] == c then [] else [a[0]];
      assert Remove(a + b, c) == h + Remove(a[1..] + b, c);
      assert Remove(a, c) == h + Remove(a[1..], c);
    } else {
      assert a + b == b;
    }
  }

  /** Number of leading characters that `lstrip()` removes. */
  function LeadingSpace(s: string): (n: nat)
    ensures n <= |s|
    ensures forall i :: 0 <= i < n ==> IsWhitespace(s[i])
    ensures n < |s| ==> !IsWhitespace(s[n])
  {
    if s == [] || !IsWhitespace(s[0]) then 0 else 1 + LeadingSpace(s[1..])
  }

  /** Number of trailing characters that `rstrip()` removes. */
  function TrailingSpace(s: string): (n: nat)
    ensures n <= |s|
    ensures forall i :: |s| - n <= i < |s| ==> IsWhitespace(s[i])
    ensures n < |s| ==> !IsWhitespace(s[|s| - n - 1])
  {
    if s == [] || !IsWhitespace(s[|s| - 1]) then 0 else 1 + TrailingSpace(s[..|s| - 1])
  }

  function StripStart(s: string): (r: string)
    ensures r == s[LeadingSpace(s)..]
  {
    s[LeadingSpace(s)..]
  }

  function StripEnd(s: string): (r: string)
    ensures r == s[..|s| - TrailingSpace(s)]
  {
    s[..|s| - TrailingSpace(s)]
  }

  /** A trailing run of `n` whitespace characters with no whitespace before it is what `rstrip()` removes. */
  lemma {:induction false} TrailingSpaceIs(s: string, n: nat)
    requires n <= |s|
    requires forall i :: |s| - n <= i < |s| ==> IsWhitespace(s[i])
    requires n < |s| ==> !IsWhitespace(s[|s| - n - 1])
    ensures TrailingSpace(s) == n
    decreases n
  {
    if n > 0 {
      var t := s[..|s| - 1];
      assert IsWhitespace(s[|s| - 1]);
      assert forall i :: |t| - (n - 1) <= i < |t| ==> t[i] == s[i];
      TrailingSpaceIs(t, n - 1);
    }
  }

  /** `s.strip()`: the text between the leading and the trailing whitespace. */
  function Strip(s: string): (r: string)
    ensures r == [] || (!IsWhitespace(r[0]) && !IsWhitespace(r[|r| - 1]))
    ensures |r| <= |s|
    ensures LeadingSpace(s) < |s| ==> r == s[LeadingSpace(s)..|s| - TrailingSpace(s)]
    ensures LeadingSpace(s) == |s| ==> r == []
  {
    TrailingSpaceAfterLeading(s);
    StripEnd(StripStart(s))
  }

  /** Cutting the leading whitespace off leaves the trailing whitespace as it was. */
  lemma {:induction false} TrailingSpaceAfterLeading(s: string)
    ensures LeadingSpace(s) < |s| ==>
      TrailingSpace(s) < |s| - LeadingSpace(s) && TrailingSpace(s[LeadingSpace(s)..]) == TrailingSpace(s)
  {
    var l := LeadingSpace(s);
    if l < |s| {
      var n := TrailingSpace(s);
      assert !IsWhitespace(s[l]);
      assert n < |s| - l;
      TrailingSpaceIs(s[l..], n);
    }
  }

  /** Length of the run of non-whitespace characters at the start of `s`. */
  function WordLength(s: string): (n: nat)
    ensures n <= |s|
    ensures forall i :: 0 <= i < n ==> !IsWhitespace(s[i])
    ensures n < |s| ==> IsWhitespace(s[n])
  {
    if s == [] || IsWhitespace(s[0]) then 0 else 1 + WordLength(s[1..])
  }

  predicate IsWord(w: string) {
    |w| > 0 && forall i :: 0 <= i < |w| ==> !IsWhitespace(w[i])
  }

  /** `s.split()` with no separator: the maximal runs of non-whitespace characters. */
  function Split(s: string): (ws: seq<string>)
    ensures forall i :: 0 <= i < |ws| ==> IsWord(ws[i])
    decreases |s|
  {
    var t := StripStart(s);
    if t == [] then []
    else
      var n := WordLength(t);
      [t[..n]] + Split(t[n..])
  }

  /** `' '.join(ws)`. */
  function Join(ws: seq<string>): (r: string)
  {
    if ws == [] then ""
    else if |ws| == 1 then ws[0]
    else ws[0] + " " + Join(ws[1..])
  }

  /** `sep.join(ws)` for an arbitrary separator. */
  function JoinWith(sep: string, ws: seq<string>): string
  {
    if ws == [] then ""
    else if |ws| == 1 then ws[0]
    else ws[0] + sep + JoinWith(sep, ws[1..])
  }

  /** Index of the first `c` in `s` (`|s|` when there is none). */
  function FirstIndex(s: string, c: char): (n: nat)
    ensures n <= |s|
    ensures n < |s| ==> s[n] == c
    ensures forall k :: 0 <= k < n ==> s[k] != c
  {
    if s == [] || s[0] == c then 0 else 1 + FirstIndex(s[1..], c)
  }

  /** Index of the last `c` in `s` (`-1` when there is none). */
  function LastIndex(s: string, c: char): (n: int)
    ensures -1 <= n < |s|
    ensures n >= 0 ==> s[n] == c
    ensures forall k :: n < k < |s| ==> s[k] != c
  {
    if s == [] then -1
    else if s[|s| - 1] == c then |s| - 1
    else LastIndex(s[..|s| - 1], c)
  }

  /** `s.endswith(suffix)`. */
  predicate EndsWith(s: string, suffix: string) {
    |suffix| <= |s| && s[|s| - |suffix|..] == suffix
  }

  /** `sub in s` on strings. */
  predicate Contains(s: string, sub: string) {
    exists i :: 0 <= i <= |s| - |sub| && OccursAt(s, sub, i)
  }

  predicate OccursAt(s: string, sub: string, i: int) {
    0 <= i <= |s| - |sub| && s[i..i + |sub|] == sub
  }

  predicate IsPrefix(p: string, s: string) {
    |p| <= |s| && s[..|p|] == p
  }

  /**
   * A string in the shape `' '.join(s.split())` produces: whitespace occurs only
   * as single spaces strictly between two non-whitespace characters.
   */
  ghost predicate Collapsed(s: string) {
    && (forall i :: 0 <= i < |s| && IsWhitespace(s[i]) ==> s[i] == ' ' && 0 < i < |s| - 1)
    && (forall i, j :: 0 <= i < j < |s| && j == i + 1 ==> !IsWhitespace(s[i]) || !IsWhitespace(s[j]))
  }

  lemma {:induction false} JoinOfWordsIsCollapsed(ws: seq<string>)
    requires forall i :: 0 <= i < |ws| ==> IsWord(ws[i])
    ensures Collapsed(Join(ws))
    ensures ws != [] ==> |Join(ws)| > 0
  {
    if |ws| > 1 {
      JoinOfWordsIsCollapsed(ws[1..]);
      var w, rest := ws[0], Join(ws[1..]);
      var s := w + " " + rest;
      assert Join(ws) == s;
      assert IsWord(ws[1]);
      assert !IsWhitespace(rest[0]);
      assert forall i :: 0 <= i < |w| ==> s[i] == w[i];
      assert forall i :: |w| < i < |s| ==> s[i] == rest[i - |w| - 1];
      assert s[|w|] == ' ';
      assert Collapsed(s);
    }
  }

  lemma StripOfNonSpaceEnds(s: string)
    requires s == [] || (!IsWhitespace(s[0]) && !IsWhitespace(s[|s| - 1]))
    ensures Strip(s) == s
  {
  }

  lemma CollapsedEnds(s: string)
    requires Collapsed(s)
    ensures s == [] || (!IsWhitespace(s[0]) && !IsWhitespace(s[|s| - 1]))
  {
  }

  /** Dropping trailing whitespace from any prefix of a collapsed string leaves it collapsed. */
  lemma StripEndOfPrefixIsCollapsed(s: string, k: nat)
    requires Collapsed(s) && k <= |s|
    ensures Collapsed(StripEnd(s[..k]))
    ensures IsPrefix(StripEnd(s[..k]), s)
    ensures StripStart(s[..k]) == s[..k]
  {
    var p := s[..k];
    var q := StripEnd(p);
    assert q == s[..|q|];
    forall i | 0 <= i < |q| && IsWhitespace(q[i])
      ensures q[i] == ' ' && 0 < i < |q| - 1 && !IsWhitespace(q[i + 1])
    {
      assert q[i] == s[i];
      assert i != |q| - 1;
      assert q[i + 1] == s[i + 1];
    }
  }

  lemma {:induction false} SplitOfCollapsed(s: string)
    requires Collapsed(s)
    ensures Join(Split(s)) == s
    ensures s != [] ==> Split(s) != []
    decreases |s|
  {
    if s != [] {
      var n := WordLength(s);
      var w := s[..n];
      assert Split(s) == [w] + Split(s[n..]) by {
        assert n > 0;
        assert s == w + s[n..];
        SplitWordThen(w, s[n..]);
      }
      if n == |s| {
        assert Split(s[n..]) == [];
      } else {
        var rest := s[n + 1..];
        assert Split(s[n..]) == Split(rest) by {
          assert s[n..] == [' '] + rest;
          SplitLeadingSpace(' ', rest);
        }
        CollapsedAfterSpace(s, n);
        SplitOfCollapsed(rest);
        JoinCons(w, Split(rest));
        SpaceSplitsAt(s, n);
      }
    }
  }

  lemma SpaceSplitsAt(s: string, n: nat)
    requires n < |s| && s[n] == ' '
    ensures s == s[..n] + " " + s[n + 1..]
  {
  }

  /** What follows a space in a collapsed string is collapsed too. */
  lemma CollapsedAfterSpace(s: string, n: nat)
    requires Collapsed(s) && n < |s| && IsWhitespace(s[n])
    ensures s[n] == ' ' && n + 1 < |s| && Collapsed(s[n + 1..])
  {
    var rest := s[n + 1..];
    forall i | 0 <= i < |rest| && IsWhitespace(rest[i])
      ensures rest[i] == ' ' && 0 < i < |rest| - 1 && !IsWhitespace(rest[i + 1])
    {
      assert rest[i] == s[n + 1 + i];
    }
  }

  lemma JoinCons(w: string, ws: seq<string>)
    requires ws != []
    ensures Join([w] + ws) == w + " " + Join(ws)
  {
    assert ([w] + ws)[1..] == ws;
  }

  /** The word at the front of `w + rest` ends where `w` does when `rest` starts with whitespace or is empty. */
  lemma {:induction false} WordLengthOfWord(w: string, rest: string)
    requires IsWord(w)
    requires rest == [] || IsWhitespace(rest[0])
    ensures WordLength(w + rest) == |w|
    decreases |w|
  {
    var s := w + rest;
    assert s[0] == w[0];
    if |w| > 1 {
      assert IsWord(w[1..]);
      WordLengthOfWord(w[1..], rest);
      assert s[1..] == w[1..] + rest;
    } else {
      assert s[1..] == rest;
    }
  }

  /** A word followed by nothing or by whitespace is the first item of the split. */
  lemma SplitWordThen(w: string, rest: string)
    requires IsWord(w)
    requires rest == [] || IsWhitespace(rest[0])
    ensures Split(w + rest) == [w] + Split(rest)
  {
    var s := w + rest;
    assert s[0] == w[0];
    assert StripStart(s) == s;
    WordLengthOfWord(w, rest);
    assert s[..|w|] == w;
    assert s[|w|..] == rest;
  }

  /** A leading whitespace character does not change the split. */
  lemma SplitLeadingSpace(c: char, s: string)
    requires IsWhitespace(c)
    ensures Split([c] + s) == Split(s)
  {
    var t := [c] + s;
    assert t[1..] == s;
    assert LeadingSpace(t) == 1 + LeadingSpace(s);
    assert StripStart(t) == StripStart(s) by {
      assert t[1 + LeadingSpace(s)..] == s[LeadingSpace(s)..];
    }
  }

  /** Splitting a word is the one-word list. */
  lemma SplitOfWord(w: string)
    requires IsWord(w)
    ensures Split(w) == [w]
  {
    SplitWordThen(w, []);
    assert w + [] == w;
    assert Split([]) == [];
  }

  /** `(a + " " + b).split()` is `[a, b]` for two words. */
  lemma SplitTwoWords(a: string, b: string)
    requires IsWord(a) && IsWord(b)
    ensures Split(a + " " + b) == [a, b]
  {
    assert a + " " + b == a + ([' '] + b);
    SplitWordThen(a, [' '] + b);
    SplitLeadingSpace(' ', b);
    SplitOfWord(b);
  }
}

=== FILE: utils.dfy ===
/**
 * The shared helpers of `app/utils.py`: the uniform JSON envelope, the lenient
 * ISBN format check, date formatting, string sanitising, the e-mail pattern and
 * whole-day differences between two instants.
 */
module Utils {
  import opened Wrappers
  import opened Text

  /** A value of the response body: a plain message string or a serialised payload. */
  datatype Field<D> = Message(text: string) | Payload(data: D)

  /** What `create_response` hands to FastAPI: an HTTP status and the body's key/value pairs. */
  datatype Response<D> = Response(status: nat, content: map<string, Field<D>>)

  /**
   * `create_response`: the body always carries "message"; "data" only when
   * `data` is not `None`; "detail" only when `detail` is not `None`.
   */
  function CreateResponse<D>(status: nat, message: string, data: Option<D>, detail: Option<string>): (r: Response<D>)
    ensures r.status == status
    ensures r.content.Keys <= {"message", "data", "detail"}
    ensures "message" in r.content && r.content["message"] == Message(message)
    ensures "data" in r.content <==> data.Some?
    ensures data.Some? ==> r.content["data"] == Payload(data.value)
    ensures "detail" in r.content <==> detail.Some?
    ensures detail.Some? ==> r.content["detail"] == Message(detail.value)
  {
    var body := map["message" := Message(message)];
    var body := if data.Some? then body["data" := Payload(data.value)] else body;
    var body := if detail.Some? then body["detail" := Message(detail.value)] else body;
    Response(status, body)
  }

  /** The digits of `s`, in order. */
  function Digits(s: string): (d: string)
    ensures |d| <= |s|
    ensures forall i :: 0 <= i < |d| ==> IsDigit(d[i])
  {
    if s == [] then [] else (if IsDigit(s[0]) then [s[0]] else []) + Digits(s[1..])
  }

  /** Every character is a digit, a hyphen or a space. */
  predicate IsbnCharsOnly(s: string) {
    forall i :: 0 <= i < |s| ==> IsDigit(s[i]) || s[i] == '-' || s[i] == ' '
  }

  lemma {:induction false} RemoveSeparatorsKeepsDigits(s: string)
    requires IsbnCharsOnly(s)
    ensures Remove(Remove(s, '-'), ' ') == Digits(s)
  {
    if s != [] {
      assert IsbnCharsOnly(s[1..]);
      RemoveSeparatorsKeepsDigits(s[1..]);
      var r1 := Remove(s[1..], '-');
      if s[0] == '-' {
        assert Remove(s, '-') == r1;
      } else {
        assert Remove(s, '-') == [s[0]] + r1;
        assert ([s[0]] + r1)[1..] == r1;
        assert Remove([s[0]] + r1, ' ') == (if s[0] == ' ' then [] else [s[0]]) + Remove(r1, ' ');
      }
      assert Digits(s) == (if IsDigit(s[0]) then [s[0]] else []) + Digits(s[1..]);
    }
  }

  /** Removing hyphens and spaces leaves exactly the digits, or some other character survives. */
  lemma CleanedIsbn(isbn: string)
    ensures IsbnCharsOnly(isbn) ==> Remove(Remove(isbn, '-'), ' ') == Digits(isbn)
    ensures !IsbnCharsOnly(isbn) ==> !AllDigits(Remove(Remove(isbn, '-'), ' '))
  {
    if IsbnCharsOnly(isbn) {
      RemoveSeparatorsKeepsDigits(isbn);
    } else {
      var i :| 0 <= i < |isbn| && !(IsDigit(isbn[i]) || isbn[i] == '-' || isbn[i] == ' ');
      var clean := Remove(Remove(isbn, '-'), ' ');
      RemoveMembers(isbn, '-');
      RemoveMembers(Remove(isbn, '-'), ' ');
      assert isbn[i] in clean;
    }
  }

  /**
   * `validate_isbn` in `utils.py`: after removing hyphens and spaces what is
   * left must be 10 or 13 digits; no check digit is verified and 'X' is refused.
   */
  function ValidateIsbnFormat(isbn: string): (ok: bool)
    ensures ok <==> IsbnCharsOnly(isbn) && (|Digits(isbn)| == 10 || |Digits(isbn)| == 13)
  {
    var clean := Remove(Remove(isbn, '-'), ' ');
    CleanedIsbn(isbn);
    AllDigits(clean) && (|clean| == 10 || |clean| == 13)
  }

  /** `format_date`: `None` in, `None` out; otherwise the rendering `render` gives. */
  function FormatDate(date: Option<int>, render: int -> string): (r: Option<string>)
    ensures r.None? <==> date.None?
  {
    match date
    case None => None
    case Some(d) => Some(render(d))
  }

  /** Python's `s[:stop]`, including a negative `stop` counted from the end. */
  function SliceTo(s: string, stop: int): (r: string)
    ensures IsPrefix(r, s)
    ensures 0 <= stop <= |s| ==> |r| == stop
    ensures stop < 0 ==> |r| == if |s| + stop < 0 then 0 else |s| + stop
    ensures stop >= |s| ==> r == s
  {
    if 0 <= stop <= |s| then s[..stop]
    else if stop > |s| then s
    else if |s| + stop >= 0 then s[..|s| + stop]
    else []
  }

  /**
   * `sanitize_string`: runs of whitespace become single spaces, the text is cut to
   * `max_length` characters when longer and stripped again.
   */
  function SanitizeString(text: string, maxLength: int): (r: string)
    ensures Collapsed(r)
    ensures maxLength >= 0 ==> |r| <= maxLength
    ensures IsPrefix(r, Join(Split(text)))
    ensures |Join(Split(text))| <= maxLength ==> r == Join(Split(text))
    ensures |Join(Split(text))| > maxLength ==> r == Strip(SliceTo(Join(Split(text)), maxLength))
    ensures 0 <= maxLength < |Join(Split(text))| ==>
      var joined := Join(Split(text));
      r == if maxLength > 0 && joined[maxLength - 1] == ' ' then joined[..maxLength - 1] else joined[..maxLength]
  {
    var joined := Join(Split(text));
    JoinOfWordsIsCollapsed(Split(text));
    if |joined| > maxLength then
      var cut := SliceTo(joined, maxLength);
      assert cut == joined[..|cut|];
      CutOfCollapsed(joined, |cut|);
      Strip(cut)
    else
      CutOfCollapsed(joined, |joined|);
      Strip(joined)
  }

  /**
   * A collapsed text cut after `k` characters and stripped is a collapsed prefix
   * of it: the cut loses at most the one space it may end on.
   */
  lemma CutOfCollapsed(s: string, k: nat)
    requires Collapsed(s) && k <= |s|
    ensures Strip(s[..k]) == if k > 0 && s[k - 1] == ' ' then s[..k - 1] else s[..k]
    ensures Collapsed(Strip(s[..k])) && IsPrefix(Strip(s[..k]), s)
  {
    var c := s[..k];
    StripEndOfPrefixIsCollapsed(s, k);
    assert StripStart(c) == c;
    if k > 0 && s[k - 1] == ' ' {
      CollapsedEnds(s);
      assert k >= 2;
      assert !IsWhitespace(s[k - 2]);
      TrailingSpaceIs(c, 1);
    } else {
      TrailingSpaceIs(c, 0);
    }
  }

  /** With a non-negative bound, sanitising a sanitised string changes nothing. */
  lemma SanitizeIsIdempotent(text: string, maxLength: int)
    requires maxLength >= 0
    ensures SanitizeString(SanitizeString(text, maxLength), maxLength) == SanitizeString(text, maxLength)
  {
    var r := SanitizeString(text, maxLength);
    SplitOfCollapsed(r);
    CollapsedEnds(r);
    StripOfNonSpaceEnds(r);
  }

  /**
   * A negative bound is a slice from the end, so on a word of three or more
   * characters a second pass cuts one character more.
   */
  lemma SanitizeNegativeBoundNotIdempotent(w: string)
    requires IsWord(w) && |w| >= 3
    ensures SanitizeString(w, -1) == w[..|w| - 1]
    ensures SanitizeString(SanitizeString(w, -1), -1) == w[..|w| - 2]
    ensures SanitizeString(SanitizeString(w, -1), -1) != SanitizeString(w, -1)
  {
    SanitizeWordNegativeBound(w, -1);
    var v := w[..|w| - 1];
    assert IsWord(v);
    SanitizeWordNegativeBound(v, -1);
    assert v[..|v| - 1] == w[..|w| - 2];
  }

  /** A single word with a negative bound loses that many characters from its end. */
  lemma SanitizeWordNegativeBound(w: string, maxLength: int)
    requires IsWord(w) && maxLength < 0 && |w| + maxLength >= 1
    ensures SanitizeString(w, maxLength) == w[..|w| + maxLength]
  {
    SplitOfWord(w);
    assert Join([w]) == w;
    var cut := w[..|w| + maxLength];
    assert SliceTo(w, maxLength) == cut;
    StripOfNonSpaceEnds(cut);
  }

  predicate IsLocalChar(c: char) { IsLetter(c) || IsDigit(c) || c in "._%+-" }
  predicate IsDomainChar(c: char) { IsLetter(c) || IsDigit(c) || c == '.' || c == '-' }

  /**
   * One way `[a-zA-Z0-9._%+-]+@[a-zA-Z0-9.-]+\.[a-zA-Z]{2,}` matches the whole of
   * `s`: the '@' sits at `i` and the dot before the top-level domain at `j`.
   */
  ghost predicate EmailMatchAt(s: string, i: int, j: int) {
    0 < i && i + 1 < j && j + 3 <= |s|
    && (forall k :: 0 <= k < i ==> IsLocalChar(s[k]))
    && s[i] == '@'
    && (forall k :: i < k < j ==> IsDomainChar(s[k]))
    && s[j] == '.'
    && (forall k :: j < k < |s| ==> IsLetter(s[k]))
  }

  ghost predicate EmailBodyMatches(s: string) {
    exists i, j :: EmailMatchAt(s, i, j)
  }

  /** `re.match` with `^…$`: `$` also matches just before one final newline. */
  ghost predicate EmailPatternAccepts(email: string) {
    EmailBodyMatches(email)
    || (|email| > 0 && email[|email| - 1] == '\n' && EmailBodyMatches(email[..|email| - 1]))
  }

  /** The scan behind the pattern: the first '@', then the last '.' after it. */
  predicate EmailShape(s: string) {
    var at := FirstIndex(s, '@');
    0 < at < |s|
    && (forall k :: 0 <= k < at ==> IsLocalChar(s[k]))
    && var d := s[at + 1..];
    var dot := LastIndex(d, '.');
    0 < dot && dot + 3 <= |d|
    && (forall k :: 0 <= k < |d| ==> IsDomainChar(d[k]))
    && (forall k :: dot < k < |d| ==> IsLetter(d[k]))
  }

  lemma EmailShapeIsMatch(s: string)
    ensures EmailShape(s) <==> EmailBodyMatches(s)
  {
    if EmailShape(s) {
      ShapeGivesMatch(s);
    }
    if EmailBodyMatches(s) {
      var i, j :| EmailMatchAt(s, i, j);
      MatchGivesShape(s, i, j);
    }
  }

  lemma ShapeGivesMatch(s: string)
    requires EmailShape(s)
    ensures EmailBodyMatches(s)
  {
    var at := FirstIndex(s, '@');
    var d := s[at + 1..];
    var j := at + 1 + LastIndex(d, '.');
    assert forall k :: at < k < |s| ==> s[k] == d[k - at - 1];
    assert EmailMatchAt(s, at, j);
  }

  lemma MatchGivesShape(s: string, i: int, j: int)
    requires EmailMatchAt(s, i, j)
    ensures EmailShape(s)
  {
    assert FirstIndex(s, '@') == i by {
      assert forall k :: 0 <= k < i ==> s[k] != '@';
    }
    var d := s[i + 1..];
    LastDotIs(d, j - i - 1);
  }

  /** A dot followed by letters only is the last dot. */
  lemma LastDotIs(d: string, t: int)
    requires 0 <= t < |d| && d[t] == '.'
    requires forall k :: t < k < |d| ==> IsLetter(d[k])
    ensures LastIndex(d, '.') == t
  {
  }

  /** `validate_email`. */
  function ValidateEmail(email: string): (ok: bool)
    ensures ok <==> EmailPatternAccepts(email)
  {
    EmailShapeIsMatch(email);
    if |email| > 0 && email[|email| - 1] == '\n' then
      EmailShapeIsMatch(email[..|email| - 1]);
      EmailShape(email[..|email| - 1])
    else
      EmailShape(email)
  }

  lemma EmailAcceptedExamples()
    ensures ValidateEmail("ana@mail.com")
    ensures ValidateEmail("ana@mail.com\n")
  {
    var s := "ana@mail.com";
    assert EmailMatchAt(s, 3, 8);
    assert ("ana@mail.com\n")[..12] == s;
  }

  lemma EmailRejectedExamples()
    ensures !ValidateEmail("ana@mail.c")
    ensures !ValidateEmail("@mail.com")
  {
    ShortTopLevelDomainRejected();
    EmptyLocalPartRejected();
  }

  lemma ShortTopLevelDomainRejected()
    ensures !EmailShape("ana@mail.c")
  {
    assert FirstIndex("ana@mail.c", '@') == 3;
    assert "ana@mail.c"[4..] == "mail.c";
    assert LastIndex("mail.c", '.') == 4;
  }

  lemma EmptyLocalPartRejected()
    ensures !EmailShape("@mail.com")
  {
    assert FirstIndex("@mail.com", '@') == 0;
  }

  const SecondsPerDay: nat := 86400

  /**
   * `calculate_days_difference`: `(date2 - date1).days` with instants in seconds,
   * the whole days rounded down (negative differences round towards minus infinity).
   */
  function DaysDifference(date1: int, date2: int): (days: int)
    ensures days * SecondsPerDay <= date2 - date1 < (days + 1) * SecondsPerDay
  {
    (date2 - date1) / SecondsPerDay
  }
}

=== FILE: wrappers.dfy ===
/** Optional values and success-or-error results, used for Python's `None` and raised exceptions. */
module Wrappers {

  datatype Option<+T> = None | Some(value: T) {
    function GetOr(default: T): T {
      match this
      case Some(v) => v
      case None => default
    }
  }

  datatype Result<+R, +E> = Success(value: R) | Failure(error: E)
}
